=== FILE: README.md ===
# Passive Edge production core, modelled in Dafny

Passive Edge is a small production-management system. It tracks customer orders, the formulas
(bills of materials) they are made from, the raw-material stock those formulas consume, and the
quality tests run on each order. This project models the system's business core as pure Dafny
functions over an immutable `Store`, and proves what each operation promises.

The core modelled here:

- **The stock ledger.** `updateStock` is the one operation that moves stock. It handles an `in`,
  an `out` that must not go below zero, and an `adjust`. It derives the three-way stock status and
  appends one ledger row.
- **The order service.** It computes material requirements and advisory warnings when an order is
  created. On a status update it deducts the formula's materials when production starts and stamps
  the shipping date on completion. The deduction is best effort and collects its errors.
- **The test service.** Completing a test completes its order when that order is in production.
  Tests can be created for an order, singly or in a batch that skips failures.
- **The record shapes.** Orders, formulas, formula lines, materials, ledger rows and test records,
  with their column defaults, unique keys and partial updates ("only the supplied columns change,
  plus `updatedAt`").
- **The identifier formats.** Material codes (`L01`…`O25`, 135 in all), order numbers
  (`PE-YYYYMMDD-XXXC`) and test numbers (`T-YYYYMMDD-XXX`).
- **Small decision functions.** Courier URL lookup and tracking-number checks, the route guard in
  front of every request the matcher selects, and the in-memory credential store.

Modelling choices:

- **Tables.** Each table is a `seq` of rows, and a lookup returns the first matching row, as the
  `const [row] = select … where …` reads do. The schema's primary keys and unique columns form the
  store invariant `Schema.WellFormed`, which the writing operations are proved to preserve.
- **Updates.** An update by id patches every row that carries the id, as SQL does.
- **Quantities.** Quantities are `real`, so the proofs are about exact arithmetic. An order's
  `quantity` is an `int`.
- **Parameters for the outside world.** The clock (`now`), the eight-digit date stamp the clock
  renders, the random test-number suffix and the database-generated ids are all parameters.
- **Status columns.** A status is one of the known values or an escape value carrying any other
  text. The escape value cannot carry a known spelling, so comparing statuses is comparing the
  stored strings, as the code does.
- **Schema validation.** The insert and update schemas reject a text longer than its `varchar`
  column and an integer outside 32 bits. Their thrown error is a failure result, returned before
  anything is written. A text's length is JavaScript's `length`, `Text.Utf16Length`: a character
  outside the Basic Multilingual Plane counts two UTF-16 code units.
- **String replacement.** `String.prototype.replace` with a string pattern replaces the first
  occurrence only, and expands the `$$`, `$&`, `` $` `` and `$'` patterns of the replacement text
  (`Shipping.Substitute`).
- **Plain objects.** The password table is a plain JavaScript object, so writing the key
  `__proto__` is ignored. The model keeps that behaviour.
- **Optional strings.** JavaScript truthiness of an optional string (`if (order.formulaId)`) is
  `Wrappers.Present`: present and non-empty.
- **Partial updates.** An omitted column is `None`. A nullable column being set is `Some(v)`,
  where `v` is itself an option.

Modules, one file each:

- `Wrappers`: `Option`, `Result`, `Present`.
- `Text`: character classes, ASCII upper-casing, decimal rendering and padding.
- `Dates`: the eight-digit date stamp.
- `Schema`: the record types, defaults, partial updates, lookups and unique keys.
- `StockLedger`: `updateStock`.
- `OrderService`.
- `TestService`.
- `MaterialCodes`.
- `OrderNumbers`.
- `Shipping`.
- `RouteGuard`: the middleware.
- `Users`.

The model follows the code; the points where it departs or abstracts are:

- The test service writes a test's new status through `testManager.updateTestStatus`, which the
  test manager does not define, so the call throws for every existing test. Here the model departs
  from the code: `TestService.UpdateTestStatus` performs the evidently intended partial update of
  `{status, conclusion}` through `updateTestRecord`, and `TestService.UpdateTestStatusAsWritten`
  models the code as written. Both are recorded under Findings.
- A new material defaults to status `normal` at stock 0. `updateStock` would call the same stock
  `out_of_stock`. The model keeps both, as written.
- Order status updates apply no transition check, and a failed deduction is not rolled back. The
  model reproduces that behaviour.

## Model

| member | source | states |
|---|---|---|
| StockLedger.StockStatus | src/storage/database/materialManager.ts:148 | out of stock iff the new stock is at most 0, low stock iff it is positive and below the minimum, normal otherwise; never `expired` |
| StockLedger.UpdateStock | src/storage/database/materialManager.ts:113-169 | unknown id gives `null` and no write; an `out` below zero fails with stock and ledger untouched; otherwise `in` adds, `out` subtracts, `adjust` sets; only the target row's stock, status and `updatedAt` change; exactly one ledger row with before/after snapshots, reason, reference, approver and creator is appended |
| StockLedger.UpdateStockPreservesWellFormed | src/storage/database/materialManager.ts:143-151 | the update never touches ids or codes, so unique keys stay unique |
| StockLedger.UpdateStockKeepsLedgerConsistent | src/storage/database/materialManager.ts:128-140 | every appended ledger row's after-stock follows from its type, before-stock and quantity |
| StockLedger.UpdateStockStatusConsistent | src/storage/database/materialManager.ts:145-149 | the written status always agrees with the written stock |
| StockLedger.UpdateStockNonNegative | src/storage/database/materialManager.ts:131-140 | with non-negative stocks and quantity no operation leaves a negative stock |
| StockLedger.UpdateStockTotal | src/storage/database/materialManager.ts:143-166 | under unique ids the total stock changes by exactly the appended row's after minus before; a refused or unknown operation changes nothing |
| StockLedger.OutOf850Example | src/storage/database/materialManager.ts:133-148 | P01 at 1000 with minimum 200: an `out` of 850 leaves 150, low stock, with a 1000→150 ledger row |
| Schema.NewOrder | src/storage/database/shared/schema.ts:51-80 | an inserted order gets the generated id, status `pending`, priority `medium` and type `production` unless supplied, no shipping date and no `updatedAt` |
| Schema.OrderStatusText | src/storage/database/shared/schema.ts:62 | the stored text is one of `pending`, `processing`, `completed`, `cancelled` iff the status is a known one |
| Schema.ParseOrderStatus | src/storage/database/shared/schema.ts:62 | every stored text reads back as a status whose text it is |
| Schema.OrderStatusRoundTrip | src/storage/database/shared/schema.ts:62 | reading a status's text gives the status back |
| Schema.TestStatusText | src/storage/database/shared/schema.ts:455 | the stored text is one of `pending`, `testing`, `completed`, `failed` iff the status is a known one |
| Schema.ParseTestStatus | src/storage/database/shared/schema.ts:455 | every stored text reads back as a test status whose text it is |
| Schema.TestStatusRoundTrip | src/storage/database/shared/schema.ts:455 | reading a test status's text gives the status back |
| Schema.StatusPatchValid | src/storage/database/shared/schema.ts:62 | a status-only patch passes the update schema iff its text is at most 20 UTF-16 code units long; the known statuses always do |
| Schema.AstralStatusLength | src/storage/database/shared/schema.ts:62 | ten emoji (20 code units) pass the status column, eleven (22 code units, 11 characters) do not |
| Text.Utf16Length | src/storage/database/shared/schema.ts:62 | a string's JavaScript `length` lies between its number of characters and twice that |
| Text.Utf16LengthBmp | src/storage/database/shared/schema.ts:62 | a string without astral characters has `length` equal to its number of characters |
| Text.Utf16LengthAstral | src/storage/database/shared/schema.ts:62 | a string of astral characters only has `length` twice its number of characters |
| Schema.ApplyOrderPatch | src/storage/database/orderManager.ts:83-92 | `updatedAt` is stamped; every updatable column (status, priority, formula, version, quantity, dates, amount, remarks, shipping and cancel columns) takes the supplied value or keeps the old one; every other column, customer and contacts included, is unchanged |
| Schema.OrderPatchLaws | src/storage/database/shared/schema.ts:116-131 | an empty patch only stamps `updatedAt`; applying a patch twice equals applying it once |
| Schema.PerUnit | src/storage/database/shared/schema.ts:230 | a null per-unit quantity counts as 0 |
| Schema.NewMaterial | src/storage/database/shared/schema.ts:258-275 | a new material's stock and minimum default to 0 and its status to `normal` |
| Schema.ApplyMaterialPatch | src/storage/database/shared/schema.ts:313-327 | `updatedAt` is stamped; every updatable column takes the supplied value or keeps the old one; id, code, category, unit, creator and creation time are unchanged |
| Schema.MaterialPatchLaws | src/storage/database/shared/schema.ts:313-327 | empty patch only stamps `updatedAt`; a patch is idempotent |
| Schema.NewTestRecord | src/storage/database/shared/schema.ts:444-455 | a new test record defaults to `pending`, keeps the required formula id and the optional order link |
| Schema.ApplyTestPatch | src/storage/database/testManager.ts:87-96 | `updatedAt` is stamped; status, conclusion, standard, tester and the result columns take the supplied value or keep the old one; id, number, type, the order and formula links and the creator are unchanged |
| Schema.TestPatchLaws | src/storage/database/shared/schema.ts:502-513 | empty patch only stamps `updatedAt`; a patch is idempotent |
| Schema.InsertDefaults | src/storage/database/shared/schema.ts:61-63 | with nothing supplied: order `pending`/`medium`/`production`, material 0/0/`normal`, test `pending` |
| Schema.InsertThenFind | src/storage/database/orderManager.ts:10-14 | after an order, material or test is inserted under an id no row of its table carries, the lookup by that id finds exactly the inserted row, defaults included |
| Schema.LookupIsUnique | src/storage/database/shared/schema.ts:55 | under a unique key only one row carries a given key |
| Schema.FindOrder | src/storage/database/orderManager.ts:65-69 | the first order with the id, or none when no row has it |
| Schema.FindFormula | src/storage/database/formulaManager.ts:67-71 | the first formula with the id, or none when no row has it |
| Schema.FindMaterial | src/storage/database/materialManager.ts:72-76 | the first material with the id, or none when no row has it |
| Schema.FindTest | src/storage/database/testManager.ts:69-73 | the first test record with the id, or none when no row has it |
| Schema.FindMaterialByCode | src/storage/database/shared/schema.ts:262 | the first material with the code, or none when no row has it |
| Schema.MaterialCodeLookupUnique | src/storage/database/shared/schema.ts:262 | with unique codes a by-code lookup finds the one material carrying the code |
| Schema.UpdateOrderRows | src/storage/database/orderManager.ts:86-90 | an update by id patches exactly the rows carrying the id and leaves every other row as it was; the table's length, ids and order numbers are kept |
| Schema.UpdateTestRows | src/storage/database/testManager.ts:87-96 | an update by id patches exactly the rows carrying the id and leaves every other row as it was; the table's length, ids and test numbers are kept |
| Schema.BomOf | src/storage/database/shared/schema.ts:222-230 | a formula's lines are the formula-material rows with its id, each as often as it occurs, and no other row (returned in the order the model's table holds them) |
| OrderService.LineRequirement | src/lib/order-service.ts:47-59 | a line yields a requirement iff its material code is found; required = per-unit × quantity; sufficient iff stock ≥ required; the name falls back to the code |
| OrderService.LineReport | src/lib/order-service.ts:47-70 | a line contributes its requirement when the material is found, its code iff the stock falls short, and either a shortage warning or, when covered but leaving less than the minimum, a below-minimum warning; a line without a material contributes nothing |
| OrderService.Requirements | src/lib/order-service.ts:46-72 | at most one requirement per line, every found line contributes its requirement, and sufficiency holds iff stock covers the requirement |
| OrderService.RequirementsFromLines | src/lib/order-service.ts:46-59 | every listed requirement comes from a line of the formula |
| OrderService.CheckStock | src/lib/order-service.ts:46-72 | the one-pass loop yields exactly the requirements, the short codes and the warnings of the per-line definitions |
| OrderService.ShortLineWarns | src/lib/order-service.ts:61-65 | a found line with insufficient stock puts its code in `lowStockMaterials` and its insufficient-stock warning in `warnings` |
| OrderService.CheckStockReadsMaterials | src/lib/order-service.ts:41-73 | stores that agree on their materials get the same stock report |
| OrderService.CreatorCodeFor | src/lib/order-service.ts:37 | a supplied creator code is kept; otherwise the code is one UTF-16 unit (none for an empty creator): the upper-cased first character of `createdBy`, or U+FFFD when that character is outside the Basic Multilingual Plane, whose lone high surrogate is stored as U+FFFD |
| OrderService.CreateOrderWithStockCheck | src/lib/order-service.ts:26-82 | a draft that breaks a column limit is refused before any write; otherwise the order row is inserted unless its id or number is taken, whatever the stock; the report is the stock check against the unchanged materials |
| OrderService.CreateOrderPreservesWellFormed | src/storage/database/shared/schema.ts:54-55 | creating an order keeps ids and order numbers unique |
| OrderService.ShortStockOnlyWarns | src/lib/order-service.ts:34-38 | insufficient stock never prevents creation; the short code shows up in the low-stock list and there is at least one warning |
| OrderService.GetOrderMaterialRequirements | src/lib/order-service.ts:177-203 | missing order or no formula gives `[]`, otherwise the formula's requirements for the order's quantity |
| OrderService.RequirementsAgreeWithCreation | src/lib/order-service.ts:177-203 | listing a created order's requirements gives the ones reported at creation |
| OrderService.RequirementsAppend | src/lib/order-service.ts:46-72 | the requirements of two line lists, one after the other, are the two requirement lists one after the other |
| OrderService.RequirementsPermutation | src/lib/order-service.ts:44-72 | lines read in another order give the same requirements, each as often, perhaps reordered |
| OrderService.DeductLine | src/lib/order-service.ts:141-164 | at most one error, naming the line's material code; a missing material is reported as missing with no write; a found material gets exactly the stock update `out` of the line's requirement tagged with the order number, and the line fails iff that update is refused, reporting the available stock; a success logs a row for the found material's id (and, under unique codes, the line's code) |
| OrderService.DeductLineTotal | src/lib/order-service.ts:148-159 | one deduction lowers the total stock by exactly the quantity it logs |
| OrderService.DeductAll | src/lib/order-service.ts:141-165 | every line is tried; each appends one deduction row or one error; the errors name, in order, codes of the formula's lines; under unique keys the logged rows are, in order, the material codes and requirements of a selection of the lines; every line missing at the start is reported |
| OrderService.DeductAllTotal | src/lib/order-service.ts:141-165 | the total stock falls by the sum of the quantities logged, successful deductions staying applied |
| OrderService.AutoDeduct | src/lib/order-service.ts:129-172 | a missing order or a formula-less order is refused with no write; otherwise only deduction rows for the order are appended, and success holds iff one was appended per formula line; a failure carries at least one error |
| OrderService.AutoDeductInLineOrder | src/lib/order-service.ts:129-172 | under unique keys the appended rows move, in order, codes and requirements of formula lines, and when every material covers the total demand on its code the deduction succeeds with exactly one row per line |
| OrderService.DeductLineStock | src/lib/order-service.ts:148-159 | with a non-negative requirement, one line lowers a code's stock by at most that line's requirement on the code, and no lookup by code changes |
| OrderService.LineCovered | src/lib/order-service.ts:141-165 | under unique keys and non-negative requirements, a line whose material exists and holds at least this line's requirement plus the earlier lines' on the same code is deducted: its code and requirement are among the logged rows |
| OrderService.CoveredDeductsAll | src/lib/order-service.ts:141-165 | when every line's material holds the total demand on its code, no error is reported and the logged rows are exactly the lines' codes and requirements, in order |
| OrderService.UpdateOrderStatus | src/lib/order-service.ts:87-124 | a missing order, and only that, is answered "not found" without writing; a status text longer than its column (counted in UTF-16 code units) throws before any write; formulas and tests are never touched, material identities are kept, and no other order changes |
| OrderService.UpdateOrderStatusWrites | src/lib/order-service.ts:100-118 | when the update goes through, the order gets the new status; a move to `completed` other than starting production also gets the shipping date |
| OrderService.UpdateOrderStatusNoDeduction | src/lib/order-service.ts:114-123 | without the pending→processing deduction stock and ledger are unchanged, and the update succeeds iff the status text is at most 20 UTF-16 code units, `cancelled` included |
| OrderService.UpdateOrderStatusDeduction | src/lib/order-service.ts:103-112 | pending→processing with a formula appends deduction rows tagged with the order number; success iff every line was deducted; under unique keys the rows are, in order, codes and requirements of formula lines; with every code's total demand covered the update reports success and logs exactly one row per line |
| OrderService.UpdateOrderStatusRejects | src/storage/database/orderManager.ts:83-86 | a status text over 20 UTF-16 code units for an existing order is rejected by the update schema, and nothing is written |
| OrderService.ShortStockScenario | src/lib/order-service.ts:103-112 | with too little stock the update reports failure while the order stays in `processing` and nothing is deducted |
| OrderService.FullStockScenario | src/lib/order-service.ts:141-171 | with enough stock 10 units of a 0.9-per-unit formula deduct 9, and the update reports success |
| TestService.UpdateTestStatus | src/lib/test-service.ts:29-65 | unknown test: failure, no write; a status text over 20 UTF-16 code units throws before any write; otherwise status and supplied conclusion are written; the order is completed iff the test newly completes, is linked, and its order is in production |
| TestService.CompletionCascadesOnce | src/lib/test-service.ts:50 | completing an already completed test never cascades again |
| TestService.OnlyCompletionTouchesOrders | src/lib/test-service.ts:50-58 | any other new status leaves every order untouched |
| TestService.CascadeKeepsShippingDate | src/lib/test-service.ts:53-55 | the cascade writes only the order status (and `updatedAt`), never the shipping date |
| TestService.TestNumber | src/lib/test-service.ts:90-93 | a test number is `T-`, the eight-digit stamp, `-`, then the suffix |
| TestService.TestNumberInjective | src/lib/test-service.ts:93 | the test number determines its stamp and suffix |
| TestService.TestDraftFor | src/lib/test-service.ts:95-106 | the inserted record is pending and takes its order link from the order and its formula fields from the formula |
| TestService.CreateTestForOrder | src/lib/test-service.ts:70-112 | fails with order-missing, no-formula, formula-missing in that order, then on a draft that breaks a column limit, then on a taken id or number; otherwise appends exactly the drafted record, which fits the columns |
| TestService.CreateTestPreservesWellFormed | src/storage/database/shared/schema.ts:447-448 | creating a test keeps ids and test numbers unique |
| TestService.BatchStep | src/lib/test-service.ts:125-133 | one iteration adds at most one record, pending, linked to the order and of the requested type, and a thrown creation adds nothing |
| TestService.CreateBatchTests | src/lib/test-service.ts:117-135 | at most one record per type, in input order, all pending and linked to the order; exactly those are appended. Each creation has its own draw of id, date stamp and suffix, as each reads the clock again |
| TestService.BatchForUnusableOrder | src/lib/test-service.ts:125-132 | for a missing order, formula-less order or missing formula nothing is created |
| TestService.BatchCreatesAll | src/lib/test-service.ts:125-134 | with a usable order, fresh draws (no drawn id or test number already taken or drawn twice) and drafts that fit the columns (lengths in UTF-16 code units), every type gets its record, in order |
| TestService.UpdateTestStatusAsWritten | src/lib/test-service.ts:42-45 | as written, an existing test's update throws before any write |
| TestService.AsWrittenNeverCascades | src/lib/test-service.ts:42-57 | as written, completing a linked test never completes its order, while the intended update does |
| MaterialCodes.GenerateCodes | src/lib/material-config.ts:34-40 | end−start+1 codes, the k-th the prefix and start+k zero-padded to two digits |
| MaterialCodes.GeneratedMembership | src/lib/material-config.ts:34-40 | for numbers within 0..99 a string is generated iff it is the letter and two digits in range |
| MaterialCodes.GeneratedDistinct | src/lib/material-config.ts:34-40 | a series' codes are pairwise distinct |
| MaterialCodes.SeriesCodesMembership | src/lib/material-config.ts:43-49 | the full list holds a code iff it belongs to some series |
| MaterialCodes.AllCodesFacts | src/lib/material-config.ts:107-118 | the full list has 135 distinct codes, the declared total |
| MaterialCodes.SeriesCodes | src/lib/material-config.ts:43-49 | the concatenated series lists are as long as the sum of the series' spans |
| MaterialCodes.IsValidMaterialCode | src/lib/material-config.ts:52-54 | a code is valid iff it belongs to some series |
| MaterialCodes.ParseMaterialCode | src/lib/material-config.ts:57-71 | a parse result is the code's letter and two-digit number |
| MaterialCodes.ParseIffValid | src/lib/material-config.ts:52-71 | parsing succeeds iff the code is valid |
| MaterialCodes.ParseRoundTrip | src/lib/material-config.ts:57-71 | every generated code parses back to its letter and number |
| MaterialCodes.ParseExamples | src/lib/material-config.ts:58-68 | `L00`, `A16`, `Z01`, `l01`, `L250` are rejected; `L25` parses |
| MaterialCodes.GetMaterialSeries | src/lib/material-config.ts:74-79 | non-null iff parsing succeeds, then the series with the parsed letter, whose range holds the number |
| MaterialCodes.PickIsFirstEligible | src/lib/material-config.ts:84-98 | filtering unused then by prefix and taking the head picks the first code that is unused and has the prefix |
| MaterialCodes.GetNextAvailableCode | src/lib/material-config.ts:82-99 | `None` iff no listed code is unused with the prefix; otherwise the first such code in series order, which is valid |
| MaterialCodes.FirstCodeIsL01 | src/lib/material-config.ts:82-99 | with nothing used the first code is `L01` |
| MaterialCodes.FormatIdempotent | src/lib/material-config.ts:102-104 | formatting twice equals formatting once |
| MaterialCodes.FormatMaterialCode | src/lib/material-config.ts:102-104 | formatting maps each character to its upper-case form (one to one, so the length is kept), leaves no lower-case letter, and leaves a valid code as it is |
| OrderNumbers.GenerateOrderNo | src/lib/order-utils.ts:13-24 | `PE-`, the stamp, `-`, the sequence padded to at least three digits, the upper-cased creator code |
| OrderNumbers.ParseOrderNo | src/lib/order-utils.ts:27-46 | non-null iff the number matches the pattern, and then the four groups reassemble to the number |
| OrderNumbers.ParseAssemble | src/lib/order-utils.ts:35-45 | parsing inverts assembling for every well-shaped group tuple |
| OrderNumbers.GenerateParseRoundTrip | src/lib/order-utils.ts:13-46 | for 0..999 and a one-letter code the number parses to `PE`, the stamp, the padded sequence (which reads back as the sequence) and the upper-cased letter |
| OrderNumbers.GenerateRejected | src/lib/order-utils.ts:20-35 | a sequence outside 0..999 or a code that is not one letter gives a number the parser rejects |
| OrderNumbers.GeneratedValidIff | src/lib/order-utils.ts:13-57 | a generated number is valid iff the sequence is in 0..999 and the code is one letter |
| OrderNumbers.GetCreatorCodeFromOrderNo | src/lib/order-utils.ts:49-52 | the trailing letter of a valid number, `None` otherwise |
| OrderNumbers.FormatOrderNoIdempotent | src/lib/order-utils.ts:60-62 | formatting is idempotent |
| OrderNumbers.IsValidOrderNo | src/lib/order-utils.ts:55-57 | a number is valid iff it is exactly two ASCII capitals (any two, not only `PE`), `-`, eight digits, `-`, exactly three digits and one ASCII capital: sixteen characters in all |
| OrderNumbers.FormatOrderNo | src/lib/order-utils.ts:60-62 | formatting maps each character to its upper-case form (one to one, so the length is kept), leaves no lower-case letter, and leaves a valid number as it is |
| OrderNumbers.GenerateExample | src/lib/order-utils.ts:1-5 | sequence 6, creator `j`, stamp `20260117` gives `PE-20260117-006J` |
| OrderNumbers.GenerateExampleOnDate | src/lib/order-utils.ts:13-24 | the same number comes out when the stamp is rendered from 17 January 2026 |
| Dates.DateStamp | src/lib/order-utils.ts:18-19 | a date renders as eight digits whose first four read as the year, the next two as the month and the last two as the day |
| Dates.DateStampInjective | src/lib/order-utils.ts:18-19 | different valid dates render differently |
| Dates.DateStampExample | src/lib/order-utils.ts:18-19 | 17 January 2026 renders as `20260117` |
| Shipping.Substitute | src/lib/shipping-utils.ts:89 | a replacement text without `$` is inserted verbatim |
| Shipping.SubstituteExamples | src/lib/shipping-utils.ts:89 | `$$` gives `$`, `$&` the matched text, `` $` `` the text before, `$'` the text after; `$1` and a trailing `$` stay literal |
| Shipping.ReplaceFirst | src/lib/shipping-utils.ts:89 | only the first occurrence of the pattern is replaced, by the substituted replacement text; the text before and after it is kept |
| Shipping.FillTemplate | src/lib/shipping-utils.ts:89-92 | filling a brace-free page plus placeholder gives the page followed by the substituted number, the number itself when it holds no `$` |
| Shipping.TableFacts | src/lib/shipping-utils.ts:14-83 | company codes are distinct and every template, the universal one included, is a brace-free page followed by one placeholder |
| Shipping.GetShippingQueryUrl | src/lib/shipping-utils.ts:86-93 | a known code gives its company's page followed by the substituted number, an unknown one the universal page followed by it; a number without `$` appears verbatim |
| Shipping.QueryUrlHasNoPlaceholder | src/lib/shipping-utils.ts:86-93 | for a number without braces and without `$` the URL ends with the number and contains no placeholder |
| Shipping.DollarNumberKeepsPlaceholder | src/lib/shipping-utils.ts:86-93 | for the number `$&` every code gives back its template unchanged, placeholder included |
| Shipping.IsValidTrackingNumber | src/lib/shipping-utils.ts:120-124 | valid iff 8 to 20 characters, all ASCII letters or digits |
| Shipping.ValidNumberUrl | src/lib/shipping-utils.ts:120-124 | every valid tracking number gives a URL ending with it and without a placeholder |
| Shipping.GetShippingCompanyName | src/lib/shipping-utils.ts:96-99 | a known code gives the company's name, an unknown one the code itself |
| Shipping.NameOfListedCompany | src/lib/shipping-utils.ts:96-99 | each listed company's code maps back to its own name |
| Shipping.GuessShippingCompany | src/lib/shipping-utils.ts:127-142 | a result exists iff the number is `SF`+digits, one of `E`/`C`/`K`+digits, or `JD`+digits, naming SF, EMS or JD respectively |
| Shipping.ShapesDisjoint | src/lib/shipping-utils.ts:129-139 | the three shapes exclude each other |
| RouteGuard.Middleware | src/middleware.ts:7-28 | let through iff authenticated and not exactly `/login`, or anonymous on a public route; the only redirects are `/login`→`/` with a cookie and non-public→`/login` without |
| RouteGuard.TokenValueIrrelevant | src/middleware.ts:14-15 | only the cookie's presence matters |
| RouteGuard.NoRedirectLoop | src/middleware.ts:18-27 | following a redirect with the same cookie state is let through |
| RouteGuard.AnonymousReachesOnlyPublic | src/middleware.ts:23-27 | without a cookie exactly the public routes pass |
| RouteGuard.AuthenticatedReachesAllButLogin | src/middleware.ts:18-27 | with a cookie every path except exactly `/login` passes |
| RouteGuard.PrefixExamples | src/middleware.ts:5-11 | the public test is by prefix: `/api/authx` and `/login-help` are public, `/` and `/api/orders` are not |
| Users.InitializeUsers | src/lib/users.ts:20-35 | afterwards the list is non-empty and `admin` has a truthy digest; a non-empty list and other names' digests are kept |
| Users.InitializeIdempotent | src/lib/users.ts:20-35 | initialising twice equals initialising once |
| Users.GetUserByUsername | src/lib/users.ts:46-48 | none iff no user has the name, otherwise the first user with it |
| Users.VerifyPassword | src/lib/users.ts:51-59 | false for an unknown user, for an absent or empty stored digest, and for the name `__proto__` |
| Users.VerifyStored | src/lib/users.ts:51-59 | with an injective digest exactly the stored password verifies, unless it is empty, for every name but `__proto__` |
| Users.UpdateUserPassword | src/lib/users.ts:62-68 | unknown user: false and no change; otherwise true, and the new digest is stored unless the name is `__proto__`, whose write is ignored; no other user's entry changes |
| Users.StoreDigest | src/lib/users.ts:15-17 | writing a key stores the digest under it and keeps every other key, except that writing `__proto__` changes nothing |
| Users.UpdateThenVerify | src/lib/users.ts:62-68 | after an update exactly the new non-empty password verifies for that user, unless the name is `__proto__`; other users verify as before |
| Users.AddUser | src/lib/users.ts:71-83 | the new record is appended without a duplicate check, with id `user-` and the time; the digest is stored under the name, except that a `__proto__` write is ignored |
| Users.AddExistingUser | src/lib/users.ts:71-83 | re-adding a listed name keeps the original record first for lookups; the password is overwritten, except for `__proto__` |
| Users.AddNewUser | src/lib/users.ts:71-83 | a new name becomes a listed user whose password verifies, unless the name is `__proto__` |
| Users.InitialAdminLogin | src/lib/users.ts:5-38 | at start-up `admin` logs in with `admin123` and nothing else |

## Left out

- The pages, components, layout and authentication context are left out: they render over mock
  data, timers and browser state.
- The API route handlers are left out. They are HTTP parsing and status mapping around the
  modelled calls.
- The debug reset endpoint is left out. It keeps its own unrelated user arrays.
- Seed data is left out, except as the worked examples' values (P01 at 1000/200, 0.9 per unit).
- Query building, search, filters, pagination and statistics in the data managers are left out.
  Lookups and updates are modelled as first-match reads and id-matched row updates.
- The other reads of the managers are left out. Only `getOrderById`, `getMaterialByCode`,
  `getFormulaById`, `getFormulaMaterials` and `getTestRecordById` are modelled.
- `createTestRecord`, `getOrderTests` and `getFormulaTests` of the test service are left out. They
  are direct pass-throughs to the data manager.
- Concurrency and atomicity are not modelled. The two writes of `updateStock` and the writes of a
  status update are sequential state steps, and no isolation is claimed.
- Rounding to `numeric(10,2)` and JavaScript floating point are not modelled. The proofs are about
  exact arithmetic.
- The clock, `Math.random` and date formatting are parameters:
  - the current time is `now`;
  - the eight-digit date stamp is a parameter checked by `Dates.IsStamp`, which `Dates.DateStamp`
    produces from a calendar date;
  - the test-number suffix is a parameter;
  - generated ids are parameters.

  The UTC versus local-time difference between the two stamps is not modelled.
- `window.open` in the tracking helper is left out.
- Base64 password hashing is abstracted as the injective `Users.HashPassword`. The model keeps only
  the fact that the empty password has the empty, falsy digest.
- Token generation and storage in the browser are left out.
- Shipping.QueryUrlHasNoPlaceholder: stated only for numbers without braces and without `$`. A
  `$` pattern such as `$&` can bring the placeholder back (`Shipping.DollarNumberKeepsPlaceholder`);
  every valid tracking number is alphanumeric, so `Shipping.ValidNumberUrl` holds for all of them.
- Shipping.Substitute: the numbered (`$1`) and named (`$<name>`) patterns are kept literally, as
  they are for a string pattern, which has no capture groups.
- Text.ToUpper: maps the ASCII lower-case letters and the two non-ASCII letters that upper-case
  into ASCII (`ı` to `I`, `ſ` to `S`). Other non-ASCII letters are kept as they are, and
  one-to-many mappings such as `ß` to `SS` are not modelled, because JavaScript's full Unicode
  case mapping is out of scope.
- MaterialCodes.FormatMaterialCode: the clause that formatting keeps the length holds for the
  model's one-to-one upper-casing only. In JavaScript a character with a one-to-many mapping
  lengthens the text (`"ß01"` formats to `"SS01"`, `ﬁ` to `FI`), and the model does not promise
  anything for such input.
- OrderNumbers.FormatOrderNo: the same applies; the length is kept only when no character of
  the number has a one-to-many upper-case mapping.
- Schema.BomOf: the formula-line read has no `orderBy` (src/storage/database/formulaManager.ts:137),
  so the database may return the rows in any order, and two reads need not agree. The model fixes
  one order, the table's. Results that depend on the order of the lines rely on that choice.
- OrderService.RequirementsAgreeWithCreation: the equality of the two requirement sequences relies
  on both reads returning the lines in the same order. Whatever the order, they hold the same
  entries (`OrderService.RequirementsPermutation`).
- The route matcher of src/middleware.ts:30-41 is not modelled. It keeps the guard away from
  `_next/static`, `_next/image`, `favicon.ico` and image files, and the guard is stated for the
  requests it selects.
- StockLedger.UpdateStock: writes without a schema parse, so the database's own column limits
  (a `varchar(50)` approver or reference, `numeric(10,2)` quantities) are not modelled; the model
  always writes.
- The column limits of the material insert and update schemas are not modelled.
  `Schema.NewMaterial` and `Schema.ApplyMaterialPatch` model the rows those calls write. The
  core's operations change materials only through `updateStock`, which does not parse.
- OrderService.CreateOrderWithStockCheck: an order whose id or number is already taken is a
  failure result. The database's unique constraint would reject that insert.
- TestService.CreateTestForOrder: the same applies to a taken test id or number.
- OrderService.UpdateOrderStatus: the text of the status message is replaced by a tag. The tag
  says whether the order was missing, the update succeeded, or a deduction failed, and it carries
  the deduction errors.
- OrderService.DeductLine: an error carries the material code, the requirement and the available
  stock, not the formatted message.

## Findings

| source | as written | input that shows it | evidently intended | confidence | as-written member | corrected member |
|---|---|---|---|---|---|---|
| src/lib/test-service.ts:42-45 | the status write calls `testManager.updateTestStatus`, which the test manager does not define, so it throws a `TypeError` for every existing test | any existing test id, e.g. completing a test linked to an order in production | the partial update of `{status, conclusion}` through `updateTestRecord` (src/storage/database/testManager.ts:87), followed by the order cascade | high; not executed | TestService.AsWrittenNeverCascades | TestService.UpdateTestStatus |

=== FILE: dates.dfy ===
/**
 * Calendar dates as the injected clock delivers them, and their eight-digit stamp `YYYYMMDD`
 * (date-fns `format(d, 'yyyyMMdd')` for order numbers, the ISO date with dashes removed for
 * test numbers).
 */
module Dates {
  import opened Text

  datatype Date = Date(year: nat, month: nat, day: nat)

  /** Dates whose year renders in four digits; the clock only produces such dates here. */
  predicate ValidDate(d: Date) {
    d.year <= 9999 && 1 <= d.month <= 12 && 1 <= d.day <= 31
  }

  /** Eight decimal digits. */
  predicate IsStamp(s: string) {
    |s| == 8 && AllDigits(s)
  }

  /** `YYYYMMDD`: year, month and day, each zero-padded, and each read back by its slice. */
  function DateStamp(d: Date): (s: string)
    requires ValidDate(d)
    ensures IsStamp(s)
    ensures DigitsValue(s[..4]) == d.year && DigitsValue(s[4..6]) == d.month && DigitsValue(s[6..]) == d.day
  {
    var y := PadStart(NatToString(d.year), 4, '0');
    var m := PadStart(NatToString(d.month), 2, '0');
    var dd := PadStart(NatToString(d.day), 2, '0');
    PaddedNat(d.year, 4);
    PaddedNat(d.month, 2);
    PaddedNat(d.day, 2);
    StampPieces(y, m, dd);
    y + m + dd
  }

  /** Four, two and two digits make a stamp, and its slices give the pieces back. */
  lemma StampPieces(y: string, m: string, dd: string)
    requires |y| == 4 && |m| == 2 && |dd| == 2
    requires AllDigits(y) && AllDigits(m) && AllDigits(dd)
    ensures IsStamp(y + m + dd)
    ensures (y + m + dd)[..4] == y && (y + m + dd)[4..6] == m && (y + m + dd)[6..] == dd
  {
    AllDigitsAppend(y, m);
    AllDigitsAppend(y + m, dd);
  }

  /** Different valid dates have different stamps. */
  lemma DateStampInjective(d1: Date, d2: Date)
    requires ValidDate(d1) && ValidDate(d2) && DateStamp(d1) == DateStamp(d2)
    ensures d1 == d2
  {
  }

  /** 17 January 2026 stamps as `20260117`. */
  lemma DateStampExample()
    ensures DateStamp(Date(2026, 1, 17)) == "20260117"
  {
    assert NatToString(2) == "2" && NatToString(20) == "20" && NatToString(202) == "202";
    assert NatToString(2026) == "2026";
    assert NatToString(1) == "1" && NatToString(17) == "17";
    assert PadStart("1", 2, '0') == "01";
  }
}

=== FILE: material_codes.dfy ===
/**
 * Material codes: a series letter followed by a two-digit number. Seven series are defined
 * (L, H and O run 01 to 25; A, B, C and D run 01 to 15), 135 codes in all. The module generates
 * the codes, validates and parses them, and picks the next free code for a new material.
 */
module MaterialCodes {
  import opened Wrappers
  import opened Text

  datatype Series = Series(prefix: char, start: nat, end: nat, count: nat)

  /** The series table, in the order codes are listed and handed out. */
  const MaterialSeries: seq<Series> := [
    Series('L', 1, 25, 25),
    Series('H', 1, 25, 25),
    Series('A', 1, 15, 15),
    Series('B', 1, 15, 15),
    Series('C', 1, 15, 15),
    Series('D', 1, 15, 15),
    Series('O', 1, 25, 25)
  ]

  /** The separately declared range table the total count is computed from. */
  datatype CodeRange = CodeRange(prefix: char, start: nat, end: nat, total: nat)

  const MaterialCodeRanges: seq<CodeRange> := [
    CodeRange('L', 1, 25, 25),
    CodeRange('H', 1, 25, 25),
    CodeRange('A', 1, 15, 15),
    CodeRange('B', 1, 15, 15),
    CodeRange('C', 1, 15, 15),
    CodeRange('D', 1, 15, 15),
    CodeRange('O', 1, 25, 25)
  ]

  function SumTotals(rs: seq<CodeRange>): nat
    decreases |rs|
  {
    if |rs| == 0 then 0 else rs[0].total + SumTotals(rs[1..])
  }

  /** `TOTAL_MATERIAL_COUNT`. */
  function TotalMaterialCount(): nat {
    SumTotals(MaterialCodeRanges)
  }

  // ---------------------------------------------------------------------------
  // Generation.

  /** One code: the prefix and the number zero-padded to at least two digits. */
  function CodeFor(prefix: string, n: int): string {
    prefix + PadStart(IntToString(n), 2, '0')
  }

  /** The number a well-shaped code carries. */
  function CodeNumber(code: string): nat
    requires |code| == 3 && IsDigit(code[1]) && IsDigit(code[2])
  {
    10 * DigitValue(code[1]) + DigitValue(code[2])
  }

  /** `code` is the letter `c` followed by the two digits of `n`. */
  predicate CodeOf(code: string, c: char, n: int) {
    |code| == 3 && code[0] == c && IsDigit(code[1]) && IsDigit(code[2]) && CodeNumber(code) == n
  }

  /** A one-letter code for a number up to 99 is the letter and the number's two digits. */
  lemma CodeForShape(c: char, n: int)
    requires 0 <= n <= 99
    ensures CodeOf(CodeFor([c], n), c, n)
  {
    assert Pow10(2) == 100;
    PaddedNat(n, 2);
    var p := PadStart(NatToString(n), 2, '0');
    assert p[..1][..0] == [];
    assert DigitsValue(p) == 10 * DigitValue(p[0]) + DigitValue(p[1]) by {
      assert p[..1] == [p[0]];
      assert DigitsValue([p[0]]) == DigitValue(p[0]) by { assert [p[0]][..0] == []; }
    }
    assert CodeFor([c], n) == [c] + p;
  }

  /** Letter and number determine a three-character code. */
  lemma CodeOfUnique(a: string, b: string, c: char, n: int)
    requires CodeOf(a, c, n) && CodeOf(b, c, n)
    ensures a == b
  {
    assert DigitValue(a[1]) == DigitValue(b[1]);
    assert a == [a[0], a[1], a[2]];
    assert b == [b[0], b[1], b[2]];
  }

  lemma CodeForShapes(prefix: string, start: int, end: int)
    ensures |prefix| == 1 && 0 <= start && end <= 99 ==>
      forall n | start <= n <= end :: CodeOf(CodeFor(prefix, n), prefix[0], n)
  {
    if |prefix| == 1 && 0 <= start && end <= 99 {
      forall n | start <= n <= end ensures CodeOf(CodeFor(prefix, n), prefix[0], n) {
        assert prefix == [prefix[0]];
        CodeForShape(prefix[0], n);
      }
    }
  }

  /** `generateMaterialCodes(prefix, start, end)`: the codes for start..end inclusive, ascending. */
  function GenerateCodes(prefix: string, start: int, end: int): (codes: seq<string>)
    ensures |codes| == if start <= end then end - start + 1 else 0
    ensures forall k | 0 <= k < |codes| :: codes[k] == CodeFor(prefix, start + k)
    ensures |prefix| == 1 && 0 <= start && end <= 99 ==>
      forall k | 0 <= k < |codes| :: CodeOf(codes[k], prefix[0], start + k)
  {
    var n := if start <= end then end - start + 1 else 0;
    CodeForShapes(prefix, start, end);
    seq(n, k requires 0 <= k < n => CodeFor(prefix, start + k))
  }

  /** `code` belongs to series `sr`: its letter, two digits, and a number within the range. */
  predicate InSeries(code: string, sr: Series) {
    && |code| == 3 && code[0] == sr.prefix && IsDigit(code[1]) && IsDigit(code[2])
    && sr.start <= CodeNumber(code) <= sr.end
  }

  /** For one letter and numbers in 0..99, a string is generated exactly when it has that shape. */
  lemma GeneratedMembership(c: char, start: int, end: int, code: string)
    requires 0 <= start && end <= 99
    ensures code in GenerateCodes([c], start, end) <==>
      && |code| == 3 && code[0] == c && IsDigit(code[1]) && IsDigit(code[2])
      && start <= CodeNumber(code) <= end
  {
    var codes := GenerateCodes([c], start, end);
    if code in codes {
      var k :| 0 <= k < |codes| && codes[k] == code;
      assert CodeOf(codes[k], c, start + k);
    }
    if |code| == 3 && code[0] == c && IsDigit(code[1]) && IsDigit(code[2])
       && start <= CodeNumber(code) <= end {
      var n := CodeNumber(code);
      assert CodeOf(codes[n - start], c, n);
      CodeOfUnique(code, codes[n - start], c, n);
    }
  }

  /** Codes of a list of series, series by series. */
  function SeriesCodes(ss: seq<Series>): (codes: seq<string>)
    ensures |codes| == SumSpans(ss)
    decreases |ss|
  {
    if |ss| == 0 then [] else GenerateCodes([ss[0].prefix], ss[0].start, ss[0].end) + SeriesCodes(ss[1..])
  }

  function SumSpans(ss: seq<Series>): nat
    decreases |ss|
  {
    if |ss| == 0 then 0
    else (if ss[0].start <= ss[0].end then ss[0].end - ss[0].start + 1 else 0) + SumSpans(ss[1..])
  }

  /** `getAllMaterialCodes()`. */
  function AllCodes(): seq<string> {
    SeriesCodes(MaterialSeries)
  }

  /** Series whose ranges fit in two digits. */
  predicate TwoDigitRanges(ss: seq<Series>) {
    forall k | 0 <= k < |ss| :: ss[k].end <= 99
  }

  /** A code is listed exactly when it belongs to one of the series. */
  lemma {:induction false} SeriesCodesMembership(ss: seq<Series>, code: string)
    requires TwoDigitRanges(ss)
    ensures code in SeriesCodes(ss) <==> exists k | 0 <= k < |ss| :: InSeries(code, ss[k])
    decreases |ss|
  {
    if |ss| > 0 {
      GeneratedMembership(ss[0].prefix, ss[0].start, ss[0].end, code);
      SeriesCodesMembership(ss[1..], code);
      if exists k | 0 <= k < |ss[1..]| :: InSeries(code, ss[1..][k]) {
        var k :| 0 <= k < |ss[1..]| && InSeries(code, ss[1..][k]);
        assert InSeries(code, ss[k + 1]);
      }
      if exists k | 0 <= k < |ss| :: InSeries(code, ss[k]) {
        var k :| 0 <= k < |ss| && InSeries(code, ss[k]);
        if k > 0 {
          assert InSeries(code, ss[1..][k - 1]);
        }
      }
    }
  }

  /** Distinct series letters. */
  predicate DistinctPrefixes(ss: seq<Series>) {
    forall i, j | 0 <= i < j < |ss| :: ss[i].prefix != ss[j].prefix
  }

  predicate Distinct(codes: seq<string>) {
    forall i, j | 0 <= i < j < |codes| :: codes[i] != codes[j]
  }

  lemma GeneratedDistinct(c: char, start: int, end: int)
    requires 0 <= start && end <= 99
    ensures Distinct(GenerateCodes([c], start, end))
  {
    var codes := GenerateCodes([c], start, end);
    forall i, j | 0 <= i < j < |codes| ensures codes[i] != codes[j] {
      assert CodeOf(codes[i], c, start + i) && CodeOf(codes[j], c, start + j);
    }
  }

  lemma {:induction false} SeriesCodesDistinct(ss: seq<Series>)
    requires TwoDigitRanges(ss) && DistinctPrefixes(ss)
    ensures Distinct(SeriesCodes(ss))
    decreases |ss|
  {
    if |ss| > 0 {
      var head := GenerateCodes([ss[0].prefix], ss[0].start, ss[0].end);
      var tail := SeriesCodes(ss[1..]);
      GeneratedDistinct(ss[0].prefix, ss[0].start, ss[0].end);
      SeriesCodesDistinct(ss[1..]);
      forall i, j | 0 <= i < |head| && 0 <= j < |tail| ensures head[i] != tail[j] {
        GeneratedMembership(ss[0].prefix, ss[0].start, ss[0].end, head[i]);
        SeriesCodesMembership(ss[1..], tail[j]);
        var k :| 0 <= k < |ss[1..]| && InSeries(tail[j], ss[1..][k]);
        assert ss[1..][k].prefix == ss[k + 1].prefix != ss[0].prefix;
      }
      assert SeriesCodes(ss) == head + tail;
    }
  }

  /** The full list has 135 distinct codes, matching the declared total. */
  lemma AllCodesFacts()
    ensures |AllCodes()| == 135 == TotalMaterialCount()
    ensures Distinct(AllCodes())
  {
    SeriesCodesDistinct(MaterialSeries);
  }

  // ---------------------------------------------------------------------------
  // Validation and parsing.

  /** `isValidMaterialCode`: membership in the full list, that is, in one of the series. */
  function IsValidMaterialCode(code: string): (b: bool)
    ensures b <==> exists k | 0 <= k < |MaterialSeries| :: InSeries(code, MaterialSeries[k])
  {
    SeriesCodesMembership(MaterialSeries, code);
    code in AllCodes()
  }

  datatype ParsedCode = ParsedCode(prefix: char, number: nat)

  /** The first series with the given letter. */
  function FindSeries(ss: seq<Series>, c: char): (r: Option<nat>)
    ensures r.Some? ==> r.value < |ss| && ss[r.value].prefix == c
    ensures r.None? ==> forall k | 0 <= k < |ss| :: ss[k].prefix != c
    decreases |ss|
  {
    if |ss| == 0 then None
    else if ss[0].prefix == c then Some(0)
    else match FindSeries(ss[1..], c)
      case None => None
      case Some(k) => Some(k + 1)
  }

  /** `code.match(/^([A-Z])(\d{2})$/)`. */
  predicate CodeShape(code: string) {
    |code| == 3 && IsUpper(code[0]) && IsDigit(code[1]) && IsDigit(code[2])
  }

  /** `parseMaterialCode`: shape, then a known letter, then the series range. */
  function ParseMaterialCode(code: string): (r: Option<ParsedCode>)
    ensures r.Some? ==> CodeShape(code) && r.value == ParsedCode(code[0], CodeNumber(code))
  {
    if !CodeShape(code) then None
    else
      var prefix := code[0];
      var number := CodeNumber(code);
      match FindSeries(MaterialSeries, prefix)
      case None => None
      case Some(k) =>
        if number < MaterialSeries[k].start || number > MaterialSeries[k].end then None
        else Some(ParsedCode(prefix, number))
  }

  /** With distinct letters, a series is found by its own letter. */
  lemma {:induction false} FindSeriesDistinct(ss: seq<Series>, k: nat)
    requires DistinctPrefixes(ss) && k < |ss|
    ensures FindSeries(ss, ss[k].prefix) == Some(k)
    decreases |ss|
  {
    if k > 0 {
      assert DistinctPrefixes(ss[1..]) by {
        forall i, j | 0 <= i < j < |ss[1..]| ensures ss[1..][i].prefix != ss[1..][j].prefix {
          assert ss[1..][i] == ss[i + 1] && ss[1..][j] == ss[j + 1];
        }
      }
      FindSeriesDistinct(ss[1..], k - 1);
      assert ss[1..][k - 1] == ss[k];
    }
  }

  lemma MaterialSeriesFacts()
    ensures DistinctPrefixes(MaterialSeries) && TwoDigitRanges(MaterialSeries)
  {
  }

  /** Parsing succeeds exactly on the codes that belong to some series. */
  lemma ParseIffInSeries(code: string)
    ensures ParseMaterialCode(code).Some? <==> exists k | 0 <= k < |MaterialSeries| :: InSeries(code, MaterialSeries[k])
  {
    MaterialSeriesFacts();
    if exists k | 0 <= k < |MaterialSeries| :: InSeries(code, MaterialSeries[k]) {
      var k :| 0 <= k < |MaterialSeries| && InSeries(code, MaterialSeries[k]);
      FindSeriesDistinct(MaterialSeries, k);
      assert IsUpper(code[0]);
    }
    if ParseMaterialCode(code).Some? {
      var k := FindSeries(MaterialSeries, code[0]).value;
      assert InSeries(code, MaterialSeries[k]);
    }
  }

  /** Parsing succeeds exactly on the valid codes. */
  lemma ParseIffValid(code: string)
    ensures ParseMaterialCode(code).Some? <==> IsValidMaterialCode(code)
  {
    ParseIffInSeries(code);
  }

  /** Every generated code of a series parses back to its letter and number. */
  lemma ParseRoundTrip(k: nat, n: int)
    requires k < |MaterialSeries| && MaterialSeries[k].start <= n <= MaterialSeries[k].end
    ensures ParseMaterialCode(CodeFor([MaterialSeries[k].prefix], n))
            == Some(ParsedCode(MaterialSeries[k].prefix, n))
  {
    var c := MaterialSeries[k].prefix;
    MaterialSeriesFacts();
    var code := CodeFor([c], n);
    CodeForShape(c, n);
    assert InSeries(code, MaterialSeries[k]);
    ParseIffInSeries(code);
  }

  /** Out of range, unknown letter: rejected; the last code of a series: accepted. */
  lemma ParseExamples()
    ensures ParseMaterialCode("L00").None?
    ensures ParseMaterialCode("A16").None?
    ensures ParseMaterialCode("Z01").None?
    ensures ParseMaterialCode("l01").None?
    ensures ParseMaterialCode("L250").None?
    ensures ParseMaterialCode("L25") == Some(ParsedCode('L', 25))
  {
    assert FindSeries(MaterialSeries, 'L') == Some(0);
    assert FindSeries(MaterialSeries, 'A') == Some(2);
    assert CodeNumber("L00") == 0;
    assert CodeNumber("A16") == 16;
    assert CodeNumber("L25") == 25;
  }

  /** `getMaterialSeries`: the series of a code that parses. */
  function GetMaterialSeries(code: string): (r: Option<Series>)
    ensures r.Some? <==> ParseMaterialCode(code).Some?
    ensures r.Some? ==> r.value in MaterialSeries && r.value.prefix == ParseMaterialCode(code).value.prefix
    ensures r.Some? ==> r.value.start <= ParseMaterialCode(code).value.number <= r.value.end
  {
    match ParseMaterialCode(code)
    case None => None
    case Some(p) =>
      match FindSeries(MaterialSeries, p.prefix)
      case None => None
      case Some(k) => Some(MaterialSeries[k])
  }

  // ---------------------------------------------------------------------------
  // The next free code.

  /** The codes not in `used`, in order. */
  function Available(codes: seq<string>, used: seq<string>): seq<string>
    decreases |codes|
  {
    if |codes| == 0 then []
    else (if codes[0] in used then [] else [codes[0]]) + Available(codes[1..], used)
  }

  function WithPrefix(codes: seq<string>, prefix: string): seq<string>
    decreases |codes|
  {
    if |codes| == 0 then []
    else (if StartsWith(codes[0], prefix) then [codes[0]] else []) + WithPrefix(codes[1..], prefix)
  }

  /** Choose from the available codes: the first with the prefix when one is given, else the first. */
  function Pick(available: seq<string>, prefix: Option<string>): Option<string> {
    if |available| == 0 then None
    else if Present(prefix) then
      var matching := WithPrefix(available, prefix.value);
      if |matching| > 0 then Some(matching[0]) else None
    else Some(available[0])
  }

  /** A code the caller may be given: unused, and carrying the prefix when one is given. */
  predicate Eligible(code: string, used: seq<string>, prefix: Option<string>) {
    code !in used && (Present(prefix) ==> StartsWith(code, prefix.value))
  }

  /** The first eligible position, in one pass: the reference reading of the two filters. */
  function FirstEligible(codes: seq<string>, used: seq<string>, prefix: Option<string>): (r: Option<nat>)
    ensures r.Some? ==> r.value < |codes| && Eligible(codes[r.value], used, prefix)
    ensures r.Some? ==> forall k | 0 <= k < r.value :: !Eligible(codes[k], used, prefix)
    ensures r.None? ==> forall k | 0 <= k < |codes| :: !Eligible(codes[k], used, prefix)
    decreases |codes|
  {
    if |codes| == 0 then None
    else if Eligible(codes[0], used, prefix) then Some(0)
    else match FirstEligible(codes[1..], used, prefix)
      case None => None
      case Some(k) => Some(k + 1)
  }

  lemma {:induction false} PickIsFirstEligible(codes: seq<string>, used: seq<string>, prefix: Option<string>)
    ensures Pick(Available(codes, used), prefix)
            == match FirstEligible(codes, used, prefix) case None => None case Some(i) => Some(codes[i])
    decreases |codes|
  {
    if |codes| > 0 {
      PickIsFirstEligible(codes[1..], used, prefix);
      var rest := Available(codes[1..], used);
      var tail := FirstEligible(codes[1..], used, prefix);
      var tailPick := match tail case None => None case Some(i) => Some(codes[1..][i]);
      assert Pick(rest, prefix) == tailPick;
      if codes[0] !in used {
        var avail := [codes[0]] + rest;
        assert Available(codes, used) == avail;
        assert avail[1..] == rest;
        if Present(prefix) && !StartsWith(codes[0], prefix.value) {
          assert WithPrefix(avail, prefix.value) == WithPrefix(rest, prefix.value);
          assert !Eligible(codes[0], used, prefix);
          assert Pick(avail, prefix) == Pick(rest, prefix);
        } else {
          assert Eligible(codes[0], used, prefix);
          assert FirstEligible(codes, used, prefix) == Some(0);
          if Present(prefix) {
            assert WithPrefix(avail, prefix.value) == [codes[0]] + WithPrefix(rest, prefix.value);
          }
          assert Pick(avail, prefix) == Some(codes[0]);
        }
      } else {
        assert Available(codes, used) == rest;
      }
    }
  }

  /**
   * `getNextAvailableCode(usedCodes, prefix)`: the first code of the full list, in series order,
   * that is unused and carries the prefix when one is given; `None` exactly when there is none.
   */
  function GetNextAvailableCode(used: seq<string>, prefix: Option<string>): (r: Option<string>)
    ensures r.None? <==> forall k | 0 <= k < |AllCodes()| :: !Eligible(AllCodes()[k], used, prefix)
    ensures r.Some? ==>
      var i := FirstEligible(AllCodes(), used, prefix).value;
      && r.value == AllCodes()[i]
      && IsValidMaterialCode(r.value) && Eligible(r.value, used, prefix)
      && forall k | 0 <= k < i :: !Eligible(AllCodes()[k], used, prefix)
  {
    PickIsFirstEligible(AllCodes(), used, prefix);
    FirstEligibleIsValid(used, prefix);
    Pick(Available(AllCodes(), used), prefix)
  }

  lemma FirstEligibleIsValid(used: seq<string>, prefix: Option<string>)
    ensures var fe := FirstEligible(AllCodes(), used, prefix);
            fe.Some? ==> fe.value < |AllCodes()| && IsValidMaterialCode(AllCodes()[fe.value])
  {
    var fe := FirstEligible(AllCodes(), used, prefix);
    if fe.Some? {
      assert AllCodes()[fe.value] in AllCodes();
    }
  }

  /** With nothing used and no prefix, the first code handed out is L01. */
  lemma FirstCodeIsL01()
    ensures GetNextAvailableCode([], None) == Some("L01")
  {
    var codes := AllCodes();
    assert codes[0] == CodeFor("L", 1);
    CodeForShape('L', 1);
    CodeOfUnique(codes[0], "L01", 'L', 1);
    assert FirstEligible(codes, [], None) == Some(0);
  }

  // ---------------------------------------------------------------------------
  // Display.

  /** `formatMaterialCode`: upper-casing, which leaves a valid code as it is. */
  function FormatMaterialCode(code: string): (r: string)
    ensures |r| == |code| && NoLower(r)
    ensures IsValidMaterialCode(code) ==> r == code
  {
    ValidCodeIsUpper(code);
    ToUpper(code)
  }

  lemma FormatIdempotent(code: string)
    ensures FormatMaterialCode(FormatMaterialCode(code)) == FormatMaterialCode(code)
  {
    ToUpperIdempotent(code);
  }

  lemma ShapedCodeHasNoLower(code: string)
    requires CodeShape(code)
    ensures NoLower(code)
  {
  }

  /** Valid codes are capitals and digits only, so upper-casing keeps them. */
  lemma ValidCodeIsUpper(code: string)
    ensures IsValidMaterialCode(code) ==> ToUpper(code) == code
  {
    if IsValidMaterialCode(code) {
      ParseIffValid(code);
      assert CodeShape(code);
      ShapedCodeHasNoLower(code);
      ToUpperFixesNoLower(code);
    }
  }
}

=== FILE: order_numbers.dfy ===
/**
 * Order numbers `PE-YYYYMMDD-XXXC`: the company prefix, the eight-digit order date, a sequence
 * number zero-padded to at least three digits, and the creator's one-letter code. The date stamp
 * comes from the injected clock (see `Dates.DateStamp`).
 */
module OrderNumbers {
  import opened Wrappers
  import opened Text
  import opened Dates

  const OrderPrefix: string := "PE"

  /** `sequence.toString().padStart(3, '0')`. */
  function SequenceString(sequence: int): string {
    PadStart(IntToString(sequence), 3, '0')
  }

  /** `generateOrderNo(sequence, creatorCode, date)` for the date whose stamp is `stamp`. */
  function GenerateOrderNo(sequence: int, creatorCode: string, stamp: string): (r: string)
    requires IsStamp(stamp)
    ensures |r| == 12 + |SequenceString(sequence)| + |creatorCode|
    ensures r[..3] == "PE-" && r[3..11] == stamp && r[11] == '-'
    ensures r[12..12 + |SequenceString(sequence)|] == SequenceString(sequence)
    ensures r[12 + |SequenceString(sequence)|..] == ToUpper(creatorCode)
  {
    var head := OrderPrefix + "-" + stamp + "-";
    var q := SequenceString(sequence);
    HeadSlices(stamp);
    ThreePieces(head, q, ToUpper(creatorCode));
    head + q + ToUpper(creatorCode)
  }

  /** The fixed-width head `PE-YYYYMMDD-` and where its parts sit. */
  lemma HeadSlices(stamp: string)
    requires IsStamp(stamp)
    ensures var head := OrderPrefix + "-" + stamp + "-";
            |head| == 12 && head[..3] == "PE-" && head[3..11] == stamp && head[11] == '-'
  {
  }

  /** The slices of a three-piece concatenation give back the pieces, and a prefix of the first. */
  lemma ThreePieces(a: string, b: string, c: string)
    requires |a| == 12
    ensures var r := a + b + c;
            && r[..3] == a[..3] && r[3..11] == a[3..11] && r[11] == a[11]
            && r[12..12 + |b|] == b && r[12 + |b|..] == c
  {
  }

  /** The fields `parseOrderNo` returns, all as strings. */
  datatype ParsedOrderNo = ParsedOrderNo(prefix: string, date: string, sequence: string, creatorCode: string)

  /** `/^([A-Z]{2})-(\d{8})-(\d{3})([A-Z])$/`. */
  predicate OrderNoShape(s: string) {
    && |s| == 16
    && IsUpper(s[0]) && IsUpper(s[1]) && s[2] == '-'
    && AllDigits(s[3..11]) && s[11] == '-'
    && AllDigits(s[12..15]) && IsUpper(s[15])
  }

  /** A parse result is well-shaped when each group matches its part of the pattern. */
  predicate WellShaped(p: ParsedOrderNo) {
    && |p.prefix| == 2 && IsUpper(p.prefix[0]) && IsUpper(p.prefix[1])
    && IsStamp(p.date)
    && |p.sequence| == 3 && AllDigits(p.sequence)
    && |p.creatorCode| == 1 && IsUpper(p.creatorCode[0])
  }

  /** Putting the groups back together with the two dashes. */
  function Assemble(p: ParsedOrderNo): string {
    p.prefix + "-" + p.date + "-" + p.sequence + p.creatorCode
  }

  /** `parseOrderNo`: the four groups of a matching number, `None` for anything else. */
  function ParseOrderNo(s: string): (r: Option<ParsedOrderNo>)
    ensures r.Some? <==> OrderNoShape(s)
    ensures r.Some? ==> WellShaped(r.value) && Assemble(r.value) == s
  {
    if OrderNoShape(s) then
      var p := ParsedOrderNo(s[..2], s[3..11], s[12..15], [s[15]]);
      assert Assemble(p) == s;
      Some(p)
    else None
  }

  /** Parsing is the inverse of assembling: every well-shaped group tuple comes back unchanged. */
  lemma ParseAssemble(p: ParsedOrderNo)
    requires WellShaped(p)
    ensures ParseOrderNo(Assemble(p)) == Some(p)
  {
    var s := Assemble(p);
    assert s[..2] == p.prefix && s[3..11] == p.date && s[12..15] == p.sequence && [s[15]] == p.creatorCode;
  }

  /** `isValidOrderNo`: the number matches the pattern. */
  function IsValidOrderNo(s: string): (b: bool)
    ensures b <==> OrderNoShape(s)
  {
    ParseOrderNo(s).Some?
  }

  /** `getCreatorCodeFromOrderNo`: the trailing letter of a valid number, `None` otherwise. */
  function GetCreatorCodeFromOrderNo(s: string): (r: Option<string>)
    ensures r.Some? <==> IsValidOrderNo(s)
    ensures r.Some? ==> r.value == [s[15]] && IsUpper(s[15])
  {
    match ParseOrderNo(s)
    case None => None
    case Some(p) => if Present(Some(p.creatorCode)) then Some(p.creatorCode) else None
  }

  /** `formatOrderNo`: upper-casing, which leaves a valid number as it is. */
  function FormatOrderNo(s: string): (r: string)
    ensures |r| == |s| && NoLower(r)
    ensures IsValidOrderNo(s) ==> r == s
  {
    ValidOrderNoIsUpper(s);
    ToUpper(s)
  }

  lemma FormatOrderNoIdempotent(s: string)
    ensures FormatOrderNo(FormatOrderNo(s)) == FormatOrderNo(s)
  {
    ToUpperIdempotent(s);
  }

  /** A number of the valid shape has only capitals, digits and dashes, so upper-casing keeps it. */
  lemma ValidOrderNoIsUpper(s: string)
    ensures OrderNoShape(s) ==> ToUpper(s) == s
  {
    if OrderNoShape(s) {
      assert NoLower(s) by {
        forall i | 0 <= i < |s| ensures !UpcasesToAscii(s[i]) {
          if 3 <= i < 11 {
            assert s[3..11][i - 3] == s[i];
          } else if 12 <= i < 15 {
            assert s[12..15][i - 12] == s[i];
          }
        }
      }
      ToUpperFixesNoLower(s);
    }
  }

  // ---------------------------------------------------------------------------
  // Generation against parsing.

  /** A sequence number in 0..999 renders as exactly three digits carrying its value. */
  lemma SequenceDigits(sequence: int)
    requires 0 <= sequence <= 999
    ensures |SequenceString(sequence)| == 3 && AllDigits(SequenceString(sequence))
    ensures DigitsValue(SequenceString(sequence)) == sequence
  {
    assert Pow10(3) == 1000;
    PaddedNat(sequence, 3);
  }

  /**
   * A code the pattern accepts after upper-casing: exactly one character whose upper case is an
   * ASCII capital (an ASCII letter, the dotless i or the long s).
   */
  predicate OneLetter(creatorCode: string) {
    |creatorCode| == 1 && (IsUpper(creatorCode[0]) || UpcasesToAscii(creatorCode[0]))
  }

  /**
   * Round trip: for a sequence in 0..999 and a one-letter creator code the generated number parses
   * back to "PE", the stamp, the three-digit sequence and the upper-cased letter.
   */
  lemma GenerateParseRoundTrip(sequence: int, creatorCode: string, stamp: string)
    requires IsStamp(stamp) && 0 <= sequence <= 999 && OneLetter(creatorCode)
    ensures var r := ParseOrderNo(GenerateOrderNo(sequence, creatorCode, stamp));
            && r == Some(ParsedOrderNo("PE", stamp, SequenceString(sequence), ToUpper(creatorCode)))
            && DigitsValue(r.value.sequence) == sequence
  {
    SequenceDigits(sequence);
    var p := ParsedOrderNo("PE", stamp, SequenceString(sequence), ToUpper(creatorCode));
    assert WellShaped(p);
    assert Assemble(p) == GenerateOrderNo(sequence, creatorCode, stamp);
    ParseAssemble(p);
  }

  /** A sequence of 1000 or more renders with at least four digits. */
  lemma LargeSequenceDigits(sequence: int)
    requires sequence >= 1000
    ensures SequenceString(sequence) == NatToString(sequence) && |SequenceString(sequence)| >= 4
  {
    assert Pow10(3) == 1000;
    NatToStringLength(sequence, 3);
  }

  /** A negative sequence puts its minus sign at position 0 or 1 of the padded string. */
  lemma NegativeSequenceSign(sequence: int)
    requires sequence < 0
    ensures var q := SequenceString(sequence);
            |q| >= 3 && (q[0] == '-' || q[1] == '-')
  {
  }

  /**
   * Rejection: a sequence outside 0..999, or a creator code that is not exactly one letter, gives
   * a number `parseOrderNo` refuses.
   */
  lemma GenerateRejected(sequence: int, creatorCode: string, stamp: string)
    requires IsStamp(stamp) && !(0 <= sequence <= 999 && OneLetter(creatorCode))
    ensures ParseOrderNo(GenerateOrderNo(sequence, creatorCode, stamp)).None?
  {
    var s := GenerateOrderNo(sequence, creatorCode, stamp);
    var q := SequenceString(sequence);
    if |s| == 16 {
      if sequence >= 1000 {
        LargeSequenceDigits(sequence);
        assert s[15] == q[3];
      } else if sequence < 0 {
        NegativeSequenceSign(sequence);
        assert s[12..15][0] == q[0] && s[12..15][1] == q[1];
      } else {
        SequenceDigits(sequence);
        assert s[15] == ToUpper(creatorCode)[0];
      }
    }
  }

  /** Validity of a generated number, both directions. */
  lemma GeneratedValidIff(sequence: int, creatorCode: string, stamp: string)
    requires IsStamp(stamp)
    ensures IsValidOrderNo(GenerateOrderNo(sequence, creatorCode, stamp))
            <==> 0 <= sequence <= 999 && OneLetter(creatorCode)
  {
    if 0 <= sequence <= 999 && OneLetter(creatorCode) {
      GenerateParseRoundTrip(sequence, creatorCode, stamp);
    } else {
      GenerateRejected(sequence, creatorCode, stamp);
    }
  }

  /** The worked example of the format: sequence 6, creator `j`, 17 January 2026. */
  lemma GenerateExample()
    ensures GenerateOrderNo(6, "j", "20260117") == "PE-20260117-006J"
  {
    assert IntToString(6) == "6";
    assert UpperChar('j') == 'J';
    assert ToUpper("j") == "J";
  }

  /** The same number, from the date as the clock delivers it. */
  lemma GenerateExampleOnDate()
    ensures GenerateOrderNo(6, "j", DateStamp(Date(2026, 1, 17))) == "PE-20260117-006J"
  {
    DateStampExample();
    GenerateExample();
  }
}

=== FILE: order_service.dfy ===
/**
 * The order service: bill-of-materials requirements, the advisory stock check made when an order is
 * created, the status update with its side effects, and the best-effort deduction of every material
 * of a formula when an order goes from `pending` to `processing`.
 *
 * The service guards no transition and rolls nothing back: the new status is written first, the
 * deduction afterwards applies whatever lines it can and reports the rest.
 */
module OrderService {
  import opened Wrappers
  import opened Text
  import opened Schema
  import opened StockLedger
  import opened Sequences

  // ---------------------------------------------------------------------------
  // Requirements and the advisory stock check.

  datatype Requirement = Requirement(
    materialCode: string,
    materialName: string,
    requiredQuantity: real,
    currentStock: real,
    isSufficient: bool)

  datatype Warning =
    | InsufficientMaterial(code: string, required: real, current: real)
    | BelowMinimumAfterUse(code: string, remaining: real, minStock: real)

  datatype StockReport = StockReport(
    requirements: seq<Requirement>,
    lowStockMaterials: seq<string>,
    warnings: seq<Warning>)

  const EmptyReport: StockReport := StockReport([], [], [])

  /** Demand of one bill-of-materials line for an order: per-unit quantity times order quantity. */
  function Required(fm: FormulaMaterial, quantity: int): real {
    PerUnit(fm) * quantity as real
  }

  /**
   * The requirement reported for one line, or `None` when no material has the line's code (the
   * line is then skipped).
   */
  function LineRequirement(s: Store, fm: FormulaMaterial, quantity: int): (r: Option<Requirement>)
    ensures r.Some? <==> FindMaterialByCode(s, fm.materialCode).Some?
    ensures r.Some? ==>
      var m := s.materials[FindMaterialByCode(s, fm.materialCode).value];
      && r.value.materialCode == fm.materialCode == m.code
      && r.value.requiredQuantity == PerUnit(fm) * quantity as real
      && r.value.currentStock == m.currentStock
      && (r.value.isSufficient <==> m.currentStock >= r.value.requiredQuantity)
  {
    match FindMaterialByCode(s, fm.materialCode)
    case None => None
    case Some(i) =>
      var m := s.materials[i];
      var required := Required(fm, quantity);
      Some(Requirement(fm.materialCode, DisplayName(m), required, m.currentStock,
                       m.currentStock >= required))
  }

  /** The requirements of a bill of materials: one per line whose material exists, in line order. */
  function Requirements(s: Store, bom: seq<FormulaMaterial>, quantity: int): (reqs: seq<Requirement>)
    ensures |reqs| <= |bom|
    ensures forall req | req in reqs :: req.isSufficient <==> req.currentStock >= req.requiredQuantity
    ensures forall fm | fm in bom && LineRequirement(s, fm, quantity).Some? ::
      LineRequirement(s, fm, quantity).value in reqs
    decreases |bom|
  {
    if |bom| == 0 then []
    else
      var rest := Requirements(s, bom[1..], quantity);
      assert forall fm | fm in bom[1..] :: fm in bom;
      match LineRequirement(s, bom[0], quantity)
      case None => rest
      case Some(req) => [req] + rest
  }

  /** Nothing else is reported: every requirement is the requirement of one of the lines. */
  lemma {:induction false} RequirementsFromLines(s: Store, bom: seq<FormulaMaterial>, quantity: int,
                                                 req: Requirement)
    requires req in Requirements(s, bom, quantity)
    ensures exists fm | fm in bom :: LineRequirement(s, fm, quantity) == Some(req)
    decreases |bom|
  {
    if LineRequirement(s, bom[0], quantity) != Some(req) {
      RequirementsFromLines(s, bom[1..], quantity, req);
      var fm :| fm in bom[1..] && LineRequirement(s, fm, quantity) == Some(req);
      assert fm in bom;
    }
  }

  /** The requirements of two line lists placed one after the other are placed one after the other. */
  lemma {:induction false} RequirementsAppend(s: Store, a: seq<FormulaMaterial>, b: seq<FormulaMaterial>,
                                              quantity: int)
    ensures Requirements(s, a + b, quantity) == Requirements(s, a, quantity) + Requirements(s, b, quantity)
    decreases |a|
  {
    if |a| == 0 {
      assert a + b == b;
    } else {
      assert (a + b)[1..] == a[1..] + b;
      RequirementsAppend(s, a[1..], b, quantity);
    }
  }

  /**
   * The formula's lines are read without an order, so two reads may return them in different
   * orders: the requirements then hold the same entries, each as often, only perhaps reordered.
   */
  lemma {:induction false} RequirementsPermutation(s: Store, a: seq<FormulaMaterial>, b: seq<FormulaMaterial>,
                                                   quantity: int)
    requires multiset(a) == multiset(b)
    ensures multiset(Requirements(s, a, quantity)) == multiset(Requirements(s, b, quantity))
    decreases |a|
  {
    if |a| == 0 {
      assert |b| == |multiset(b)| == 0;
    } else {
      assert a[0] in multiset(b);
      var k :| 0 <= k < |b| && b[k] == a[0];
      RemoveMatched(a, b, k);
      RequirementsPermutation(s, a[1..], b[..k] + b[k + 1..], quantity);
      RequirementsSplit(s, b, k, quantity);
      assert a == [a[0]] + a[1..];
      RequirementsAppend(s, [a[0]], a[1..], quantity);
    }
  }

  /** Taking the first element out of one list and an equal element out of a permutation of it leaves permutations. */
  lemma RemoveMatched<T>(a: seq<T>, b: seq<T>, k: nat)
    requires multiset(a) == multiset(b) && |a| > 0 && k < |b| && b[k] == a[0]
    ensures multiset(a[1..]) == multiset(b[..k] + b[k + 1..])
  {
    assert b == b[..k] + [b[k]] + b[k + 1..];
    assert a == [a[0]] + a[1..];
    assert multiset(b) == multiset(b[..k]) + multiset{b[k]} + multiset(b[k + 1..]);
    assert multiset(b[..k] + b[k + 1..]) == multiset(b[..k]) + multiset(b[k + 1..]);
    forall x ensures multiset(a[1..])[x] == multiset(b[..k] + b[k + 1..])[x] {
      assert multiset(a)[x] == multiset(b)[x];
    }
  }

  /** Splitting the lines around one of them splits the requirements alike, up to order. */
  lemma RequirementsSplit(s: Store, b: seq<FormulaMaterial>, k: nat, quantity: int)
    requires k < |b|
    ensures multiset(Requirements(s, b, quantity))
         == multiset(Requirements(s, [b[k]], quantity)) + multiset(Requirements(s, b[..k] + b[k + 1..], quantity))
  {
    assert b == b[..k] + ([b[k]] + b[k + 1..]);
    RequirementsAppend(s, b[..k], [b[k]] + b[k + 1..], quantity);
    RequirementsAppend(s, [b[k]], b[k + 1..], quantity);
    RequirementsAppend(s, b[..k], b[k + 1..], quantity);
  }

  /** The codes of the requirements that stock cannot cover, in order. */
  function ShortCodes(reqs: seq<Requirement>): seq<string>
    decreases |reqs|
  {
    if |reqs| == 0 then []
    else (if reqs[0].isSufficient then [] else [reqs[0].materialCode]) + ShortCodes(reqs[1..])
  }

  function MinStockOf(s: Store, code: string): real {
    match FindMaterialByCode(s, code)
    case Some(i) => s.materials[i].minStock
    case None => 0.0
  }

  /** The warning a requirement deserves: shortage first, otherwise dropping below the minimum. */
  function Advice(s: Store, req: Requirement): Option<Warning> {
    if !req.isSufficient then
      Some(InsufficientMaterial(req.materialCode, req.requiredQuantity, req.currentStock))
    else if req.currentStock - req.requiredQuantity < MinStockOf(s, req.materialCode) then
      Some(BelowMinimumAfterUse(req.materialCode, req.currentStock - req.requiredQuantity,
                                MinStockOf(s, req.materialCode)))
    else None
  }

  function AdviceAll(s: Store, reqs: seq<Requirement>): seq<Warning>
    decreases |reqs|
  {
    if |reqs| == 0 then []
    else
      (match Advice(s, reqs[0]) case Some(w) => [w] case None => []) + AdviceAll(s, reqs[1..])
  }

  /**
   * One iteration of the loop over a formula's lines: a line whose material exists yields a
   * requirement; a short line adds its code and a shortage warning; a covered line that would leave
   * less than the minimum adds a warning only. A line without a material yields nothing. Its
   * contract is the two-pass reading: the requirement first, then the code and warning derived from it.
   */
  function LineReport(s: Store, fm: FormulaMaterial, quantity: int): (r: StockReport)
    ensures r.requirements == match LineRequirement(s, fm, quantity) case None => [] case Some(req) => [req]
    ensures r.lowStockMaterials == ShortCodes(r.requirements)
    ensures r.warnings == AdviceAll(s, r.requirements)
  {
    match FindMaterialByCode(s, fm.materialCode)
    case None => EmptyReport
    case Some(i) =>
      var m := s.materials[i];
      var required := Required(fm, quantity);
      var current := m.currentStock;
      var sufficient := current >= required;
      var req := Requirement(fm.materialCode, DisplayName(m), required, current, sufficient);
      var low := if sufficient then [] else [fm.materialCode];
      var warn :=
        if !sufficient then [InsufficientMaterial(fm.materialCode, required, current)]
        else if current - required < m.minStock then
          [BelowMinimumAfterUse(fm.materialCode, current - required, m.minStock)]
        else [];
      assert MinStockOf(s, fm.materialCode) == m.minStock;
      StockReport([req], low, warn)
  }

  /** Reports of consecutive lines concatenate. */
  function Join(a: StockReport, b: StockReport): StockReport {
    StockReport(a.requirements + b.requirements, a.lowStockMaterials + b.lowStockMaterials,
                a.warnings + b.warnings)
  }

  /** Deriving codes and warnings commutes with putting at most one requirement in front. */
  lemma DeriveCons(s: Store, a: seq<Requirement>, b: seq<Requirement>)
    requires |a| <= 1
    ensures ShortCodes(a + b) == ShortCodes(a) + ShortCodes(b)
    ensures AdviceAll(s, a + b) == AdviceAll(s, a) + AdviceAll(s, b)
  {
    if |a| == 1 {
      assert (a + b)[1..] == b;
      assert a[1..] == [];
    } else {
      assert a + b == b;
    }
  }

  /**
   * The loop over a formula's lines, done in one pass; lines without a material are skipped. Its
   * contract is the two-pass reading: requirements first, then low-stock codes and warnings derived
   * from them.
   */
  function CheckStock(s: Store, bom: seq<FormulaMaterial>, quantity: int): (r: StockReport)
    ensures r.requirements == Requirements(s, bom, quantity)
    ensures r.lowStockMaterials == ShortCodes(r.requirements)
    ensures r.warnings == AdviceAll(s, r.requirements)
    decreases |bom|
  {
    if |bom| == 0 then EmptyReport
    else
      var line := LineReport(s, bom[0], quantity);
      var rest := CheckStock(s, bom[1..], quantity);
      DeriveCons(s, line.requirements, rest.requirements);
      Join(line, rest)
  }

  /** The check reads materials only: stores that agree on materials give the same report. */
  lemma {:induction false} CheckStockReadsMaterials(s: Store, s': Store, bom: seq<FormulaMaterial>, quantity: int)
    requires s.materials == s'.materials
    ensures CheckStock(s, bom, quantity) == CheckStock(s', bom, quantity)
    decreases |bom|
  {
    if |bom| > 0 {
      CheckStockReadsMaterials(s, s', bom[1..], quantity);
      LineReportReadsMaterials(s, s', bom[0], quantity);
    }
  }

  lemma LineReportReadsMaterials(s: Store, s': Store, fm: FormulaMaterial, quantity: int)
    requires s.materials == s'.materials
    ensures LineReport(s, fm, quantity) == LineReport(s', fm, quantity)
  {
    assert FindMaterialByCode(s, fm.materialCode) == FindMaterialByCode(s', fm.materialCode);
  }

  /** A line whose material cannot cover the demand always produces a shortage and a warning. */
  lemma ShortLineWarns(s: Store, bom: seq<FormulaMaterial>, quantity: int, fm: FormulaMaterial)
    requires fm in bom && FindMaterialByCode(s, fm.materialCode).Some?
    requires s.materials[FindMaterialByCode(s, fm.materialCode).value].currentStock < Required(fm, quantity)
    ensures fm.materialCode in CheckStock(s, bom, quantity).lowStockMaterials
    ensures InsufficientMaterial(fm.materialCode, Required(fm, quantity),
                                 s.materials[FindMaterialByCode(s, fm.materialCode).value].currentStock)
            in CheckStock(s, bom, quantity).warnings
  {
    var reqs := Requirements(s, bom, quantity);
    var req := LineRequirement(s, fm, quantity).value;
    ShortCodesHas(reqs, req);
    AdviceAllHas(s, reqs, req);
  }

  lemma {:induction false} ShortCodesHas(reqs: seq<Requirement>, req: Requirement)
    requires req in reqs && !req.isSufficient
    ensures req.materialCode in ShortCodes(reqs)
    decreases |reqs|
  {
    if reqs[0] != req {
      ShortCodesHas(reqs[1..], req);
    }
  }

  lemma {:induction false} AdviceAllHas(s: Store, reqs: seq<Requirement>, req: Requirement)
    requires req in reqs && Advice(s, req).Some?
    ensures Advice(s, req).value in AdviceAll(s, reqs)
    decreases |reqs|
  {
    if reqs[0] != req {
      AdviceAllHas(s, reqs[1..], req);
    }
  }

  // ---------------------------------------------------------------------------
  // Order creation.

  datatype OrderCreation = OrderCreation(
    order: Order,
    requirements: seq<Requirement>,
    lowStockMaterials: seq<string>,
    warnings: seq<Warning>)

  /**
   * The insert fails when the insert schema rejects the row (a text longer than its column, a
   * quantity outside 32 bits), or on a taken primary key or order number (the unique constraints).
   */
  datatype CreateOrderError = InvalidOrder | DuplicateOrderId | DuplicateOrderNo

  /**
   * `creatorCode || data.createdBy.substring(0, 1).toUpperCase()`: without a code, the first
   * UTF-16 code unit of the creator, upper-cased, which is one unit long unless the creator is empty.
   */
  function CreatorCodeFor(data: OrderDraft, creatorCode: Option<string>): (code: string)
    ensures Present(creatorCode) ==> code == creatorCode.value
    ensures !Present(creatorCode) ==> Utf16Length(code) == if data.createdBy == "" then 0 else 1
    ensures !Present(creatorCode) && data.createdBy != "" && !IsAstral(data.createdBy[0]) ==>
      code == [UpperChar(data.createdBy[0])]
    ensures !Present(creatorCode) && data.createdBy != "" && IsAstral(data.createdBy[0]) ==>
      code == [ReplacementChar]
    ensures !Present(creatorCode) && data.createdBy == "" ==> code == ""
  {
    if Present(creatorCode) then creatorCode.value
    else ToUpper(FirstCodeUnit(data.createdBy))
  }

  function ReportFor(s: Store, formulaId: Option<Id>, quantity: int): StockReport {
    if Present(formulaId) && FindFormula(s, formulaId.value).Some? then
      CheckStock(s, BomOf(s, formulaId.value), quantity)
    else EmptyReport
  }

  /**
   * `createOrderWithStockCheck`: the order row is inserted first, whatever the stock; the formula's
   * requirements and warnings are then computed against current stock, which is only read.
   */
  function CreateOrderWithStockCheck(s: Store, data: OrderDraft, creatorCode: Option<string>,
                                     id: Id, now: Time): (r: Result<(OrderCreation, Store), CreateOrderError>)
    ensures r == Failure(InvalidOrder) <==>
      !ValidOrderDraft(data.(creatorCode := Some(CreatorCodeFor(data, creatorCode))))
    ensures r.Success? <==>
      && ValidOrderDraft(data.(creatorCode := Some(CreatorCodeFor(data, creatorCode))))
      && forall j | 0 <= j < |s.orders| :: s.orders[j].id != id && s.orders[j].orderNo != data.orderNo
    ensures r.Success? ==>
      var (c, s') := r.value;
      && c.order == NewOrder(data.(creatorCode := Some(CreatorCodeFor(data, creatorCode))), id, now)
      && s' == s.(orders := s.orders + [c.order])
      && c.order.creatorCode == Some(CreatorCodeFor(data, creatorCode))
      && StockReport(c.requirements, c.lowStockMaterials, c.warnings)
           == ReportFor(s, data.formulaId, data.quantity)
  {
    if !ValidOrderDraft(data.(creatorCode := Some(CreatorCodeFor(data, creatorCode)))) then Failure(InvalidOrder)
    else if exists j | 0 <= j < |s.orders| :: s.orders[j].id == id then Failure(DuplicateOrderId)
    else if exists j | 0 <= j < |s.orders| :: s.orders[j].orderNo == data.orderNo then Failure(DuplicateOrderNo)
    else
      var order := NewOrder(data.(creatorCode := Some(CreatorCodeFor(data, creatorCode))), id, now);
      var s' := s.(orders := s.orders + [order]);
      var report := ReportFor(s', data.formulaId, data.quantity);
      ReportForReadsOrders(s, s', data.formulaId, data.quantity);
      Success((OrderCreation(order, report.requirements, report.lowStockMaterials, report.warnings), s'))
  }

  lemma ReportForReadsOrders(s: Store, s': Store, formulaId: Option<Id>, quantity: int)
    requires s' == s.(orders := s'.orders)
    ensures ReportFor(s', formulaId, quantity) == ReportFor(s, formulaId, quantity)
  {
    if Present(formulaId) {
      assert FindFormula(s', formulaId.value) == FindFormula(s, formulaId.value);
      assert BomOf(s', formulaId.value) == BomOf(s, formulaId.value);
      CheckStockReadsMaterials(s, s', BomOf(s, formulaId.value), quantity);
    }
  }

  /** Creating an order keeps every unique column unique. */
  lemma CreateOrderPreservesWellFormed(s: Store, data: OrderDraft, creatorCode: Option<string>,
                                       id: Id, now: Time)
    requires WellFormed(s)
    ensures var r := CreateOrderWithStockCheck(s, data, creatorCode, id, now);
            r.Success? ==> WellFormed(r.value.1)
  {
    var r := CreateOrderWithStockCheck(s, data, creatorCode, id, now);
    if r.Success? {
      var os := r.value.1.orders;
      assert os[|s.orders|].id == id && os[|s.orders|].orderNo == data.orderNo;
      assert UniqueKey(os, OrderId) by {
        forall i, j | 0 <= i < j < |os| ensures OrderId(os[i]) != OrderId(os[j]) {
          if j < |s.orders| {
            assert OrderId(s.orders[i]) != OrderId(s.orders[j]);
          }
        }
      }
      assert UniqueKey(os, OrderNo) by {
        forall i, j | 0 <= i < j < |os| ensures OrderNo(os[i]) != OrderNo(os[j]) {
          if j < |s.orders| {
            assert OrderNo(s.orders[i]) != OrderNo(s.orders[j]);
          }
        }
      }
    }
  }

  /**
   * Stock never blocks creation: when the draft passes the insert schema, its keys are free, the
   * formula exists and one of its lines is short, the order is still created, the line's code is listed as low stock and there is at least one warning.
   */
  lemma ShortStockOnlyWarns(s: Store, data: OrderDraft, creatorCode: Option<string>, id: Id,
                            now: Time, fm: FormulaMaterial)
    requires ValidOrderDraft(data.(creatorCode := Some(CreatorCodeFor(data, creatorCode))))
    requires forall k | 0 <= k < |s.orders| :: s.orders[k].id != id && s.orders[k].orderNo != data.orderNo
    requires Present(data.formulaId) && FindFormula(s, data.formulaId.value).Some?
    requires fm in s.formulaMaterials && fm.formulaId == data.formulaId.value
    requires FindMaterialByCode(s, fm.materialCode).Some?
    requires s.materials[FindMaterialByCode(s, fm.materialCode).value].currentStock < Required(fm, data.quantity)
    ensures var r := CreateOrderWithStockCheck(s, data, creatorCode, id, now);
      && r.Success?
      && fm.materialCode in r.value.0.lowStockMaterials
      && |r.value.0.warnings| > 0
  {
    ShortLineWarns(s, BomOf(s, data.formulaId.value), data.quantity, fm);
  }

  /** `getOrderMaterialRequirements`: the live requirements of an order with a formula. */
  function GetOrderMaterialRequirements(s: Store, orderId: Id): (reqs: seq<Requirement>)
    ensures FindOrder(s, orderId).None? ==> reqs == []
    ensures FindOrder(s, orderId).Some? && !Present(s.orders[FindOrder(s, orderId).value].formulaId)
      ==> reqs == []
    ensures FindOrder(s, orderId).Some? && Present(s.orders[FindOrder(s, orderId).value].formulaId) ==>
      var o := s.orders[FindOrder(s, orderId).value];
      reqs == Requirements(s, BomOf(s, o.formulaId.value), o.quantity)
  {
    match FindOrder(s, orderId)
    case None => []
    case Some(i) =>
      var o := s.orders[i];
      if !Present(o.formulaId) then []
      else CheckStock(s, BomOf(s, o.formulaId.value), o.quantity).requirements
  }

  /**
   * Right after creation, the requirement listing for the new order is exactly what creation
   * reported (when its formula exists).
   */
  lemma RequirementsAgreeWithCreation(s: Store, data: OrderDraft, creatorCode: Option<string>,
                                      id: Id, now: Time)
    requires Present(data.formulaId) && FindFormula(s, data.formulaId.value).Some?
    ensures var r := CreateOrderWithStockCheck(s, data, creatorCode, id, now);
            r.Success? ==> GetOrderMaterialRequirements(r.value.1, id) == r.value.0.requirements
  {
    var r := CreateOrderWithStockCheck(s, data, creatorCode, id, now);
    if r.Success? {
      var s' := r.value.1;
      assert FindOrder(s', id) == Some(|s.orders|) by {
        forall j | 0 <= j < |s.orders| ensures s'.orders[j].id != id {
          assert s'.orders[j] == s.orders[j];
        }
        assert s'.orders[|s.orders|].id == id;
      }
      assert BomOf(s', data.formulaId.value) == BomOf(s, data.formulaId.value);
      CheckStockReadsMaterials(s, s', BomOf(s, data.formulaId.value), data.quantity);
    }
  }

  // ---------------------------------------------------------------------------
  // Automatic deduction.

  datatype DeductionError =
    | MaterialMissing(code: string)
    | DeductionRefused(code: string, required: real, available: real)

  function DeductionReason(orderNo: string): string {
    "订单 " + orderNo + " 生产领料"
  }

  /** An appended ledger row that records the deduction of one material for order `o`. */
  predicate DeductionEntry(e: StockOperation, o: Order, approvedBy: string) {
    && e.opType == Out
    && e.referenceNo == Some(o.orderNo)
    && e.reason == DeductionReason(o.orderNo)
    && e.approvedBy == approvedBy
    && e.createdBy == o.createdBy
    && EntryConsistent(e)
  }

  /** `ledger'` is `ledger` followed by deduction rows for order `o` only. */
  predicate AppendsDeductions(ledger: seq<StockOperation>, ledger': seq<StockOperation>, o: Order,
                              approvedBy: string) {
    && |ledger| <= |ledger'| && ledger'[..|ledger|] == ledger
    && forall k | |ledger| <= k < |ledger'| :: DeductionEntry(ledger'[k], o, approvedBy)
  }

  lemma AppendsDeductionsTrans(l0: seq<StockOperation>, l1: seq<StockOperation>, l2: seq<StockOperation>,
                               o: Order, approvedBy: string)
    requires AppendsDeductions(l0, l1, o, approvedBy) && AppendsDeductions(l1, l2, o, approvedBy)
    ensures AppendsDeductions(l0, l2, o, approvedBy)
  {
    assert l2[..|l0|] == l2[..|l1|][..|l0|];
  }

  /** Rows are the same materials (id, code, minimum) with possibly different stock and status. */
  predicate SameMaterials(ms: seq<Material>, ms': seq<Material>) {
    && |ms'| == |ms|
    && forall j | 0 <= j < |ms| ::
         ms'[j].id == ms[j].id && ms'[j].code == ms[j].code && ms'[j].minStock == ms[j].minStock
  }

  /** One line: look the material up by code, then `updateStock(..., "out", ...)`; a throw becomes an error. */
  function DeductLine(s: Store, fm: FormulaMaterial, o: Order, approvedBy: string, now: Time)
    : (r: (seq<DeductionError>, Store))
    ensures |r.0| <= 1
    ensures r.1 == s.(materials := r.1.materials, ledger := r.1.ledger)
    ensures SameMaterials(s.materials, r.1.materials)
    ensures |r.1.ledger| == |s.ledger| + 1 - |r.0|
    ensures AppendsDeductions(s.ledger, r.1.ledger, o, approvedBy)
    ensures |r.0| == 0 ==>
      && DeductionEntry(r.1.ledger[|s.ledger|], o, approvedBy)
      && r.1.ledger[|s.ledger|].quantity == Required(fm, o.quantity)
    ensures |r.0| == 1 ==> r.1 == s
    ensures FindMaterialByCode(s, fm.materialCode).None? ==> r.0 == [MaterialMissing(fm.materialCode)]
    ensures WellFormed(s) && FindMaterialByCode(s, fm.materialCode).Some? ==>
      var m := s.materials[FindMaterialByCode(s, fm.materialCode).value];
      (|r.0| == 1 <==> m.currentStock < Required(fm, o.quantity))
    ensures |r.0| == 1 ==> r.0[0].code == fm.materialCode
    // A found material goes through `updateStock` by its id, for the line's requirement.
    ensures FindMaterialByCode(s, fm.materialCode).Some? ==>
      var m := s.materials[FindMaterialByCode(s, fm.materialCode).value];
      var u := UpdateStock(s, m.id, Required(fm, o.quantity), Out, DeductionReason(o.orderNo),
                           Some(o.orderNo), approvedBy, o.createdBy, now);
      && r.1 == u.1
      && (r.0 == [] <==> u.0.Updated?)
      && (u.0.InsufficientStock? ==>
            r.0 == [DeductionRefused(fm.materialCode, Required(fm, o.quantity), u.0.beforeStock)])
    // The appended row is the found material's, under unique ids also the line's code.
    ensures r.0 == [] ==>
      && FindMaterialByCode(s, fm.materialCode).Some?
      && r.1.ledger[|s.ledger|].materialId == s.materials[FindMaterialByCode(s, fm.materialCode).value].id
    ensures WellFormed(s) && r.0 == [] ==> r.1.ledger[|s.ledger|].materialCode == fm.materialCode
  {
    match FindMaterialByCode(s, fm.materialCode)
    case None => ([MaterialMissing(fm.materialCode)], s)
    case Some(i) =>
      var m := s.materials[i];
      var required := Required(fm, o.quantity);
      var (outcome, s') := UpdateStock(s, m.id, required, Out, DeductionReason(o.orderNo),
                                       Some(o.orderNo), approvedBy, o.createdBy, now);
      MaterialIdLookup(s, i);
      assert FindMaterial(s, m.id).Some?;
      match outcome
      case Updated(_) => ([], s')
      case InsufficientStock(before, q) => ([DeductionRefused(fm.materialCode, q, before)], s')
      case MaterialNotFound => ([], s')
  }

  /** Unique keys depend only on ids and codes, which deduction never touches. */
  lemma SameMaterialsWellFormed(s: Store, s': Store)
    requires s' == s.(materials := s'.materials, ledger := s'.ledger)
    requires SameMaterials(s.materials, s'.materials)
    ensures WellFormed(s) ==> WellFormed(s')
  {
    if !WellFormed(s) { return; }
    var ms := s'.materials;
    assert UniqueKey(ms, MaterialId) by {
      forall i, j | 0 <= i < j < |ms| ensures MaterialId(ms[i]) != MaterialId(ms[j]) {
        assert MaterialId(s.materials[i]) != MaterialId(s.materials[j]);
      }
    }
    assert UniqueKey(ms, MaterialCode) by {
      forall i, j | 0 <= i < j < |ms| ensures MaterialCode(ms[i]) != MaterialCode(ms[j]) {
        assert MaterialCode(s.materials[i]) != MaterialCode(s.materials[j]);
      }
    }
  }

  /** One line moves exactly the deducted quantity out of the total stock. */
  lemma DeductLineTotal(s: Store, fm: FormulaMaterial, o: Order, approvedBy: string, now: Time)
    requires WellFormed(s)
    ensures var r := DeductLine(s, fm, o, approvedBy, now);
      && WellFormed(r.1)
      && TotalStock(r.1.materials) == TotalStock(s.materials) - SumQuantities(r.1.ledger[|s.ledger|..])
  {
    var r := DeductLine(s, fm, o, approvedBy, now);
    SameMaterialsWellFormed(s, r.1);
    if |r.0| == 0 {
      var i := FindMaterialByCode(s, fm.materialCode).value;
      UpdateStockTotal(s, s.materials[i].id, Required(fm, o.quantity), Out, DeductionReason(o.orderNo),
                       Some(o.orderNo), approvedBy, o.createdBy, now);
      assert r.1.ledger[|s.ledger|..] == [r.1.ledger[|s.ledger|]];
    } else {
      assert r.1.ledger[|s.ledger|..] == [];
    }
  }

  /**
   * The deduction loop: every line is attempted in order; a line either appends one `out` row to
   * the ledger or contributes one error, and a failed line does not stop the others.
   */
  function DeductAll(s: Store, bom: seq<FormulaMaterial>, o: Order, approvedBy: string, now: Time)
    : (r: (seq<DeductionError>, Store))
    ensures r.1 == s.(materials := r.1.materials, ledger := r.1.ledger)
    ensures SameMaterials(s.materials, r.1.materials)
    ensures |r.1.ledger| + |r.0| == |s.ledger| + |bom|
    ensures AppendsDeductions(s.ledger, r.1.ledger, o, approvedBy)
    ensures forall fm | fm in bom && FindMaterialByCode(s, fm.materialCode).None? ::
      MaterialMissing(fm.materialCode) in r.0
    // In line order: the errors name lines of the formula, and (under unique ids) the appended rows
    // move the code and quantity of lines of the formula.
    ensures SubsequenceOf(ErrorCodes(r.0), LineCodes(bom))
    ensures WellFormed(s) ==> SubsequenceOf(Movements(r.1.ledger[|s.ledger|..]), Demands(bom, o.quantity))
    decreases |bom|
  {
    if |bom| == 0 then
      assert s.ledger[|s.ledger|..] == [];
      ([], s)
    else
      var (e1, s1) := DeductLine(s, bom[0], o, approvedBy, now);
      var (e2, s2) := DeductAll(s1, bom[1..], o, approvedBy, now);
      AppendsDeductionsTrans(s.ledger, s1.ledger, s2.ledger, o, approvedBy);
      MissingStaysMissing(s, s1, bom, e1, e2);
      ErrorCodesStep(e1, e2, bom);
      SameMaterialsWellFormed(s, s1);
      MovementsStep(s.ledger, s1.ledger, s2.ledger, bom, o.quantity, WellFormed(s));
      (e1 + e2, s2)
  }

  /** The material codes the errors name. */
  function ErrorCodes(errors: seq<DeductionError>): seq<string> {
    seq(|errors|, k requires 0 <= k < |errors| => errors[k].code)
  }

  /** The material codes of the formula's lines. */
  function LineCodes(bom: seq<FormulaMaterial>): seq<string> {
    seq(|bom|, k requires 0 <= k < |bom| => bom[k].materialCode)
  }

  /** What each line takes out of stock: its material code and its requirement for the order. */
  function Demands(bom: seq<FormulaMaterial>, quantity: int): seq<(string, real)> {
    seq(|bom|, k requires 0 <= k < |bom| => (bom[k].materialCode, Required(bom[k], quantity)))
  }

  /** What ledger rows moved: material code and quantity. */
  function Movements(entries: seq<StockOperation>): seq<(string, real)> {
    seq(|entries|, k requires 0 <= k < |entries| => (entries[k].materialCode, entries[k].quantity))
  }

  /** One loop step for the errors: the first line's error, if any, then the rest's. */
  lemma ErrorCodesStep(e1: seq<DeductionError>, e2: seq<DeductionError>, bom: seq<FormulaMaterial>)
    requires |bom| > 0 && |e1| <= 1 && (|e1| == 1 ==> e1[0].code == bom[0].materialCode)
    requires SubsequenceOf(ErrorCodes(e2), LineCodes(bom[1..]))
    ensures SubsequenceOf(ErrorCodes(e1 + e2), LineCodes(bom))
  {
    assert ErrorCodes(e1 + e2) == ErrorCodes(e1) + ErrorCodes(e2);
    assert LineCodes(bom)[1..] == LineCodes(bom[1..]);
    SubsequenceCons(ErrorCodes(e1), ErrorCodes(e2), LineCodes(bom));
  }

  /** One loop step for the ledger: the first line's row, if any, then the rest's rows. */
  lemma MovementsStep(l0: seq<StockOperation>, l1: seq<StockOperation>, l2: seq<StockOperation>,
                      bom: seq<FormulaMaterial>, quantity: int, wf: bool)
    requires |bom| > 0 && |l0| <= |l1| <= |l2| && l2[..|l1|] == l1 && l1[..|l0|] == l0
    requires |l1| == |l0| || |l1| == |l0| + 1
    requires wf && |l1| == |l0| + 1 ==>
      l1[|l0|].materialCode == bom[0].materialCode && l1[|l0|].quantity == Required(bom[0], quantity)
    requires wf ==> SubsequenceOf(Movements(l2[|l1|..]), Demands(bom[1..], quantity))
    ensures wf ==> SubsequenceOf(Movements(l2[|l0|..]), Demands(bom, quantity))
  {
    if wf {
      SliceSplit(l0, l1, l2);
      var head := l1[|l0|..];
      assert Movements(l2[|l0|..]) == Movements(head) + Movements(l2[|l1|..]);
      assert Demands(bom, quantity)[1..] == Demands(bom[1..], quantity);
      SubsequenceCons(Movements(head), Movements(l2[|l1|..]), Demands(bom, quantity));
    }
  }

  /** Codes do not change, so a line missing its material at the start is reported as missing. */
  lemma MissingStaysMissing(s: Store, s1: Store, bom: seq<FormulaMaterial>, e1: seq<DeductionError>,
                            e2: seq<DeductionError>)
    requires |bom| > 0 && SameMaterials(s.materials, s1.materials)
    requires FindMaterialByCode(s, bom[0].materialCode).None? ==> e1 == [MaterialMissing(bom[0].materialCode)]
    requires forall fm | fm in bom[1..] && FindMaterialByCode(s1, fm.materialCode).None? ::
      MaterialMissing(fm.materialCode) in e2
    ensures forall fm | fm in bom && FindMaterialByCode(s, fm.materialCode).None? ::
      MaterialMissing(fm.materialCode) in e1 + e2
  {
    forall fm | fm in bom && FindMaterialByCode(s, fm.materialCode).None?
      ensures MaterialMissing(fm.materialCode) in e1 + e2
    {
      if fm != bom[0] {
        assert fm in bom[1..];
        assert forall j | 0 <= j < |s1.materials| :: s1.materials[j].code == s.materials[j].code;
      }
    }
  }

  function SumQuantities(entries: seq<StockOperation>): real
    decreases |entries|
  {
    if |entries| == 0 then 0.0 else entries[0].quantity + SumQuantities(entries[1..])
  }

  /** Total stock falls by exactly the quantities the appended ledger rows record. */
  lemma {:induction false} DeductAllTotal(s: Store, bom: seq<FormulaMaterial>, o: Order,
                                          approvedBy: string, now: Time)
    requires WellFormed(s)
    ensures var r := DeductAll(s, bom, o, approvedBy, now);
      TotalStock(r.1.materials) == TotalStock(s.materials) - SumQuantities(r.1.ledger[|s.ledger|..])
    decreases |bom|
  {
    if |bom| > 0 {
      var s1 := DeductLine(s, bom[0], o, approvedBy, now).1;
      var s2 := DeductAll(s1, bom[1..], o, approvedBy, now).1;
      assert DeductAll(s, bom, o, approvedBy, now).1 == s2;
      DeductLineTotal(s, bom[0], o, approvedBy, now);
      DeductAllTotal(s1, bom[1..], o, approvedBy, now);
      SliceSplit(s.ledger, s1.ledger, s2.ledger);
      SumQuantitiesAppend(s1.ledger[|s.ledger|..], s2.ledger[|s1.ledger|..]);
    }
  }

  lemma SliceSplit<T>(l0: seq<T>, l1: seq<T>, l2: seq<T>)
    requires |l0| <= |l1| <= |l2| && l2[..|l1|] == l1
    ensures l2[|l0|..] == l1[|l0|..] + l2[|l1|..]
  {
  }

  lemma {:induction false} SumQuantitiesAppend(a: seq<StockOperation>, b: seq<StockOperation>)
    ensures SumQuantities(a + b) == SumQuantities(a) + SumQuantities(b)
    decreases |a|
  {
    if |a| > 0 {
      assert (a + b)[1..] == a[1..] + b;
      SumQuantitiesAppend(a[1..], b);
    } else {
      assert a + b == b;
    }
  }

  // ---------------------------------------------------------------------------
  // When the stock covers the demand.

  /** The stock of the material with this code, zero when there is none. */
  function StockOf(s: Store, code: string): real {
    match FindMaterialByCode(s, code)
    case Some(i) => s.materials[i].currentStock
    case None => 0.0
  }

  /** What the lines on this material code take out together. */
  function CodeDemand(bom: seq<FormulaMaterial>, code: string, quantity: int): real
    decreases |bom|
  {
    if |bom| == 0 then 0.0
    else (if bom[0].materialCode == code then Required(bom[0], quantity) else 0.0)
         + CodeDemand(bom[1..], code, quantity)
  }

  /** No line asks for a negative quantity (a negative amount would be a stock-in in disguise). */
  predicate NonNegativeDemands(bom: seq<FormulaMaterial>, quantity: int) {
    forall k | 0 <= k < |bom| :: Required(bom[k], quantity) >= 0.0
  }

  /** Every line's material exists and holds at least what all lines on its code take together. */
  predicate StockCovers(s: Store, bom: seq<FormulaMaterial>, quantity: int) {
    forall k | 0 <= k < |bom| ::
      && FindMaterialByCode(s, bom[k].materialCode).Some?
      && StockOf(s, bom[k].materialCode) >= CodeDemand(bom, bom[k].materialCode, quantity)
  }

  lemma {:induction false} CodeDemandNonNegative(bom: seq<FormulaMaterial>, code: string, quantity: int)
    requires NonNegativeDemands(bom, quantity)
    ensures CodeDemand(bom, code, quantity) >= 0.0
    decreases |bom|
  {
    if |bom| > 0 {
      NonNegativeTail(bom, quantity);
      CodeDemandNonNegative(bom[1..], code, quantity);
    }
  }

  lemma NonNegativeTail(bom: seq<FormulaMaterial>, quantity: int)
    requires |bom| > 0 && NonNegativeDemands(bom, quantity)
    ensures Required(bom[0], quantity) >= 0.0 && NonNegativeDemands(bom[1..], quantity)
  {
    forall k | 0 <= k < |bom[1..]| ensures Required(bom[1..][k], quantity) >= 0.0 {
      assert bom[1..][k] == bom[k + 1];
    }
  }

  /** Codes never change, so a by-code lookup finds the same row before and after. */
  lemma SameMaterialsLookup(s: Store, s': Store, code: string)
    requires SameMaterials(s.materials, s'.materials)
    ensures FindMaterialByCode(s', code) == FindMaterialByCode(s, code)
  {
    assert forall j | 0 <= j < |s.materials| :: s'.materials[j].code == s.materials[j].code;
  }

  /** One line lowers the stock of a code by at most that line's own requirement on it. */
  lemma DeductLineStock(s: Store, fm: FormulaMaterial, o: Order, approvedBy: string, now: Time, code: string)
    requires WellFormed(s) && Required(fm, o.quantity) >= 0.0
    ensures var s1 := DeductLine(s, fm, o, approvedBy, now).1;
      && FindMaterialByCode(s1, code) == FindMaterialByCode(s, code)
      && StockOf(s1, code) >= StockOf(s, code) - (if fm.materialCode == code then Required(fm, o.quantity) else 0.0)
  {
    var r := DeductLine(s, fm, o, approvedBy, now);
    SameMaterialsLookup(s, r.1, code);
    if r.0 == [] && FindMaterialByCode(s, code).Some? {
      var mi := FindMaterialByCode(s, fm.materialCode).value;
      var ci := FindMaterialByCode(s, code).value;
      var m := s.materials[mi];
      MaterialIdLookup(s, mi);
      if ci != mi {
        assert MaterialId(s.materials[ci]) != MaterialId(s.materials[mi]);
      }
    }
  }

  /**
   * The converse of the loop's refusals: a line whose material exists and whose stock covers this
   * line's requirement together with those of the earlier lines on the same code is deducted, so
   * its code and requirement are among the rows the loop appends.
   */
  lemma {:induction false} LineCovered(s: Store, bom: seq<FormulaMaterial>, o: Order, approvedBy: string,
                                       now: Time, k: nat)
    requires WellFormed(s) && NonNegativeDemands(bom, o.quantity) && k < |bom|
    requires FindMaterialByCode(s, bom[k].materialCode).Some?
    requires StockOf(s, bom[k].materialCode) >= CodeDemand(bom[..k + 1], bom[k].materialCode, o.quantity)
    ensures var r := DeductAll(s, bom, o, approvedBy, now);
      Demands(bom, o.quantity)[k] in Movements(r.1.ledger[|s.ledger|..])
    decreases k
  {
    var s1 := DeductLine(s, bom[0], o, approvedBy, now).1;
    var s2 := DeductAllStep(s, bom, o, approvedBy, now);
    if k == 0 {
      HeadCovered(s, bom, o, approvedBy, now);
    } else {
      var tail, j := bom[1..], k - 1;
      CoveredStep(s, s1, bom, tail, o, approvedBy, now, j);
      LineCovered(s1, tail, o, approvedBy, now, j);
    }
    MovementsIn(s.ledger, s1.ledger, s2.ledger, Demands(bom, o.quantity)[k]);
  }

  /** A movement of the first line's rows, or of the rest's, is a movement of the whole loop. */
  lemma MovementsIn(l0: seq<StockOperation>, l1: seq<StockOperation>, l2: seq<StockOperation>, d: (string, real))
    requires |l0| <= |l1| <= |l2| && l2[..|l1|] == l1
    requires (|l1| > |l0| && Movements(l1[|l0|..])[0] == d) || d in Movements(l2[|l1|..])
    ensures d in Movements(l2[|l0|..])
  {
    MovementsSplit(l0, l1, l2);
    var m1, m2 := Movements(l1[|l0|..]), Movements(l2[|l1|..]);
    if |l1| > |l0| && m1[0] == d {
      assert (m1 + m2)[0] == d;
    } else {
      assert d in m2;
    }
  }

  /** The loop's store is the rest of the loop run on the store the first line leaves. */
  lemma DeductAllStep(s: Store, bom: seq<FormulaMaterial>, o: Order, approvedBy: string, now: Time)
    returns (s2: Store)
    requires |bom| > 0
    ensures s2 == DeductAll(DeductLine(s, bom[0], o, approvedBy, now).1, bom[1..], o, approvedBy, now).1
    ensures DeductAll(s, bom, o, approvedBy, now).1 == s2
    ensures |s.ledger| <= |DeductLine(s, bom[0], o, approvedBy, now).1.ledger| <= |s2.ledger|
    ensures s2.ledger[..|DeductLine(s, bom[0], o, approvedBy, now).1.ledger|]
      == DeductLine(s, bom[0], o, approvedBy, now).1.ledger
  {
    var s1 := DeductLine(s, bom[0], o, approvedBy, now).1;
    s2 := DeductAll(s1, bom[1..], o, approvedBy, now).1;
  }

  /** The first line, when its stock covers its requirement, is deducted for its code and requirement. */
  lemma HeadCovered(s: Store, bom: seq<FormulaMaterial>, o: Order, approvedBy: string, now: Time)
    requires WellFormed(s) && NonNegativeDemands(bom, o.quantity) && |bom| > 0
    requires FindMaterialByCode(s, bom[0].materialCode).Some?
    requires StockOf(s, bom[0].materialCode) >= CodeDemand(bom[..1], bom[0].materialCode, o.quantity)
    ensures var r := DeductLine(s, bom[0], o, approvedBy, now);
      |Movements(r.1.ledger[|s.ledger|..])| > 0 && Movements(r.1.ledger[|s.ledger|..])[0] == Demands(bom, o.quantity)[0]
  {
    var (e1, s1) := DeductLine(s, bom[0], o, approvedBy, now);
    assert CodeDemand(bom[..1][1..], bom[0].materialCode, o.quantity) == 0.0;
    assert e1 == [];
    assert Movements(s1.ledger[|s.ledger|..])[0] == Demands(bom, o.quantity)[0];
  }

  /** After the first line, a later covered line is still covered, one position further up. */
  lemma CoveredStep(s: Store, s1: Store, bom: seq<FormulaMaterial>, tail: seq<FormulaMaterial>, o: Order,
                    approvedBy: string, now: Time, j: nat)
    requires WellFormed(s) && NonNegativeDemands(bom, o.quantity) && j + 1 < |bom|
    requires s1 == DeductLine(s, bom[0], o, approvedBy, now).1 && tail == bom[1..]
    requires FindMaterialByCode(s, bom[j + 1].materialCode).Some?
    requires StockOf(s, bom[j + 1].materialCode) >= CodeDemand(bom[..j + 2], bom[j + 1].materialCode, o.quantity)
    ensures WellFormed(s1) && NonNegativeDemands(tail, o.quantity) && j < |tail|
    ensures FindMaterialByCode(s1, tail[j].materialCode).Some?
    ensures StockOf(s1, tail[j].materialCode) >= CodeDemand(tail[..j + 1], tail[j].materialCode, o.quantity)
    ensures Demands(tail, o.quantity)[j] == Demands(bom, o.quantity)[j + 1]
  {
    var code := bom[j + 1].materialCode;
    SameMaterialsWellFormed(s, s1);
    NonNegativeTail(bom, o.quantity);
    assert bom[..j + 2][1..] == tail[..j + 1];
    DeductLineStock(s, bom[0], o, approvedBy, now, code);
    assert tail[j] == bom[j + 1];
  }

  /** The movements of the whole loop are the first line's followed by the rest's. */
  lemma MovementsSplit(l0: seq<StockOperation>, l1: seq<StockOperation>, l2: seq<StockOperation>)
    requires |l0| <= |l1| <= |l2| && l2[..|l1|] == l1
    ensures Movements(l2[|l0|..]) == Movements(l1[|l0|..]) + Movements(l2[|l1|..])
  {
    SliceSplit(l0, l1, l2);
  }

  /**
   * When every material covers the total demand on its code, nothing is refused: the loop reports
   * no error and appends exactly one row per line, with the line's code and requirement, in order.
   */
  lemma {:induction false} CoveredDeductsAll(s: Store, bom: seq<FormulaMaterial>, o: Order,
                                             approvedBy: string, now: Time)
    requires WellFormed(s) && NonNegativeDemands(bom, o.quantity) && StockCovers(s, bom, o.quantity)
    ensures var r := DeductAll(s, bom, o, approvedBy, now);
      r.0 == [] && Movements(r.1.ledger[|s.ledger|..]) == Demands(bom, o.quantity)
    decreases |bom|
  {
    if |bom| > 0 {
      var (e1, s1) := DeductLine(s, bom[0], o, approvedBy, now);
      var (e2, s2) := DeductAll(s1, bom[1..], o, approvedBy, now);
      assert DeductAll(s, bom, o, approvedBy, now) == (e1 + e2, s2);
      FirstLineCovered(s, bom, o, approvedBy, now);
      SameMaterialsWellFormed(s, s1);
      NonNegativeTail(bom, o.quantity);
      CoveredTail(s, bom, o, approvedBy, now);
      CoveredDeductsAll(s1, bom[1..], o, approvedBy, now);
      MovementsSplit(s.ledger, s1.ledger, s2.ledger);
      DemandsCons(bom, o.quantity);
    }
  }

  /** The first line of a covered formula is deducted, for its code and requirement. */
  lemma FirstLineCovered(s: Store, bom: seq<FormulaMaterial>, o: Order, approvedBy: string, now: Time)
    requires |bom| > 0 && WellFormed(s) && NonNegativeDemands(bom, o.quantity) && StockCovers(s, bom, o.quantity)
    ensures var r := DeductLine(s, bom[0], o, approvedBy, now);
      r.0 == [] && Movements(r.1.ledger[|s.ledger|..]) == [Demands(bom, o.quantity)[0]]
  {
    NonNegativeTail(bom, o.quantity);
    CodeDemandNonNegative(bom[1..], bom[0].materialCode, o.quantity);
    var r := DeductLine(s, bom[0], o, approvedBy, now);
    assert r.0 == [];
    assert r.1.ledger[|s.ledger|..] == [r.1.ledger[|s.ledger|]];
  }

  lemma DemandsCons(bom: seq<FormulaMaterial>, quantity: int)
    requires |bom| > 0
    ensures Demands(bom, quantity) == [Demands(bom, quantity)[0]] + Demands(bom[1..], quantity)
  {
    assert Demands(bom, quantity)[1..] == Demands(bom[1..], quantity);
  }

  /** After the first line, the stock left still covers the remaining lines. */
  lemma CoveredTail(s: Store, bom: seq<FormulaMaterial>, o: Order, approvedBy: string, now: Time)
    requires |bom| > 0 && WellFormed(s) && NonNegativeDemands(bom, o.quantity) && StockCovers(s, bom, o.quantity)
    ensures StockCovers(DeductLine(s, bom[0], o, approvedBy, now).1, bom[1..], o.quantity)
  {
    var s1 := DeductLine(s, bom[0], o, approvedBy, now).1;
    NonNegativeTail(bom, o.quantity);
    forall k | 0 <= k < |bom[1..]|
      ensures FindMaterialByCode(s1, bom[1..][k].materialCode).Some?
      ensures StockOf(s1, bom[1..][k].materialCode) >= CodeDemand(bom[1..], bom[1..][k].materialCode, o.quantity)
    {
      assert bom[1..][k] == bom[k + 1];
      DeductLineStock(s, bom[0], o, approvedBy, now, bom[k + 1].materialCode);
    }
  }

  // ---------------------------------------------------------------------------
  // The status update.

  datatype DeductionOutcome =
    | Deducted
    | OrderIncomplete
    | DeductionFailed(errors: seq<DeductionError>)

  /** `autoDeductMaterials`: re-reads the order, then deducts every line of its formula. */
  function AutoDeduct(s: Store, orderId: Id, approvedBy: string, now: Time): (r: (DeductionOutcome, Store))
    ensures r.0.OrderIncomplete? <==>
      FindOrder(s, orderId).None? || !Present(s.orders[FindOrder(s, orderId).value].formulaId)
    ensures r.0.OrderIncomplete? ==> r.1 == s
    ensures r.1 == s.(materials := r.1.materials, ledger := r.1.ledger)
    ensures SameMaterials(s.materials, r.1.materials)
    ensures !r.0.OrderIncomplete? ==>
      var o := s.orders[FindOrder(s, orderId).value];
      && AppendsDeductions(s.ledger, r.1.ledger, o, approvedBy)
      && (r.0.Deducted? <==> |r.1.ledger| == |s.ledger| + |BomOf(s, o.formulaId.value)|)
    ensures r.0.DeductionFailed? ==> |r.0.errors| > 0
  {
    match FindOrder(s, orderId)
    case None => (OrderIncomplete, s)
    case Some(i) =>
      var o := s.orders[i];
      if !Present(o.formulaId) then (OrderIncomplete, s)
      else
        var bom := BomOf(s, o.formulaId.value);
        var (errors, s') := DeductAll(s, bom, o, approvedBy, now);
        if |errors| > 0 then (DeductionFailed(errors), s') else (Deducted, s')
  }

  /**
   * Under unique keys the rows `autoDeductMaterials` appends move lines' codes and requirements, in
   * line order, and when the stock covers every code's total demand, every line is deducted.
   */
  lemma AutoDeductInLineOrder(s: Store, orderId: Id, approvedBy: string, now: Time)
    ensures var r := AutoDeduct(s, orderId, approvedBy, now);
      WellFormed(s) && !r.0.OrderIncomplete? ==>
      var o := s.orders[FindOrder(s, orderId).value];
      SubsequenceOf(Movements(r.1.ledger[|s.ledger|..]), Demands(BomOf(s, o.formulaId.value), o.quantity))
    ensures var r := AutoDeduct(s, orderId, approvedBy, now);
      WellFormed(s) && !r.0.OrderIncomplete? ==>
      var o := s.orders[FindOrder(s, orderId).value];
      var bom := BomOf(s, o.formulaId.value);
      NonNegativeDemands(bom, o.quantity) && StockCovers(s, bom, o.quantity) ==>
        r.0.Deducted? && Movements(r.1.ledger[|s.ledger|..]) == Demands(bom, o.quantity)
  {
    match FindOrder(s, orderId)
    case None =>
    case Some(i) =>
      var o := s.orders[i];
      if Present(o.formulaId) {
        var bom := BomOf(s, o.formulaId.value);
        if WellFormed(s) && NonNegativeDemands(bom, o.quantity) && StockCovers(s, bom, o.quantity) {
          CoveredDeductsAll(s, bom, o, approvedBy, now);
        }
      }
  }

  datatype StatusMessage = OrderNotFound | StatusUpdated | DeductionIncomplete(outcome: DeductionOutcome)

  datatype StatusResult = StatusResult(success: bool, message: StatusMessage)

  /** The one transition with a stock side effect. */
  predicate StartsProduction(from: OrderStatus, to: OrderStatus) {
    from == Pending && to == Processing
  }

  /**
   * `updateOrderStatus`: no transition is refused, but the status write goes through the update
   * schema, which throws for a status text longer than its column. The status is written first;
   * `pending` to `processing` then deducts the formula's materials, and a deduction failure is
   * reported with the status already written; any other move to `completed` stamps the shipping date.
   */
  function UpdateOrderStatus(s: Store, orderId: Id, newStatus: OrderStatus, approvedBy: string,
                             now: Time): (r: (Result<StatusResult, SchemaError>, Store))
    ensures FindOrder(s, orderId).None? <==> r.0 == Success(StatusResult(false, OrderNotFound))
    ensures FindOrder(s, orderId).None? ==> r.1 == s
    // The thrown validation error: only for an existing order, and before anything is written.
    ensures r.0.Failure? <==> FindOrder(s, orderId).Some? && Utf16Length(OrderStatusText(newStatus)) > 20
    ensures r.0.Failure? ==> r.1 == s
    ensures r.1 == s.(orders := r.1.orders, materials := r.1.materials, ledger := r.1.ledger)
    ensures SameMaterials(s.materials, r.1.materials)
    ensures |r.1.orders| == |s.orders|
    ensures forall j | 0 <= j < |s.orders| && s.orders[j].id != orderId :: r.1.orders[j] == s.orders[j]
  {
    match FindOrder(s, orderId)
    case None => (Success(StatusResult(false, OrderNotFound)), s)
    case Some(i) =>
      StatusPatchValid(newStatus);
      if !ValidOrderPatch(StatusPatch(newStatus)) then (Failure(ValueOutOfRange), s)
      else WriteStatus(s, orderId, i, newStatus, approvedBy, now)
  }

  /**
   * The writes once the order is found at `i` and the status passes the schema: the status, then
   * either the deduction or the shipping date.
   */
  function WriteStatus(s: Store, orderId: Id, i: nat, newStatus: OrderStatus, approvedBy: string, now: Time)
    : (r: (Result<StatusResult, SchemaError>, Store))
    requires i < |s.orders| && s.orders[i].id == orderId
    ensures r.0.Success?
    ensures r.1 == s.(orders := r.1.orders, materials := r.1.materials, ledger := r.1.ledger)
    ensures SameMaterials(s.materials, r.1.materials)
    ensures |r.1.orders| == |s.orders|
    ensures forall j | 0 <= j < |s.orders| && s.orders[j].id != orderId :: r.1.orders[j] == s.orders[j]
    ensures forall j | 0 <= j < |s.orders| && s.orders[j].id == orderId ::
      r.1.orders[j] == if !StartsProduction(s.orders[i].status, newStatus) && newStatus == Completed
                       then s.orders[j].(status := newStatus, shippingDate := Some(now), updatedAt := Some(now))
                       else s.orders[j].(status := newStatus, updatedAt := Some(now))
  {
    var o := s.orders[i];
    var s1 := s.(orders := UpdateOrderRows(s.orders, orderId, StatusPatch(newStatus), now));
    StatusRows(s.orders, orderId, newStatus, now);
    if StartsProduction(o.status, newStatus) && Present(o.formulaId) then
      var (outcome, s2) := AutoDeduct(s1, orderId, approvedBy, now);
      if outcome.Deducted? then (Success(StatusResult(true, StatusUpdated)), s2)
      else (Success(StatusResult(false, DeductionIncomplete(outcome))), s2)
    else if !StartsProduction(o.status, newStatus) && newStatus == Completed then
      ShippingRows(s.orders, orderId, newStatus, now);
      (Success(StatusResult(true, StatusUpdated)),
       s1.(orders := UpdateOrderRows(s1.orders, orderId, ShippingDatePatch(now), now)))
    else (Success(StatusResult(true, StatusUpdated)), s1)
  }

  /**
   * Once the status passes the update schema, every row of the order gets the new status, whatever
   * the old one; a move to `completed` other than from the production start also gets today's
   * shipping date. No other column changes.
   */
  lemma UpdateOrderStatusWrites(s: Store, orderId: Id, newStatus: OrderStatus, approvedBy: string, now: Time)
    requires FindOrder(s, orderId).Some?
    ensures var r := UpdateOrderStatus(s, orderId, newStatus, approvedBy, now);
      var o := s.orders[FindOrder(s, orderId).value];
      r.0.Success? ==>
      forall j | 0 <= j < |s.orders| && s.orders[j].id == orderId ::
        r.1.orders[j] == if !StartsProduction(o.status, newStatus) && newStatus == Completed
                         then s.orders[j].(status := newStatus, shippingDate := Some(now), updatedAt := Some(now))
                         else s.orders[j].(status := newStatus, updatedAt := Some(now))
  {
  }

  /** The status write, row by row. */
  lemma StatusRows(rows: seq<Order>, orderId: Id, st: OrderStatus, now: Time)
    ensures forall j | 0 <= j < |rows| && rows[j].id == orderId ::
      UpdateOrderRows(rows, orderId, StatusPatch(st), now)[j] == rows[j].(status := st, updatedAt := Some(now))
  {
    forall j | 0 <= j < |rows| && rows[j].id == orderId
      ensures UpdateOrderRows(rows, orderId, StatusPatch(st), now)[j] == rows[j].(status := st, updatedAt := Some(now))
    {
      OrderPatchLaws(rows[j], StatusPatch(st), now);
    }
  }

  /** The status write followed by the shipping-date write, row by row. */
  lemma ShippingRows(rows: seq<Order>, orderId: Id, st: OrderStatus, now: Time)
    ensures forall j | 0 <= j < |rows| && rows[j].id == orderId ::
      UpdateOrderRows(UpdateOrderRows(rows, orderId, StatusPatch(st), now), orderId, ShippingDatePatch(now), now)[j]
        == rows[j].(status := st, shippingDate := Some(now), updatedAt := Some(now))
  {
    var rows1 := UpdateOrderRows(rows, orderId, StatusPatch(st), now);
    StatusRows(rows, orderId, st, now);
    forall j | 0 <= j < |rows| && rows[j].id == orderId
      ensures UpdateOrderRows(rows1, orderId, ShippingDatePatch(now), now)[j]
        == rows[j].(status := st, shippingDate := Some(now), updatedAt := Some(now))
    {
      OrderPatchLaws(rows1[j], ShippingDatePatch(now), now);
    }
  }

  /**
   * Without a deduction to run, stock and ledger stay as they were, and the update succeeds unless
   * the status text is too long for its column.
   */
  lemma UpdateOrderStatusNoDeduction(s: Store, orderId: Id, newStatus: OrderStatus, approvedBy: string,
                                     now: Time)
    requires FindOrder(s, orderId).Some?
    requires var o := s.orders[FindOrder(s, orderId).value];
      !(StartsProduction(o.status, newStatus) && Present(o.formulaId))
    ensures var r := UpdateOrderStatus(s, orderId, newStatus, approvedBy, now);
      && (Utf16Length(OrderStatusText(newStatus)) <= 20 <==> r.0 == Success(StatusResult(true, StatusUpdated)))
      && r.1.materials == s.materials && r.1.ledger == s.ledger
  {
    StatusPatchValid(newStatus);
    var r := UpdateOrderStatus(s, orderId, newStatus, approvedBy, now);
    if ValidOrderPatch(StatusPatch(newStatus)) {
      assert r.0 == Success(StatusResult(true, StatusUpdated));
    } else {
      assert r == (Failure(ValueOutOfRange), s);
    }
  }

  /**
   * Starting production of an order with a formula appends deduction rows tagged with the order
   * number; the update reports success exactly when every line of the formula was deducted. Under
   * unique keys the rows move lines' codes and requirements in line order, and when the stock
   * covers every code's total demand the update succeeds with one row per line.
   */
  lemma UpdateOrderStatusDeduction(s: Store, orderId: Id, newStatus: OrderStatus, approvedBy: string,
                                   now: Time)
    requires FindOrder(s, orderId).Some?
    requires var o := s.orders[FindOrder(s, orderId).value];
      StartsProduction(o.status, newStatus) && Present(o.formulaId)
    ensures var r := UpdateOrderStatus(s, orderId, newStatus, approvedBy, now);
      var o := s.orders[FindOrder(s, orderId).value];
      && r.0.Success?
      && AppendsDeductions(s.ledger, r.1.ledger, o, approvedBy)
      && (r.0.value.success <==> |r.1.ledger| == |s.ledger| + |BomOf(s, o.formulaId.value)|)
    ensures var r := UpdateOrderStatus(s, orderId, newStatus, approvedBy, now);
      var o := s.orders[FindOrder(s, orderId).value];
      var bom := BomOf(s, o.formulaId.value);
      && (WellFormed(s) ==> SubsequenceOf(Movements(r.1.ledger[|s.ledger|..]), Demands(bom, o.quantity)))
      && (WellFormed(s) && NonNegativeDemands(bom, o.quantity) && StockCovers(s, bom, o.quantity) ==>
            && r.0 == Success(StatusResult(true, StatusUpdated))
            && Movements(r.1.ledger[|s.ledger|..]) == Demands(bom, o.quantity))
  {
    var i := FindOrder(s, orderId).value;
    var o := s.orders[i];
    var s1 := StatusThenDeduct(s, orderId, newStatus, approvedBy, now);
    AutoDeductInLineOrder(s1, orderId, approvedBy, now);
    var o1 := s1.orders[i];
    assert forall e :: DeductionEntry(e, o1, approvedBy) == DeductionEntry(e, o, approvedBy);
    CoversSameMaterials(s, s1, BomOf(s, o.formulaId.value), o.quantity);
  }

  /** Starting production is the status write followed by `autoDeductMaterials` on the written store. */
  lemma StatusThenDeduct(s: Store, orderId: Id, newStatus: OrderStatus, approvedBy: string, now: Time)
    returns (s1: Store)
    requires FindOrder(s, orderId).Some?
    requires var o := s.orders[FindOrder(s, orderId).value];
      StartsProduction(o.status, newStatus) && Present(o.formulaId)
    ensures s1 == s.(orders := s1.orders)
    ensures WellFormed(s) ==> WellFormed(s1)
    ensures FindOrder(s1, orderId) == FindOrder(s, orderId)
    ensures var o := s.orders[FindOrder(s, orderId).value];
      var o1 := s1.orders[FindOrder(s, orderId).value];
      && o1.orderNo == o.orderNo && o1.createdBy == o.createdBy && o1.formulaId == o.formulaId
      && o1.quantity == o.quantity
      && BomOf(s1, o.formulaId.value) == BomOf(s, o.formulaId.value)
    ensures var d := AutoDeduct(s1, orderId, approvedBy, now);
      UpdateOrderStatus(s, orderId, newStatus, approvedBy, now)
        == (if d.0.Deducted? then Success(StatusResult(true, StatusUpdated))
            else Success(StatusResult(false, DeductionIncomplete(d.0))), d.1)
  {
    var i := FindOrder(s, orderId).value;
    s1 := s.(orders := UpdateOrderRows(s.orders, orderId, StatusPatch(newStatus), now));
    ProductionWrite(s, s1, orderId, i, newStatus, approvedBy, now);
    FindOrderSameIds(s, s1, orderId);
    OrderRowsWellFormed(s, s1, orderId, StatusPatch(newStatus), now);
  }

  /** The order lookup reads only the id column. */
  lemma FindOrderSameIds(s: Store, s1: Store, id: Id)
    requires |s1.orders| == |s.orders|
    requires forall j | 0 <= j < |s.orders| :: s1.orders[j].id == s.orders[j].id
    ensures FindOrder(s1, id) == FindOrder(s, id)
  {
    var r, r1 := FindOrder(s, id), FindOrder(s1, id);
    if r1.Some? {
      assert s.orders[r1.value].id == id;
    }
    if r.Some? {
      assert s1.orders[r.value].id == id;
    }
  }

  /** The production start, once the order is found at `i`: the status write, then the deduction. */
  lemma ProductionWrite(s: Store, s1: Store, orderId: Id, i: nat, newStatus: OrderStatus, approvedBy: string,
                        now: Time)
    requires FindOrder(s, orderId) == Some(i) && i < |s.orders|
    requires StartsProduction(s.orders[i].status, newStatus) && Present(s.orders[i].formulaId)
    requires s1 == s.(orders := UpdateOrderRows(s.orders, orderId, StatusPatch(newStatus), now))
    ensures var d := AutoDeduct(s1, orderId, approvedBy, now);
      UpdateOrderStatus(s, orderId, newStatus, approvedBy, now)
        == (if d.0.Deducted? then Success(StatusResult(true, StatusUpdated))
            else Success(StatusResult(false, DeductionIncomplete(d.0))), d.1)
  {
    StatusPatchValid(newStatus);
  }

  /** Writing order columns other than id and number keeps the keys unique. */
  lemma OrderRowsWellFormed(s: Store, s1: Store, orderId: Id, p: OrderPatch, now: Time)
    requires s1 == s.(orders := UpdateOrderRows(s.orders, orderId, p, now))
    ensures WellFormed(s) ==> WellFormed(s1)
  {
    if WellFormed(s) {
      var os := s1.orders;
      assert UniqueKey(os, OrderId) by {
        forall i, j | 0 <= i < j < |os| ensures OrderId(os[i]) != OrderId(os[j]) {
          assert OrderId(s.orders[i]) != OrderId(s.orders[j]);
        }
      }
      assert UniqueKey(os, OrderNo) by {
        forall i, j | 0 <= i < j < |os| ensures OrderNo(os[i]) != OrderNo(os[j]) {
          assert OrderNo(s.orders[i]) != OrderNo(s.orders[j]);
        }
      }
    }
  }

  /** Coverage reads the material rows only. */
  lemma CoversSameMaterials(s: Store, s1: Store, bom: seq<FormulaMaterial>, quantity: int)
    requires s1.materials == s.materials
    ensures StockCovers(s1, bom, quantity) == StockCovers(s, bom, quantity)
  {
    forall code ensures FindMaterialByCode(s1, code) == FindMaterialByCode(s, code) && StockOf(s1, code) == StockOf(s, code) {
    }
  }

  /** An over-long status text for an existing order throws before any write. */
  lemma UpdateOrderStatusRejects(s: Store, orderId: Id, text: OtherOrderText, approvedBy: string, now: Time)
    requires FindOrder(s, orderId).Some? && Utf16Length(text) > 20
    ensures UpdateOrderStatus(s, orderId, OtherOrderStatus(text), approvedBy, now) == (Failure(ValueOutOfRange), s)
  {
    var st := OtherOrderStatus(text);
    assert OrderStatusText(st) == text;
    StatusPatchValid(st);
    assert !ValidOrderPatch(StatusPatch(st));
  }

  // ---------------------------------------------------------------------------
  // Worked example: order of 10 units, one formula line of 0.9 per unit of P01.

  function SampleOrder(): Order {
    NewOrder(OrderDraft("PE-20240115-001A", None, "ACME", None, None, None, None, None, None,
                        Some("f-1"), None, 10, "kg", None, None, None, "alice", Some("A")), "o-1", 0)
  }

  function SampleStore(stock: real): Store {
    Store([SampleOrder()],
          [Formula("f-1", "F-001", "base", "1.0", None, None, true, "alice", 0, None)],
          [FormulaMaterial("fm-1", "f-1", "m-p01", "P01", 0.9, Some(0.9))],
          [P01().(currentStock := stock)], [], [])
  }

  /** The sample store's keys and lookups, and the status write that precedes the deduction. */
  lemma SampleFacts(stock: real, now: Time)
    ensures var s := SampleStore(stock);
      var s1 := s.(orders := UpdateOrderRows(s.orders, "o-1", StatusPatch(Processing), now));
      && WellFormed(s) && WellFormed(s1)
      && FindOrder(s, "o-1") == Some(0) && FindOrder(s1, "o-1") == Some(0)
      && s.orders[0].status == Pending && s.orders[0].formulaId == Some("f-1")
      && BomOf(s, "f-1") == s.formulaMaterials && BomOf(s1, "f-1") == s.formulaMaterials
      && FindMaterialByCode(s1, "P01") == Some(0) && FindMaterial(s1, "m-p01") == Some(0)
      && Required(s.formulaMaterials[0], s1.orders[0].quantity) == 9.0
  {
    var s := SampleStore(stock);
    var s1 := s.(orders := UpdateOrderRows(s.orders, "o-1", StatusPatch(Processing), now));
    assert FindOrder(s, "o-1") == Some(0);
    assert BomOf(s, "f-1") == s.formulaMaterials;
    OrderRowsWellFormed(s, s1, "o-1", StatusPatch(Processing), now);
  }

  /** A one-line formula: the loop is that line. */
  lemma DeductSingle(s: Store, fm: FormulaMaterial, o: Order, approvedBy: string, now: Time)
    ensures DeductAll(s, [fm], o, approvedBy, now) == DeductLine(s, fm, o, approvedBy, now)
  {
    var (e1, s1) := DeductLine(s, fm, o, approvedBy, now);
    assert [fm][1..] == [];
    assert DeductAll(s1, [], o, approvedBy, now) == ([], s1);
    assert e1 + [] == e1;
  }

  /** The status update on the sample store is the deduction of its one line after the status write. */
  lemma SampleUpdate(stock: real, now: Time)
    ensures var s := SampleStore(stock);
      var s1 := s.(orders := UpdateOrderRows(s.orders, "o-1", StatusPatch(Processing), now));
      && UpdateOrderStatus(s, "o-1", Processing, "bob", now).1
           == DeductLine(s1, s.formulaMaterials[0], s1.orders[0], "bob", now).1
      && UpdateOrderStatus(s, "o-1", Processing, "bob", now).1.orders[0].status == Processing
  {
    var s := SampleStore(stock);
    var s1 := s.(orders := UpdateOrderRows(s.orders, "o-1", StatusPatch(Processing), now));
    SampleFacts(stock, now);
    SampleStatusWrite(stock, now);
    DeductSingle(s1, s.formulaMaterials[0], s1.orders[0], "bob", now);
  }

  /** On the sample store the update writes the status and then runs the automatic deduction. */
  lemma SampleStatusWrite(stock: real, now: Time)
    ensures var s := SampleStore(stock);
      var s1 := s.(orders := UpdateOrderRows(s.orders, "o-1", StatusPatch(Processing), now));
      UpdateOrderStatus(s, "o-1", Processing, "bob", now).1 == AutoDeduct(s1, "o-1", "bob", now).1
  {
    var s := SampleStore(stock);
    var s1 := s.(orders := UpdateOrderRows(s.orders, "o-1", StatusPatch(Processing), now));
    SampleFacts(stock, now);
    ProductionWrite(s, s1, "o-1", 0, Processing, "bob", now);
  }

  /** Five units in stock against a demand of nine: the order is processing, nothing is deducted. */
  lemma ShortStockScenario(now: Time)
    ensures var r := UpdateOrderStatus(SampleStore(5.0), "o-1", Processing, "bob", now);
      && r.0.Success? && !r.0.value.success
      && r.1.orders[0].status == Processing
      && r.1.ledger == []
      && r.1.materials[0].currentStock == 5.0
  {
    var s := SampleStore(5.0);
    SampleFacts(5.0, now);
    SampleUpdate(5.0, now);
    UpdateOrderStatusDeduction(s, "o-1", Processing, "bob", now);
  }

  /** With 1000 in stock the same move deducts 0.9 x 10 = 9, recorded as one `out` row. */
  lemma FullStockScenario(now: Time)
    ensures var r := UpdateOrderStatus(SampleStore(1000.0), "o-1", Processing, "bob", now);
      && r.0 == Success(StatusResult(true, StatusUpdated))
      && r.1.orders[0].status == Processing
      && |r.1.ledger| == 1
      && r.1.ledger[0].quantity == 9.0 && r.1.ledger[0].afterStock == 991.0
      && r.1.ledger[0].referenceNo == Some("PE-20240115-001A")
      && r.1.materials[0].currentStock == 991.0
  {
    var s := SampleStore(1000.0);
    SampleUpdate(1000.0, now);
    SampleFullLine(now);
    SampleCovered();
    UpdateOrderStatusDeduction(s, "o-1", Processing, "bob", now);
  }

  /** 1000 in stock covers the sample order's one line. */
  lemma SampleCovered()
    ensures var s := SampleStore(1000.0);
      var o := s.orders[FindOrder(s, "o-1").value];
      var bom := BomOf(s, o.formulaId.value);
      WellFormed(s) && NonNegativeDemands(bom, o.quantity) && StockCovers(s, bom, o.quantity)
  {
    var s := SampleStore(1000.0);
    SampleFacts(1000.0, 0);
    assert FindMaterialByCode(s, "P01") == Some(0);
    assert CodeDemand(s.formulaMaterials[1..], "P01", 10) == 0.0;
  }

  /** The sample line against 1000 in stock: one `out` row of 9, leaving 991. */
  lemma SampleFullLine(now: Time)
    ensures var s := SampleStore(1000.0);
      var s1 := s.(orders := UpdateOrderRows(s.orders, "o-1", StatusPatch(Processing), now));
      var r := DeductLine(s1, s.formulaMaterials[0], s1.orders[0], "bob", now).1;
      && |r.ledger| == 1
      && r.ledger[0].quantity == 9.0 && r.ledger[0].afterStock == 991.0
      && r.ledger[0].referenceNo == Some("PE-20240115-001A")
      && r.materials[0].currentStock == 991.0
  {
    SampleFacts(1000.0, now);
  }
}

=== FILE: route_guard.dfy ===
/**
 * The route guard run in front of every request its matcher selects (all but `_next/static`,
 * `_next/image`, `favicon.ico` and image files): public routes are those whose path
 * starts with `/login` or `/api/auth`; a request counts as authenticated when it carries an
 * `auth_token` cookie, whatever its value.
 */
module RouteGuard {
  import opened Wrappers
  import opened Text

  const PublicRoutes: seq<string> := ["/login", "/api/auth"]

  /** `publicRoutes.some(route => pathname.startsWith(route))`. */
  predicate IsPublicRoute(path: string) {
    exists k | 0 <= k < |PublicRoutes| :: StartsWith(path, PublicRoutes[k])
  }

  /** The guard's answer: let the request through, or redirect it to another path. */
  datatype Decision = Next | Redirect(to: string)

  /** `middleware(request)` for a request to `path` carrying the cookie `token`, if any. */
  function Middleware(path: string, token: Option<string>): (r: Decision)
    ensures r == Next <==> (token.Some? && path != "/login") || (token.None? && IsPublicRoute(path))
    ensures r.Redirect? ==>
      || (r.to == "/" && token.Some? && path == "/login")
      || (r.to == "/login" && token.None? && !IsPublicRoute(path))
  {
    var isPublicRoute := StartsWith(path, "/login") || StartsWith(path, "/api/auth");
    var isAuthenticated := token.Some?;
    assert isPublicRoute <==> IsPublicRoute(path) by {
      assert PublicRoutes[0] == "/login" && PublicRoutes[1] == "/api/auth";
    }
    if path == "/login" && isAuthenticated then Redirect("/")
    else if !isPublicRoute && !isAuthenticated then Redirect("/login")
    else Next
  }

  /** Only the cookie's presence matters, never its value. */
  lemma TokenValueIrrelevant(path: string, a: string, b: string)
    ensures Middleware(path, Some(a)) == Middleware(path, Some(b))
  {
  }

  /** Following a redirect with the same cookie state is let through: the guard never loops. */
  lemma NoRedirectLoop(path: string, token: Option<string>)
    ensures Middleware(path, token).Redirect? ==> Middleware(Middleware(path, token).to, token) == Next
  {
    if Middleware(path, token).Redirect? && token.None? {
      assert StartsWith("/login", PublicRoutes[0]);
    }
  }

  /** Without a cookie only public routes are reached. */
  lemma AnonymousReachesOnlyPublic(path: string)
    ensures Middleware(path, None) == Next <==> IsPublicRoute(path)
  {
  }

  /** With a cookie every path but exactly `/login` is reached; `/login/...` is not redirected. */
  lemma AuthenticatedReachesAllButLogin(path: string, token: string)
    ensures Middleware(path, Some(token)) == Next <==> path != "/login"
  {
  }

  /** The public test is a prefix test: `/api/authx` and `/login-help` count as public. */
  lemma PrefixExamples()
    ensures IsPublicRoute("/api/authx") && IsPublicRoute("/login-help")
    ensures !IsPublicRoute("/") && !IsPublicRoute("/api/orders")
  {
    assert StartsWith("/api/authx", PublicRoutes[1]);
    assert StartsWith("/login-help", PublicRoutes[0]);
    assert !StartsWith("/api/orders", PublicRoutes[1]) by {
      assert "/api/orders"[..9] != "/api/auth" by { assert "/api/orders"[5] != "/api/auth"[5]; }
    }
  }
}

=== FILE: schema.dfy ===
/**
 * The relational schema of the order / formula / material / test core: one datatype per table row,
 * the insert defaults, the partial update patches, and the store as a set of tables.
 *
 * A table is a sequence of rows; a lookup returns the first row that matches, as the
 * `const [row] = await db.select()...where(...)` idiom of the managers does. Unique columns
 * (primary keys, `orderNo`, material and formula `code`, `testNo`) are the store invariant
 * `WellFormed`.
 *
 * Stock quantities are `numeric(10,2)` columns read back with `Number(...)`; they are modelled as
 * exact `real`s (rounding to two decimals on write is not modelled). Order `quantity` is an integer
 * column. Timestamps come from an injected clock as `Time`.
 */
module Schema {
  import opened Wrappers
  import opened Sequences
  import opened Text

  type Id = string
  type Time = int

  // ---------------------------------------------------------------------------
  // Status enumerations. The status columns are free `varchar`s and the services write whatever
  // status string they are given, so every enumeration keeps an escape for other values. The
  // escape's text is never one of the known spellings, so a status is its text: comparing two
  // statuses is comparing the strings the code compares.

  const OrderStatusNames: set<string> := {"pending", "processing", "completed", "cancelled"}

  type OtherOrderText = t: string | t !in OrderStatusNames witness "shipped"

  datatype OrderStatus = Pending | Processing | Completed | Cancelled | OtherOrderStatus(text: OtherOrderText)

  /** The string stored in the `status` column. */
  function OrderStatusText(st: OrderStatus): (t: string)
    ensures st.OtherOrderStatus? <==> t !in OrderStatusNames
  {
    match st
    case Pending => "pending"
    case Processing => "processing"
    case Completed => "completed"
    case Cancelled => "cancelled"
    case OtherOrderStatus(text) => text
  }

  /** Reading the column back. */
  function ParseOrderStatus(t: string): (st: OrderStatus)
    ensures OrderStatusText(st) == t
  {
    if t == "pending" then Pending
    else if t == "processing" then Processing
    else if t == "completed" then Completed
    else if t == "cancelled" then Cancelled
    else OtherOrderStatus(t)
  }

  /** Statuses and their texts are in one-to-one correspondence. */
  lemma OrderStatusRoundTrip(st: OrderStatus)
    ensures ParseOrderStatus(OrderStatusText(st)) == st
  {
  }

  const TestStatusNames: set<string> := {"pending", "testing", "completed", "failed"}

  type OtherTestText = t: string | t !in TestStatusNames witness "retest"

  datatype TestStatus = TestPending | Testing | TestCompleted | TestFailed | OtherTestStatus(text: OtherTestText)

  function TestStatusText(st: TestStatus): (t: string)
    ensures st.OtherTestStatus? <==> t !in TestStatusNames
  {
    match st
    case TestPending => "pending"
    case Testing => "testing"
    case TestCompleted => "completed"
    case TestFailed => "failed"
    case OtherTestStatus(text) => text
  }

  function ParseTestStatus(t: string): (st: TestStatus)
    ensures TestStatusText(st) == t
  {
    if t == "pending" then TestPending
    else if t == "testing" then Testing
    else if t == "completed" then TestCompleted
    else if t == "failed" then TestFailed
    else OtherTestStatus(t)
  }

  lemma TestStatusRoundTrip(st: TestStatus)
    ensures ParseTestStatus(TestStatusText(st)) == st
  {
  }

  datatype MaterialStatus = Normal | LowStock | OutOfStock | Expired

  datatype StockOpType = In | Out | Adjust

  // ---------------------------------------------------------------------------
  // Orders.

  datatype Order = Order(
    id: Id,
    orderNo: string,
    customerId: Option<Id>,
    customerName: string,
    contactPerson: Option<string>,
    contactPhone: Option<string>,
    contactEmail: Option<string>,
    orderType: string,
    status: OrderStatus,
    priority: string,
    formulaId: Option<Id>,
    formulaVersion: Option<string>,
    quantity: int,
    unit: string,
    deliveryDate: Option<Time>,
    totalAmount: Option<real>,
    remarks: Option<string>,
    createdBy: string,
    creatorCode: Option<string>,
    shippingNo: Option<string>,
    shippingCompany: Option<string>,
    shippingDate: Option<Time>,
    cancelReason: Option<string>,
    createdAt: Time,
    updatedAt: Option<Time>)

  /** The insert shape: columns with a database default may be omitted. */
  datatype OrderDraft = OrderDraft(
    orderNo: string,
    customerId: Option<Id>,
    customerName: string,
    contactPerson: Option<string>,
    contactPhone: Option<string>,
    contactEmail: Option<string>,
    orderType: Option<string>,
    status: Option<OrderStatus>,
    priority: Option<string>,
    formulaId: Option<Id>,
    formulaVersion: Option<string>,
    quantity: int,
    unit: string,
    deliveryDate: Option<Time>,
    totalAmount: Option<real>,
    remarks: Option<string>,
    createdBy: string,
    creatorCode: Option<string>)

  const DefaultOrderType: string := "production"
  const DefaultPriority: string := "medium"

  /** The row the database stores for an insert: defaults filled in, generated id and creation time. */
  function NewOrder(d: OrderDraft, id: Id, now: Time): (o: Order)
    ensures o.id == id && o.orderNo == d.orderNo && o.createdBy == d.createdBy
    ensures o.status == d.status.GetOr(Pending)
    ensures o.priority == d.priority.GetOr(DefaultPriority)
    ensures o.orderType == d.orderType.GetOr(DefaultOrderType)
    ensures o.formulaId == d.formulaId && o.quantity == d.quantity && o.creatorCode == d.creatorCode
    ensures o.shippingDate.None? && o.updatedAt.None?
  {
    Order(id, d.orderNo, d.customerId, d.customerName, d.contactPerson, d.contactPhone,
          d.contactEmail, d.orderType.GetOr(DefaultOrderType), d.status.GetOr(Pending),
          d.priority.GetOr(DefaultPriority), d.formulaId, d.formulaVersion, d.quantity, d.unit,
          d.deliveryDate, d.totalAmount, d.remarks, d.createdBy, d.creatorCode,
          None, None, None, None, now, None)
  }

  /**
   * The update shape: every column optional. `None` leaves the column alone; for a nullable column
   * `Some(None)` writes null.
   */
  datatype OrderPatch = OrderPatch(
    status: Option<OrderStatus>,
    priority: Option<string>,
    formulaId: Option<Option<Id>>,
    formulaVersion: Option<Option<string>>,
    quantity: Option<int>,
    deliveryDate: Option<Option<Time>>,
    totalAmount: Option<Option<real>>,
    remarks: Option<Option<string>>,
    shippingNo: Option<Option<string>>,
    shippingCompany: Option<Option<string>>,
    shippingDate: Option<Option<Time>>,
    cancelReason: Option<Option<string>>)

  const NoOrderChange: OrderPatch :=
    OrderPatch(None, None, None, None, None, None, None, None, None, None, None, None)

  function StatusPatch(s: OrderStatus): OrderPatch {
    NoOrderChange.(status := Some(s))
  }

  function ShippingDatePatch(t: Time): OrderPatch {
    NoOrderChange.(shippingDate := Some(Some(t)))
  }

  /** `updateOrder`: the supplied columns plus `updatedAt` change, nothing else. */
  function ApplyOrderPatch(o: Order, p: OrderPatch, now: Time): (r: Order)
    ensures Patched(p.status, o.status, r.status) && Patched(p.priority, o.priority, r.priority)
    ensures Patched(p.formulaId, o.formulaId, r.formulaId)
    ensures Patched(p.formulaVersion, o.formulaVersion, r.formulaVersion)
    ensures Patched(p.quantity, o.quantity, r.quantity)
    ensures Patched(p.deliveryDate, o.deliveryDate, r.deliveryDate)
    ensures Patched(p.totalAmount, o.totalAmount, r.totalAmount)
    ensures Patched(p.remarks, o.remarks, r.remarks)
    ensures Patched(p.shippingNo, o.shippingNo, r.shippingNo)
    ensures Patched(p.shippingCompany, o.shippingCompany, r.shippingCompany)
    ensures Patched(p.shippingDate, o.shippingDate, r.shippingDate)
    ensures Patched(p.cancelReason, o.cancelReason, r.cancelReason)
    ensures r.updatedAt == Some(now)
    // Every column outside the patch shape keeps its value.
    ensures r == o.(status := r.status, priority := r.priority, formulaId := r.formulaId,
                    formulaVersion := r.formulaVersion, quantity := r.quantity,
                    deliveryDate := r.deliveryDate, totalAmount := r.totalAmount, remarks := r.remarks,
                    shippingNo := r.shippingNo, shippingCompany := r.shippingCompany,
                    shippingDate := r.shippingDate, cancelReason := r.cancelReason,
                    updatedAt := r.updatedAt)
  {
    o.(status := Patch(p.status, o.status),
       priority := Patch(p.priority, o.priority),
       formulaId := Patch(p.formulaId, o.formulaId),
       formulaVersion := Patch(p.formulaVersion, o.formulaVersion),
       quantity := Patch(p.quantity, o.quantity),
       deliveryDate := Patch(p.deliveryDate, o.deliveryDate),
       totalAmount := Patch(p.totalAmount, o.totalAmount),
       remarks := Patch(p.remarks, o.remarks),
       shippingNo := Patch(p.shippingNo, o.shippingNo),
       shippingCompany := Patch(p.shippingCompany, o.shippingCompany),
       shippingDate := Patch(p.shippingDate, o.shippingDate),
       cancelReason := Patch(p.cancelReason, o.cancelReason),
       updatedAt := Some(now))
  }

  /** An empty patch only touches `updatedAt`, and applying a patch twice is the same as once. */
  lemma OrderPatchLaws(o: Order, p: OrderPatch, now: Time)
    ensures ApplyOrderPatch(o, NoOrderChange, now) == o.(updatedAt := Some(now))
    ensures ApplyOrderPatch(ApplyOrderPatch(o, p, now), p, now) == ApplyOrderPatch(o, p, now)
  {
  }

  // ---------------------------------------------------------------------------
  // Formulas and their bill of materials.

  datatype Formula = Formula(
    id: Id,
    code: string,
    name: string,
    version: string,
    description: Option<string>,
    category: Option<string>,
    isPublished: bool,
    createdBy: string,
    createdAt: Time,
    updatedAt: Option<Time>)

  /** One line of a formula's bill of materials; `requiredQuantity` is per unit of product. */
  datatype FormulaMaterial = FormulaMaterial(
    id: Id,
    formulaId: Id,
    materialId: Id,
    materialCode: string,
    ratio: real,
    requiredQuantity: Option<real>)

  /** `Number(fm.requiredQuantity)`: a null quantity counts as zero. */
  function PerUnit(fm: FormulaMaterial): (q: real)
    ensures fm.requiredQuantity.None? ==> q == 0.0
    ensures fm.requiredQuantity.Some? ==> q == fm.requiredQuantity.value
  {
    fm.requiredQuantity.GetOr(0.0)
  }

  // ---------------------------------------------------------------------------
  // Materials and the stock ledger.

  datatype Material = Material(
    id: Id,
    code: string,
    name: Option<string>,
    category: string,
    specification: Option<string>,
    unit: string,
    currentStock: real,
    minStock: real,
    maxStock: Option<real>,
    supplierId: Option<Id>,
    supplierName: Option<string>,
    batchNo: Option<string>,
    productionDate: Option<Time>,
    expiryDate: Option<Time>,
    status: MaterialStatus,
    createdBy: string,
    createdAt: Time,
    updatedAt: Option<Time>)

  datatype MaterialDraft = MaterialDraft(
    code: string,
    name: Option<string>,
    category: string,
    specification: Option<string>,
    unit: string,
    currentStock: Option<real>,
    minStock: Option<real>,
    maxStock: Option<real>,
    supplierId: Option<Id>,
    supplierName: Option<string>,
    batchNo: Option<string>,
    productionDate: Option<Time>,
    expiryDate: Option<Time>,
    status: Option<MaterialStatus>,
    createdBy: string)

  function NewMaterial(d: MaterialDraft, id: Id, now: Time): (m: Material)
    ensures m.id == id && m.code == d.code
    ensures m.currentStock == d.currentStock.GetOr(0.0)
    ensures m.minStock == d.minStock.GetOr(0.0)
    ensures m.status == d.status.GetOr(Normal)
    ensures m.updatedAt.None?
  {
    Material(id, d.code, d.name, d.category, d.specification, d.unit,
             d.currentStock.GetOr(0.0), d.minStock.GetOr(0.0), d.maxStock, d.supplierId,
             d.supplierName, d.batchNo, d.productionDate, d.expiryDate, d.status.GetOr(Normal),
             d.createdBy, now, None)
  }

  datatype MaterialPatch = MaterialPatch(
    name: Option<Option<string>>,
    specification: Option<Option<string>>,
    currentStock: Option<real>,
    minStock: Option<real>,
    maxStock: Option<Option<real>>,
    supplierId: Option<Option<Id>>,
    supplierName: Option<Option<string>>,
    batchNo: Option<Option<string>>,
    productionDate: Option<Option<Time>>,
    expiryDate: Option<Option<Time>>,
    status: Option<MaterialStatus>)

  const NoMaterialChange: MaterialPatch :=
    MaterialPatch(None, None, None, None, None, None, None, None, None, None, None)

  /** `updateMaterial`: the supplied columns plus `updatedAt` change; `code` and `category` never do. */
  function ApplyMaterialPatch(m: Material, p: MaterialPatch, now: Time): (r: Material)
    ensures Patched(p.name, m.name, r.name) && Patched(p.specification, m.specification, r.specification)
    ensures Patched(p.currentStock, m.currentStock, r.currentStock)
    ensures Patched(p.minStock, m.minStock, r.minStock) && Patched(p.maxStock, m.maxStock, r.maxStock)
    ensures Patched(p.supplierId, m.supplierId, r.supplierId)
    ensures Patched(p.supplierName, m.supplierName, r.supplierName)
    ensures Patched(p.batchNo, m.batchNo, r.batchNo)
    ensures Patched(p.productionDate, m.productionDate, r.productionDate)
    ensures Patched(p.expiryDate, m.expiryDate, r.expiryDate)
    ensures Patched(p.status, m.status, r.status)
    ensures r.updatedAt == Some(now)
    // Every column outside the patch shape keeps its value.
    ensures r == m.(name := r.name, specification := r.specification, currentStock := r.currentStock,
                    minStock := r.minStock, maxStock := r.maxStock, supplierId := r.supplierId,
                    supplierName := r.supplierName, batchNo := r.batchNo,
                    productionDate := r.productionDate, expiryDate := r.expiryDate,
                    status := r.status, updatedAt := r.updatedAt)
  {
    m.(name := Patch(p.name, m.name),
       specification := Patch(p.specification, m.specification),
       currentStock := Patch(p.currentStock, m.currentStock),
       minStock := Patch(p.minStock, m.minStock),
       maxStock := Patch(p.maxStock, m.maxStock),
       supplierId := Patch(p.supplierId, m.supplierId),
       supplierName := Patch(p.supplierName, m.supplierName),
       batchNo := Patch(p.batchNo, m.batchNo),
       productionDate := Patch(p.productionDate, m.productionDate),
       expiryDate := Patch(p.expiryDate, m.expiryDate),
       status := Patch(p.status, m.status),
       updatedAt := Some(now))
  }

  lemma MaterialPatchLaws(m: Material, p: MaterialPatch, now: Time)
    ensures ApplyMaterialPatch(m, NoMaterialChange, now) == m.(updatedAt := Some(now))
    ensures ApplyMaterialPatch(ApplyMaterialPatch(m, p, now), p, now) == ApplyMaterialPatch(m, p, now)
  {
  }

  /** One immutable ledger row: a stock change with its before and after snapshot. */
  datatype StockOperation = StockOperation(
    materialId: Id,
    materialName: string,
    materialCode: string,
    opType: StockOpType,
    quantity: real,
    beforeStock: real,
    afterStock: real,
    batchNo: Option<string>,
    reason: string,
    referenceNo: Option<string>,
    approvedBy: string,
    createdBy: string,
    createdAt: Time)

  // ---------------------------------------------------------------------------
  // Test records.

  datatype TestRecord = TestRecord(
    id: Id,
    testNo: string,
    formulaId: Id,
    formulaName: string,
    formulaVersion: Option<string>,
    orderId: Option<Id>,
    orderNo: Option<string>,
    testType: string,
    status: TestStatus,
    testStandard: Option<string>,
    tester: string,
    startDate: Option<Time>,
    endDate: Option<Time>,
    results: Option<string>,
    conclusion: Option<string>,
    attachments: Option<string>,
    createdBy: string,
    createdAt: Time,
    updatedAt: Option<Time>)

  /** The insert shape: `formulaId` is required, `orderId` is optional, `status` has a default. */
  datatype TestDraft = TestDraft(
    testNo: string,
    formulaId: Id,
    formulaName: string,
    formulaVersion: Option<string>,
    orderId: Option<Id>,
    orderNo: Option<string>,
    testType: string,
    status: Option<TestStatus>,
    testStandard: Option<string>,
    tester: string,
    startDate: Option<Time>,
    endDate: Option<Time>,
    results: Option<string>,
    conclusion: Option<string>,
    attachments: Option<string>,
    createdBy: string)

  function NewTestRecord(d: TestDraft, id: Id, now: Time): (t: TestRecord)
    ensures t.id == id && t.testNo == d.testNo && t.formulaId == d.formulaId
    ensures t.orderId == d.orderId && t.orderNo == d.orderNo && t.testType == d.testType
    ensures t.status == d.status.GetOr(TestPending)
    ensures t.updatedAt.None?
  {
    TestRecord(id, d.testNo, d.formulaId, d.formulaName, d.formulaVersion, d.orderId, d.orderNo,
               d.testType, d.status.GetOr(TestPending), d.testStandard, d.tester, d.startDate,
               d.endDate, d.results, d.conclusion, d.attachments, d.createdBy, now, None)
  }

  datatype TestPatch = TestPatch(
    status: Option<TestStatus>,
    testStandard: Option<Option<string>>,
    tester: Option<string>,
    startDate: Option<Option<Time>>,
    endDate: Option<Option<Time>>,
    results: Option<Option<string>>,
    conclusion: Option<Option<string>>,
    attachments: Option<Option<string>>)

  const NoTestChange: TestPatch := TestPatch(None, None, None, None, None, None, None, None)

  /** `updateTestRecord`: the supplied columns plus `updatedAt` change; the links never do. */
  function ApplyTestPatch(t: TestRecord, p: TestPatch, now: Time): (r: TestRecord)
    ensures Patched(p.status, t.status, r.status) && Patched(p.testStandard, t.testStandard, r.testStandard)
    ensures Patched(p.tester, t.tester, r.tester) && Patched(p.startDate, t.startDate, r.startDate)
    ensures Patched(p.endDate, t.endDate, r.endDate) && Patched(p.results, t.results, r.results)
    ensures Patched(p.conclusion, t.conclusion, r.conclusion)
    ensures Patched(p.attachments, t.attachments, r.attachments)
    ensures r.updatedAt == Some(now)
    // Every column outside the patch shape keeps its value: the id, the number and the links.
    ensures r == t.(status := r.status, testStandard := r.testStandard, tester := r.tester,
                    startDate := r.startDate, endDate := r.endDate, results := r.results,
                    conclusion := r.conclusion, attachments := r.attachments, updatedAt := r.updatedAt)
  {
    t.(status := Patch(p.status, t.status),
       testStandard := Patch(p.testStandard, t.testStandard),
       tester := Patch(p.tester, t.tester),
       startDate := Patch(p.startDate, t.startDate),
       endDate := Patch(p.endDate, t.endDate),
       results := Patch(p.results, t.results),
       conclusion := Patch(p.conclusion, t.conclusion),
       attachments := Patch(p.attachments, t.attachments),
       updatedAt := Some(now))
  }

  lemma TestPatchLaws(t: TestRecord, p: TestPatch, now: Time)
    ensures ApplyTestPatch(t, NoTestChange, now) == t.(updatedAt := Some(now))
    ensures ApplyTestPatch(ApplyTestPatch(t, p, now), p, now) == ApplyTestPatch(t, p, now)
  {
  }

  // ---------------------------------------------------------------------------
  // Validation. The insert and update schemas are derived from the tables, so `parse` accepts a
  // text column only within its `varchar` length and an integer column only as a 32-bit value;
  // anything else makes it throw before the database is reached.

  /** The error `parse` throws. */
  datatype SchemaError = ValueOutOfRange

  /**
   * A text for a `varchar(n)` column. The schema compares JavaScript's `length`, which counts
   * UTF-16 code units, so a character outside the Basic Multilingual Plane takes two.
   */
  predicate FitsColumn(text: string, n: nat) {
    Utf16Length(text) <= n
  }

  /** A value for a nullable `varchar(n)` column: null or a text that fits. */
  predicate FitsNullable(text: Option<string>, n: nat) {
    text.None? || FitsColumn(text.value, n)
  }

  /** A patch entry for a nullable `varchar(n)` column: omitted, null, or a text that fits. */
  predicate FitsPatch(entry: Option<Option<string>>, n: nat) {
    entry.None? || FitsNullable(entry.value, n)
  }

  /** An `integer` column: a signed 32-bit value. */
  predicate IsInt32(x: int) {
    -0x8000_0000 <= x < 0x8000_0000
  }

  /** `insertOrderSchema.parse` succeeds. */
  predicate ValidOrderDraft(d: OrderDraft) {
    && FitsColumn(d.orderNo, 50) && FitsNullable(d.customerId, 36) && FitsColumn(d.customerName, 100)
    && FitsNullable(d.contactPerson, 50) && FitsNullable(d.contactPhone, 20)
    && FitsNullable(d.contactEmail, 100) && FitsNullable(d.orderType, 20)
    && (d.status.None? || FitsColumn(OrderStatusText(d.status.value), 20))
    && FitsNullable(d.priority, 20) && FitsNullable(d.formulaId, 36) && FitsNullable(d.formulaVersion, 20)
    && IsInt32(d.quantity) && FitsColumn(d.unit, 20) && FitsColumn(d.createdBy, 50)
    && FitsNullable(d.creatorCode, 10)
  }

  /** `updateOrderSchema.parse` succeeds. */
  predicate ValidOrderPatch(p: OrderPatch) {
    && (p.status.None? || FitsColumn(OrderStatusText(p.status.value), 20))
    && FitsNullable(p.priority, 20) && FitsPatch(p.formulaId, 36) && FitsPatch(p.formulaVersion, 20)
    && (p.quantity.None? || IsInt32(p.quantity.value))
    && FitsPatch(p.shippingNo, 50) && FitsPatch(p.shippingCompany, 50)
  }

  /** `insertTestRecordSchema.parse` succeeds. */
  predicate ValidTestDraft(d: TestDraft) {
    && FitsColumn(d.testNo, 50) && FitsColumn(d.formulaId, 36) && FitsColumn(d.formulaName, 100)
    && FitsNullable(d.formulaVersion, 20) && FitsNullable(d.orderId, 36) && FitsNullable(d.orderNo, 50)
    && FitsColumn(d.testType, 50) && (d.status.None? || FitsColumn(TestStatusText(d.status.value), 20))
    && FitsNullable(d.testStandard, 50) && FitsColumn(d.tester, 50) && FitsColumn(d.createdBy, 50)
  }

  /** `updateTestRecordSchema.parse` succeeds. */
  predicate ValidTestPatch(p: TestPatch) {
    && (p.status.None? || FitsColumn(TestStatusText(p.status.value), 20))
    && FitsPatch(p.testStandard, 50) && FitsNullable(p.tester, 50)
  }

  /** The known statuses always pass; an escape text passes exactly when it fits the column. */
  lemma StatusPatchValid(st: OrderStatus)
    ensures ValidOrderPatch(StatusPatch(st)) <==> Utf16Length(OrderStatusText(st)) <= 20
    ensures !st.OtherOrderStatus? ==> ValidOrderPatch(StatusPatch(st))
  {
    StatusPatchColumn(st);
    if !st.OtherOrderStatus? {
      KnownStatusFits(st);
    }
  }

  /** A status patch carries one text column, the status. */
  lemma StatusPatchColumn(st: OrderStatus)
    ensures ValidOrderPatch(StatusPatch(st)) == FitsColumn(OrderStatusText(st), 20)
  {
    var p := StatusPatch(st);
    assert p.status == Some(st);
    assert p.priority.None? && p.formulaId.None? && p.formulaVersion.None? && p.quantity.None?;
    assert p.shippingNo.None? && p.shippingCompany.None?;
  }

  /** The four known spellings are at most ten characters, so at most twenty code units. */
  lemma KnownStatusFits(st: OrderStatus)
    requires !st.OtherOrderStatus?
    ensures Utf16Length(OrderStatusText(st)) <= 20
  {
    var t := OrderStatusText(st);
    assert |t| <= 10;
  }

  /**
   * Ten emoji are twenty code units and fit the column; eleven are twenty-two and do not, although
   * they are only eleven characters.
   */
  lemma AstralStatusLength()
    ensures var ten := seq(10, _ => '\U{1F600}');
            ten !in OrderStatusNames && ValidOrderPatch(StatusPatch(OtherOrderStatus(ten)))
    ensures var eleven := seq(11, _ => '\U{1F600}');
            eleven !in OrderStatusNames && !ValidOrderPatch(StatusPatch(OtherOrderStatus(eleven)))
  {
    var ten := seq(10, _ => '\U{1F600}');
    var eleven := seq(11, _ => '\U{1F600}');
    assert ten[0] == '\U{1F600}' && eleven[0] == '\U{1F600}';
    assert ten !in OrderStatusNames && eleven !in OrderStatusNames;
    Utf16LengthAstral(ten);
    Utf16LengthAstral(eleven);
    StatusPatchValid(OtherOrderStatus(ten));
    StatusPatchValid(OtherOrderStatus(eleven));
  }

  // ---------------------------------------------------------------------------
  // Defaults of fresh rows.

  /**
   * Inserting with every defaulted column omitted gives an order `pending` / `medium` /
   * `production`, a material with no stock, minimum 0 and status `normal`, and a `pending` test.
   */
  lemma InsertDefaults(od: OrderDraft, md: MaterialDraft, td: TestDraft, id: Id, now: Time)
    requires od.status.None? && od.priority.None? && od.orderType.None?
    requires md.currentStock.None? && md.minStock.None? && md.status.None?
    requires td.status.None?
    ensures NewOrder(od, id, now).status == Pending
    ensures NewOrder(od, id, now).priority == "medium"
    ensures NewOrder(od, id, now).orderType == "production"
    ensures NewMaterial(md, id, now).currentStock == 0.0 && NewMaterial(md, id, now).minStock == 0.0
    ensures NewMaterial(md, id, now).status == Normal
    ensures NewTestRecord(td, id, now).status == TestPending
  {
  }

  // ---------------------------------------------------------------------------
  // Tables.

  /** No two rows of the table share a key. */
  predicate UniqueKey<T, K(==)>(rows: seq<T>, key: T -> K) {
    forall i, j | 0 <= i < j < |rows| :: key(rows[i]) != key(rows[j])
  }

  /** Under a unique key, a lookup by that key finds the only row carrying it. */
  lemma LookupIsUnique<T, K>(rows: seq<T>, key: T -> K, k: K, i: nat)
    requires UniqueKey(rows, key)
    requires FirstIndex(rows, (r: T) => key(r) == k) == Some(i)
    ensures forall j | 0 <= j < |rows| && key(rows[j]) == k :: j == i
  {
  }

  datatype Store = Store(
    orders: seq<Order>,
    formulas: seq<Formula>,
    formulaMaterials: seq<FormulaMaterial>,
    materials: seq<Material>,
    ledger: seq<StockOperation>,
    tests: seq<TestRecord>)

  function OrderId(o: Order): Id { o.id }
  function OrderNo(o: Order): string { o.orderNo }
  function FormulaId(f: Formula): Id { f.id }
  function FormulaCode(f: Formula): string { f.code }
  function MaterialId(m: Material): Id { m.id }
  function MaterialCode(m: Material): string { m.code }
  function TestId(t: TestRecord): Id { t.id }
  function TestNo(t: TestRecord): string { t.testNo }

  /** The primary keys and the unique columns of the schema. */
  predicate WellFormed(s: Store) {
    && UniqueKey(s.orders, OrderId) && UniqueKey(s.orders, OrderNo)
    && UniqueKey(s.formulas, FormulaId) && UniqueKey(s.formulas, FormulaCode)
    && UniqueKey(s.materials, MaterialId) && UniqueKey(s.materials, MaterialCode)
    && UniqueKey(s.tests, TestId) && UniqueKey(s.tests, TestNo)
  }

  function FindOrder(s: Store, id: Id): (r: Option<nat>)
    ensures r.Some? ==> r.value < |s.orders| && s.orders[r.value].id == id
    ensures r.Some? ==> forall j | 0 <= j < r.value :: s.orders[j].id != id
    ensures r.None? ==> forall j | 0 <= j < |s.orders| :: s.orders[j].id != id
  {
    FirstIndex(s.orders, (o: Order) => o.id == id)
  }

  function FindFormula(s: Store, id: Id): (r: Option<nat>)
    ensures r.Some? ==> r.value < |s.formulas| && s.formulas[r.value].id == id
    ensures r.Some? ==> forall j | 0 <= j < r.value :: s.formulas[j].id != id
    ensures r.None? ==> forall j | 0 <= j < |s.formulas| :: s.formulas[j].id != id
  {
    FirstIndex(s.formulas, (f: Formula) => f.id == id)
  }

  function FindMaterial(s: Store, id: Id): (r: Option<nat>)
    ensures r.Some? ==> r.value < |s.materials| && s.materials[r.value].id == id
    ensures r.Some? ==> forall j | 0 <= j < r.value :: s.materials[j].id != id
    ensures r.None? ==> forall j | 0 <= j < |s.materials| :: s.materials[j].id != id
  {
    FirstIndex(s.materials, (m: Material) => m.id == id)
  }

  function FindMaterialByCode(s: Store, code: string): (r: Option<nat>)
    ensures r.Some? ==> r.value < |s.materials| && s.materials[r.value].code == code
    ensures r.Some? ==> forall j | 0 <= j < r.value :: s.materials[j].code != code
    ensures r.None? ==> forall j | 0 <= j < |s.materials| :: s.materials[j].code != code
  {
    FirstIndex(s.materials, (m: Material) => m.code == code)
  }

  function FindTest(s: Store, id: Id): (r: Option<nat>)
    ensures r.Some? ==> r.value < |s.tests| && s.tests[r.value].id == id
    ensures r.Some? ==> forall j | 0 <= j < r.value :: s.tests[j].id != id
    ensures r.None? ==> forall j | 0 <= j < |s.tests| :: s.tests[j].id != id
  {
    FirstIndex(s.tests, (t: TestRecord) => t.id == id)
  }

  /**
   * An insert reads back: after appending a row under an id no row of its table carries, the
   * lookup by that id finds the new row, so the defaults the insert filled in are what is read.
   */
  lemma {:induction false} InsertThenFind(s: Store, od: OrderDraft, md: MaterialDraft, td: TestDraft,
                                          orderId: Id, materialId: Id, testId: Id, now: Time)
    requires FindOrder(s, orderId).None? && FindMaterial(s, materialId).None? && FindTest(s, testId).None?
    ensures var s' := s.(orders := s.orders + [NewOrder(od, orderId, now)]);
      FindOrder(s', orderId) == Some(|s.orders|) && s'.orders[|s.orders|] == NewOrder(od, orderId, now)
    ensures var s' := s.(materials := s.materials + [NewMaterial(md, materialId, now)]);
      FindMaterial(s', materialId) == Some(|s.materials|)
      && s'.materials[|s.materials|] == NewMaterial(md, materialId, now)
    ensures var s' := s.(tests := s.tests + [NewTestRecord(td, testId, now)]);
      FindTest(s', testId) == Some(|s.tests|) && s'.tests[|s.tests|] == NewTestRecord(td, testId, now)
  {
    var so := s.(orders := s.orders + [NewOrder(od, orderId, now)]);
    assert forall j | 0 <= j < |s.orders| :: so.orders[j].id != orderId;
    assert so.orders[|s.orders|].id == orderId;
    var sm := s.(materials := s.materials + [NewMaterial(md, materialId, now)]);
    assert forall j | 0 <= j < |s.materials| :: sm.materials[j].id != materialId;
    assert sm.materials[|s.materials|].id == materialId;
    var st := s.(tests := s.tests + [NewTestRecord(td, testId, now)]);
    assert forall j | 0 <= j < |s.tests| :: st.tests[j].id != testId;
    assert st.tests[|s.tests|].id == testId;
  }

  /** `update orders set ... where id = ?`: every row carrying the id is patched, keys untouched. */
  function UpdateOrderRows(rows: seq<Order>, id: Id, p: OrderPatch, now: Time): (r: seq<Order>)
    ensures |r| == |rows|
    ensures forall j | 0 <= j < |rows| :: r[j].id == rows[j].id && r[j].orderNo == rows[j].orderNo
    ensures forall j | 0 <= j < |rows| && rows[j].id != id :: r[j] == rows[j]
    ensures forall j | 0 <= j < |rows| && rows[j].id == id :: r[j] == ApplyOrderPatch(rows[j], p, now)
  {
    seq(|rows|, j requires 0 <= j < |rows| =>
      if rows[j].id == id then ApplyOrderPatch(rows[j], p, now) else rows[j])
  }

  /** `update test_records set ... where id = ?`. */
  function UpdateTestRows(rows: seq<TestRecord>, id: Id, p: TestPatch, now: Time): (r: seq<TestRecord>)
    ensures |r| == |rows|
    ensures forall j | 0 <= j < |rows| :: r[j].id == rows[j].id && r[j].testNo == rows[j].testNo
    ensures forall j | 0 <= j < |rows| && rows[j].id != id :: r[j] == rows[j]
    ensures forall j | 0 <= j < |rows| && rows[j].id == id :: r[j] == ApplyTestPatch(rows[j], p, now)
  {
    seq(|rows|, j requires 0 <= j < |rows| =>
      if rows[j].id == id then ApplyTestPatch(rows[j], p, now) else rows[j])
  }

  /**
   * `getFormulaMaterials(formulaId)`: the bill-of-materials rows of one formula. The query has no
   * `orderBy`; the model returns them in the order the table holds them.
   */
  function BomOf(s: Store, formulaId: Id): (bom: seq<FormulaMaterial>)
    ensures forall k | 0 <= k < |bom| :: bom[k].formulaId == formulaId && bom[k] in s.formulaMaterials
    ensures forall fm | fm in s.formulaMaterials && fm.formulaId == formulaId :: fm in bom
    ensures SubsequenceOf(bom, s.formulaMaterials)
    ensures forall fm :: multiset(bom)[fm] == if fm.formulaId == formulaId then multiset(s.formulaMaterials)[fm] else 0
  {
    FilterBom(s.formulaMaterials, formulaId)
  }

  /**
   * The rows of one formula, in table order: every matching row as often as it occurs, and no
   * other row.
   */
  function FilterBom(rows: seq<FormulaMaterial>, formulaId: Id): (bom: seq<FormulaMaterial>)
    ensures forall k | 0 <= k < |bom| :: bom[k].formulaId == formulaId && bom[k] in rows
    ensures forall fm | fm in rows && fm.formulaId == formulaId :: fm in bom
    ensures SubsequenceOf(bom, rows)
    ensures forall fm :: multiset(bom)[fm] == if fm.formulaId == formulaId then multiset(rows)[fm] else 0
    decreases |rows|
  {
    if |rows| == 0 then []
    else
      var rest := FilterBom(rows[1..], formulaId);
      FilterBomStep(rows, formulaId, rest);
      if rows[0].formulaId == formulaId then [rows[0]] + rest else rest
  }

  /** One step of the filter: keeping or dropping the head extends the filter of the tail. */
  lemma FilterBomStep(rows: seq<FormulaMaterial>, formulaId: Id, rest: seq<FormulaMaterial>)
    requires |rows| > 0
    requires forall k | 0 <= k < |rest| :: rest[k].formulaId == formulaId && rest[k] in rows[1..]
    requires forall fm | fm in rows[1..] && fm.formulaId == formulaId :: fm in rest
    requires SubsequenceOf(rest, rows[1..])
    requires forall fm :: multiset(rest)[fm] == if fm.formulaId == formulaId then multiset(rows[1..])[fm] else 0
    ensures var bom := if rows[0].formulaId == formulaId then [rows[0]] + rest else rest;
      && (forall k | 0 <= k < |bom| :: bom[k].formulaId == formulaId && bom[k] in rows)
      && (forall fm | fm in rows && fm.formulaId == formulaId :: fm in bom)
      && SubsequenceOf(bom, rows)
      && (forall fm :: multiset(bom)[fm] == if fm.formulaId == formulaId then multiset(rows)[fm] else 0)
  {
    assert rows == [rows[0]] + rows[1..];
    if rows[0].formulaId == formulaId {
      assert ([rows[0]] + rest)[1..] == rest;
    }
  }

  /** Under unique ids, looking a material up by its own id finds its own row. */
  lemma MaterialIdLookup(s: Store, i: nat)
    requires i < |s.materials|
    ensures WellFormed(s) ==> FindMaterial(s, s.materials[i].id) == Some(i)
  {
    if WellFormed(s) {
      var k := FindMaterial(s, s.materials[i].id).value;
      assert MaterialId(s.materials[k]) == MaterialId(s.materials[i]);
    }
  }

  /** Under unique codes, a by-code lookup returns the one material with that code. */
  lemma MaterialCodeLookupUnique(s: Store, code: string)
    requires WellFormed(s)
    requires FindMaterialByCode(s, code).Some?
    ensures forall j | 0 <= j < |s.materials| && s.materials[j].code == code
      :: j == FindMaterialByCode(s, code).value
  {
  }
}

=== FILE: sequences.dfy ===
/**
 * Order-preserving selection from a sequence: the relation between a loop's input and the part of
 * it the loop kept (the filter of a query, the lines of a batch that went through).
 */
module Sequences {

  /** `a` can be obtained from `b` by deleting elements. */
  predicate SubsequenceOf<T(==)>(a: seq<T>, b: seq<T>)
    decreases |b|
  {
    if |a| == 0 then true
    else if |b| == 0 then false
    else if a[0] == b[0] then SubsequenceOf(a[1..], b[1..])
    else SubsequenceOf(a, b[1..])
  }

  lemma {:induction false} SubsequenceDropHead<T>(a: seq<T>, b: seq<T>)
    requires |a| > 0 && SubsequenceOf(a, b)
    ensures SubsequenceOf(a[1..], b)
    decreases |b|, |a|
  {
    if a[0] != b[0] {
      SubsequenceDropHead(a, b[1..]);
      SubsequenceSkip(a[1..], b);
    } else {
      SubsequenceSkip(a[1..], b);
    }
  }

  /** A subsequence of the tail is a subsequence of the whole. */
  lemma {:induction false} SubsequenceSkip<T>(a: seq<T>, b: seq<T>)
    requires |b| > 0 && SubsequenceOf(a, b[1..])
    ensures SubsequenceOf(a, b)
    decreases |b|, |a|
  {
    if |a| > 0 && a[0] == b[0] {
      SubsequenceDropHead(a, b[1..]);
    }
  }

  /** One loop step: keeping the head or not, in front of what the rest of the loop kept. */
  lemma SubsequenceCons<T>(kept: seq<T>, rest: seq<T>, b: seq<T>)
    requires |b| > 0 && SubsequenceOf(rest, b[1..])
    requires kept == [] || kept == [b[0]]
    ensures SubsequenceOf(kept + rest, b)
  {
    if kept == [] {
      assert kept + rest == rest;
      SubsequenceSkip(rest, b);
    } else {
      assert (kept + rest)[1..] == rest;
    }
  }
}

=== FILE: shipping.dfy ===
/**
 * Courier lookups: the table of supported shipping companies with their tracking-page URL
 * templates, the URL for a tracking number, the display name of a company code, the basic
 * tracking-number format check and the guess of a company from a number's shape.
 */
module Shipping {
  import opened Wrappers
  import opened Text

  /** The placeholder every URL template carries. */
  const Placeholder: string := "{trackingNumber}"

  datatype ShippingCompany = ShippingCompany(code: string, name: string, queryUrl: string)

  /** A company whose template is its tracking-page address with the placeholder appended. */
  function Company(code: string, name: string, page: string): ShippingCompany {
    ShippingCompany(code, name, page + Placeholder)
  }

  /*
   * Each page address is written as a few short literals joined by `+`; the joined value is the
   * address the source's table holds. The split is for the proofs only: showing that a long
   * literal has no `{` costs the verifier one step per character at once, while short pieces are
   * checked one at a time. `PagesBraceFree` collects the result, proved a few pages at a time.
   */
  const SfPage: string :=
    "https://" + "www.sf-express.com/" + "sf-service-owf-web-main/" + "dist/index.html#/search/" + "result?keyword="
  const ZtoPage: string := "https://www.zto.com/" + "ztoQuery/html/" + "query.html?keyword="
  const YtoPage: string := "https://www.yto.net.cn/" + "query/index/index.html?" + "keyword="
  const StoPage: string := "https://www.sto.cn/" + "query/index.html?" + "keyword="
  const YdPage: string := "https://www.yundaex.com/" + "kuaidi/kuaidi.html?" + "keyword="
  const JdPage: string := "https://www.jdl.com/" + "query/index.html?" + "keyword="
  const EmsPage: string := "https://www.ems.com.cn/" + "queryList?keyword="
  const DblPage: string := "https://www.deppon.com/" + "query/index.html?" + "keyword="
  const HtkyPage: string := "https://www.800best.com/" + "query/index.html?" + "keyword="
  const TntPage: string := "https://www.tnt.com/" + "express/zh_cn/" + "tracking.html?keyword="
  const DhlPage: string :=
    "https://www.dhl.com/" + "cn-zh/home/tracking/" + "tracking-parcel.html?" + "submit=1&tracking-id="
  const FedexPage: string := "https://www.fedex.com/" + "zh-cn/tracking.html?" + "trcknum="
  const UpsPage: string := "https://www.ups.com/" + "track?loc=zh_CN&" + "tracknum="
  const UniversalPage: string := "https://" + "www.kuaidi100.com/?" + "keyword="

  /** `SHIPPING_COMPANIES`, in table order. */
  const ShippingCompanies: seq<ShippingCompany> := [
    Company("SF", "顺丰速运", SfPage),
    Company("ZTO", "中通快递", ZtoPage),
    Company("YTO", "圆通速递", YtoPage),
    Company("STO", "申通快递", StoPage),
    Company("YD", "韵达快递", YdPage),
    Company("JD", "京东物流", JdPage),
    Company("EMS", "中国邮政", EmsPage),
    Company("DBL", "德邦快递", DblPage),
    Company("HTKY", "百世快递", HtkyPage),
    Company("TNT", "TNT快递", TntPage),
    Company("DHL", "DHL快递", DhlPage),
    Company("FEDEX", "联邦快递", FedexPage),
    Company("UPS", "UPS快递", UpsPage)
  ]

  /** `UNIVERSAL_QUERY_URL`. */
  const UniversalQueryUrl: string := UniversalPage + Placeholder

  // ---------------------------------------------------------------------------
  // String replacement.

  predicate OccursAt(s: string, pat: string, i: nat) {
    i + |pat| <= |s| && s[i..i + |pat|] == pat
  }

  /** The first position where `pat` occurs in `s`. */
  function IndexOf(s: string, pat: string, from: nat): (r: Option<nat>)
    requires from <= |s|
    ensures r.Some? ==> from <= r.value && OccursAt(s, pat, r.value)
    ensures r.Some? ==> forall i | from <= i < r.value :: !OccursAt(s, pat, i)
    ensures r.None? ==> forall i | from <= i <= |s| :: !OccursAt(s, pat, i)
    decreases |s| - from
  {
    if OccursAt(s, pat, from) then Some(from)
    else if from == |s| then None
    else IndexOf(s, pat, from + 1)
  }

  /**
   * The replacement text `String.prototype.replace` inserts for a string pattern, following the
   * GetSubstitution operation of the ECMAScript language specification with no capture groups:
   * `$$` is one `$`, `$&` the matched text, `` $` `` the text before the match and `$'` the text after
   * it. Any other `$` (before a digit, before `<`, before any other character or at the end) is
   * kept literally.
   */
  function Substitute(rep: string, matched: string, before: string, after: string): (r: string)
    ensures '$' !in rep ==> r == rep
    decreases |rep|
  {
    if |rep| == 0 then ""
    else if rep[0] == '$' && |rep| >= 2 && rep[1] in "$&`'" then
      var piece := match rep[1]
        case '$' => "$"
        case '&' => matched
        case '`' => before
        case _ => after;
      piece + Substitute(rep[2..], matched, before, after)
    else
      var rest := Substitute(rep[1..], matched, before, after);
      assert '$' !in rep ==> '$' !in rep[1..] by {
        if '$' in rep[1..] { var k :| 0 <= k < |rep[1..]| && rep[1..][k] == '$'; assert rep[k + 1] == '$'; }
      }
      [rep[0]] + rest
  }

  /** The four patterns, and a `$` that starts none of them. */
  lemma SubstituteExamples(matched: string, before: string, after: string)
    ensures Substitute("$$", matched, before, after) == "$"
    ensures Substitute("$&", matched, before, after) == matched
    ensures Substitute("$`", matched, before, after) == before
    ensures Substitute("$'", matched, before, after) == after
    ensures Substitute("$1", matched, before, after) == "$1"
    ensures Substitute("a$", matched, before, after) == "a$"
  {
    assert "$$"[2..] == [] && "$&"[2..] == [] && "$`"[2..] == [] && "$'"[2..] == [];
    assert "$1"[1..] == "1" && "1"[1..] == [];
    assert "a$"[1..] == "$" && "$"[1..] == [];
  }

  /**
   * `s.replace(pat, rep)` with a string pattern: only the first occurrence is replaced, by `rep`
   * with its `$` patterns substituted.
   */
  function ReplaceFirst(s: string, pat: string, rep: string): (r: string)
    ensures IndexOf(s, pat, 0).None? ==> r == s
    ensures IndexOf(s, pat, 0).Some? ==>
      var i := IndexOf(s, pat, 0).value;
      var sub := Substitute(rep, pat, s[..i], s[i + |pat|..]);
      |r| == |s| - |pat| + |sub| &&
      r[..i] == s[..i] && r[i..i + |sub|] == sub && r[i + |sub|..] == s[i + |pat|..]
    ensures IndexOf(s, pat, 0).Some? && '$' !in rep ==>
      var i := IndexOf(s, pat, 0).value;
      r[..i] == s[..i] && r[i..i + |rep|] == rep && r[i + |rep|..] == s[i + |pat|..]
  {
    match IndexOf(s, pat, 0)
    case None => s
    case Some(i) =>
      var sub := Substitute(rep, pat, s[..i], s[i + |pat|..]);
      var r := s[..i] + sub + s[i + |pat|..];
      assert r[..i] == s[..i] && r[i..i + |sub|] == sub && r[i + |sub|..] == s[i + |pat|..];
      r
  }

  predicate NoBrace(s: string) {
    '{' !in s
  }

  /** A template: a brace-free page address followed by the one placeholder. */
  predicate IsTemplate(url: string) {
    |url| >= |Placeholder| && url[|url| - |Placeholder|..] == Placeholder
    && NoBrace(url[..|url| - |Placeholder|])
  }

  /**
   * Filling a template replaces its placeholder by the substituted tracking number; a number
   * without `$` goes in verbatim.
   */
  lemma FillTemplate(page: string, t: string)
    requires NoBrace(page)
    ensures ReplaceFirst(page + Placeholder, Placeholder, t) == page + Substitute(t, Placeholder, page, "")
    ensures '$' !in t ==> ReplaceFirst(page + Placeholder, Placeholder, t) == page + t
  {
    var s := page + Placeholder;
    assert OccursAt(s, Placeholder, |page|);
    forall i | 0 <= i < |page| ensures !OccursAt(s, Placeholder, i) {
      assert s[i] == page[i];
      if i + |Placeholder| <= |s| {
        assert s[i..i + |Placeholder|][0] == s[i] != Placeholder[0];
      }
    }
    assert IndexOf(s, Placeholder, 0) == Some(|page|);
    assert s[..|page|] == page && s[|page| + |Placeholder|..] == "";
  }

  /** A brace-free string never contains the placeholder. */
  lemma NoPlaceholderInBraceFree(s: string, i: nat)
    requires NoBrace(s)
    ensures !OccursAt(s, Placeholder, i)
  {
    if i + |Placeholder| <= |s| {
      assert s[i] in s;
      assert s[i..i + |Placeholder|][0] == s[i] != Placeholder[0];
    }
  }

  // ---------------------------------------------------------------------------
  // The table.

  /** `SHIPPING_COMPANIES.find(c => c.code === code)`, as a position. */
  function FindCompany(cs: seq<ShippingCompany>, code: string): (r: Option<nat>)
    ensures r.Some? ==> r.value < |cs| && cs[r.value].code == code
    ensures r.Some? ==> forall k | 0 <= k < r.value :: cs[k].code != code
    ensures r.None? ==> forall k | 0 <= k < |cs| :: cs[k].code != code
  {
    FirstIndex(cs, (c: ShippingCompany) => c.code == code)
  }

  predicate DistinctCodes(cs: seq<ShippingCompany>) {
    forall i, j | 0 <= i < j < |cs| :: cs[i].code != cs[j].code
  }

  lemma SfPageBraceFree()
    ensures NoBrace(SfPage)
  {
  }

  lemma PagesBraceFree1()
    ensures NoBrace(ZtoPage) && NoBrace(YtoPage)
  {
  }

  lemma PagesBraceFree2()
    ensures NoBrace(StoPage) && NoBrace(YdPage) && NoBrace(JdPage)
  {
  }

  lemma PagesBraceFree3()
    ensures NoBrace(EmsPage) && NoBrace(DblPage) && NoBrace(HtkyPage)
  {
  }

  lemma PagesBraceFree4()
    ensures NoBrace(TntPage) && NoBrace(FedexPage)
  {
  }

  lemma DhlPageBraceFree()
    ensures NoBrace(DhlPage)
  {
  }

  lemma PagesBraceFree5()
    ensures NoBrace(UpsPage) && NoBrace(UniversalPage)
  {
  }

  /** Every page address is brace-free (in groups, so that each proof stays small). */
  lemma PagesBraceFree()
    ensures NoBrace(SfPage) && NoBrace(ZtoPage) && NoBrace(YtoPage) && NoBrace(StoPage)
    ensures NoBrace(YdPage) && NoBrace(JdPage) && NoBrace(EmsPage) && NoBrace(DblPage)
    ensures NoBrace(HtkyPage) && NoBrace(TntPage) && NoBrace(DhlPage) && NoBrace(FedexPage)
    ensures NoBrace(UpsPage) && NoBrace(UniversalPage)
  {
    SfPageBraceFree();
    PagesBraceFree1();
    PagesBraceFree2();
    PagesBraceFree3();
    PagesBraceFree4();
    DhlPageBraceFree();
    PagesBraceFree5();
  }

  /** The table's codes are distinct and every URL, the universal one included, is a template. */
  lemma TableFacts()
    ensures DistinctCodes(ShippingCompanies)
    ensures forall k | 0 <= k < |ShippingCompanies| :: IsTemplate(ShippingCompanies[k].queryUrl)
    ensures IsTemplate(UniversalQueryUrl)
  {
    CodesDistinct();
    TableTemplates();
  }

  lemma CodesDistinct()
    ensures DistinctCodes(ShippingCompanies)
  {
  }

  lemma TableTemplates()
    ensures forall k | 0 <= k < |ShippingCompanies| :: IsTemplate(ShippingCompanies[k].queryUrl)
    ensures IsTemplate(UniversalQueryUrl)
  {
    PagesBraceFree();
  }

  /** With distinct codes, a company is found by its own code. */
  lemma FindOwnCode(k: nat)
    requires k < |ShippingCompanies|
    ensures FindCompany(ShippingCompanies, ShippingCompanies[k].code) == Some(k)
  {
    TableFacts();
  }

  /** A template, split into its page and placeholder. */
  lemma TemplateSplit(url: string)
    requires IsTemplate(url)
    ensures url == url[..|url| - |Placeholder|] + Placeholder
  {
  }

  // ---------------------------------------------------------------------------
  // Queries.

  /** The page address of a template. */
  function PageOf(url: string): string
    requires IsTemplate(url)
  {
    url[..|url| - |Placeholder|]
  }

  /**
   * `getShippingQueryUrl(code, t)`: a known code fills that company's template, an unknown one the
   * universal template. Either way the result is the page address followed by the substituted
   * number, which is the number itself when it holds no `$`.
   */
  function GetShippingQueryUrl(code: string, t: string): (r: string)
    ensures FindCompany(ShippingCompanies, code).Some? ==>
      var url := ShippingCompanies[FindCompany(ShippingCompanies, code).value].queryUrl;
      && IsTemplate(url)
      && r == PageOf(url) + Substitute(t, Placeholder, PageOf(url), "")
      && ('$' !in t ==> r == PageOf(url) + t)
    ensures FindCompany(ShippingCompanies, code).None? ==>
      && r == UniversalPage + Substitute(t, Placeholder, UniversalPage, "")
      && ('$' !in t ==> r == UniversalPage + t)
  {
    TableFacts();
    match FindCompany(ShippingCompanies, code)
    case Some(k) =>
      TemplateSplit(ShippingCompanies[k].queryUrl);
      FillTemplate(PageOf(ShippingCompanies[k].queryUrl), t);
      ReplaceFirst(ShippingCompanies[k].queryUrl, Placeholder, t)
    case None =>
      FillTemplate(UniversalPage, t);
      ReplaceFirst(UniversalQueryUrl, Placeholder, t)
  }

  /**
   * For a tracking number without braces and without `$` (every valid number), the URL ends with
   * the number and holds no placeholder anywhere.
   */
  lemma QueryUrlHasNoPlaceholder(code: string, t: string, i: nat)
    requires NoBrace(t) && '$' !in t
    ensures var r := GetShippingQueryUrl(code, t);
            |r| >= |t| && r[|r| - |t|..] == t && !OccursAt(r, Placeholder, i)
  {
    TableFacts();
    PagesBraceFree();
    var r := GetShippingQueryUrl(code, t);
    var page := if FindCompany(ShippingCompanies, code).Some?
                then PageOf(ShippingCompanies[FindCompany(ShippingCompanies, code).value].queryUrl)
                else UniversalPage;
    assert r == page + t;
    assert NoBrace(r);
    NoPlaceholderInBraceFree(r, i);
  }

  /**
   * The `$` condition is needed: the number `$&` is replaced by the matched placeholder itself, so
   * the URL is the template unchanged, placeholder and all.
   */
  lemma DollarNumberKeepsPlaceholder(code: string)
    ensures FindCompany(ShippingCompanies, code).Some? ==>
      GetShippingQueryUrl(code, "$&") == ShippingCompanies[FindCompany(ShippingCompanies, code).value].queryUrl
    ensures FindCompany(ShippingCompanies, code).None? ==> GetShippingQueryUrl(code, "$&") == UniversalQueryUrl
  {
    TableFacts();
    var page := if FindCompany(ShippingCompanies, code).Some?
                then PageOf(ShippingCompanies[FindCompany(ShippingCompanies, code).value].queryUrl)
                else UniversalPage;
    SubstituteExamples(Placeholder, page, "");
    if FindCompany(ShippingCompanies, code).Some? {
      TemplateSplit(ShippingCompanies[FindCompany(ShippingCompanies, code).value].queryUrl);
    }
  }

  /** `getShippingCompanyName`: the company's name, or the code itself when unknown or unnamed. */
  function GetShippingCompanyName(code: string): (r: string)
    ensures FindCompany(ShippingCompanies, code).None? ==> r == code
    ensures FindCompany(ShippingCompanies, code).Some? ==>
      r == ShippingCompanies[FindCompany(ShippingCompanies, code).value].name
  {
    match FindCompany(ShippingCompanies, code)
    case None => code
    case Some(k) => if Present(Some(ShippingCompanies[k].name)) then ShippingCompanies[k].name else code
  }

  /** A known code's name is its own table entry's name. */
  lemma NameOfListedCompany(k: nat)
    requires k < |ShippingCompanies|
    ensures GetShippingCompanyName(ShippingCompanies[k].code) == ShippingCompanies[k].name
  {
    FindOwnCode(k);
  }

  // ---------------------------------------------------------------------------
  // Tracking numbers.

  /** `/^[A-Za-z0-9]{8,20}$/.test(t)`: between 8 and 20 characters, every one an ASCII letter or digit. */
  function IsValidTrackingNumber(t: string): (b: bool)
    ensures b <==> 8 <= |t| <= 20 && forall i | 0 <= i < |t| :: IsAsciiAlnum(t[i])
  {
    8 <= |t| <= 20 && AlnumRun(t)
  }

  /** The character class, matched one character at a time from the left. */
  function AlnumRun(t: string): (b: bool)
    ensures b <==> forall i | 0 <= i < |t| :: IsAsciiAlnum(t[i])
    decreases |t|
  {
    if |t| == 0 then true
    else if !IsAsciiAlnum(t[0]) then false
    else
      var rest := AlnumRun(t[1..]);
      assert forall i | 1 <= i < |t| :: t[i] == t[1..][i - 1];
      rest
  }

  /** A valid tracking number is brace-free, so its query URL carries it verbatim. */
  lemma ValidNumberUrl(code: string, t: string, i: nat)
    requires IsValidTrackingNumber(t)
    ensures var r := GetShippingQueryUrl(code, t);
            |r| >= |t| && r[|r| - |t|..] == t && !OccursAt(r, Placeholder, i)
  {
    assert '$' !in t && NoBrace(t) by {
      forall k | 0 <= k < |t| ensures t[k] != '$' && t[k] != '{' {
        assert IsAsciiAlnum(t[k]);
      }
    }
    QueryUrlHasNoPlaceholder(code, t, i);
  }

  /** `prefix` followed by one or more decimal digits (`/^<prefix>\d+$/`). */
  predicate DigitsAfter(t: string, prefix: string) {
    |t| > |prefix| && t[..|prefix|] == prefix && AllDigits(t[|prefix|..])
  }

  predicate SfShape(t: string) { DigitsAfter(t, "SF") }
  predicate EmsShape(t: string) { |t| >= 1 && t[0] in "ECK" && DigitsAfter(t, [t[0]]) }
  predicate JdShape(t: string) { DigitsAfter(t, "JD") }

  /** `SHIPPING_COMPANIES.find(c => c.code === code) || null`. */
  function CompanyByCode(code: string): Option<ShippingCompany> {
    match FindCompany(ShippingCompanies, code)
    case None => None
    case Some(k) => Some(ShippingCompanies[k])
  }

  /** The three companies a guess can name. */
  lemma KnownCompanies()
    ensures CompanyByCode("SF") == Some(ShippingCompanies[0]) && ShippingCompanies[0].code == "SF"
    ensures CompanyByCode("JD") == Some(ShippingCompanies[5]) && ShippingCompanies[5].code == "JD"
    ensures CompanyByCode("EMS") == Some(ShippingCompanies[6]) && ShippingCompanies[6].code == "EMS"
  {
    FindOwnCode(0);
    FindOwnCode(5);
    FindOwnCode(6);
  }

  /** `guessShippingCompany`: the three patterns tried in order, `None` for anything else. */
  function GuessShippingCompany(t: string): (r: Option<ShippingCompany>)
    ensures r.Some? <==> SfShape(t) || EmsShape(t) || JdShape(t)
    ensures r.Some? ==> r.value in ShippingCompanies
    ensures SfShape(t) ==> r.Some? && r.value.code == "SF"
    ensures EmsShape(t) ==> r.Some? && r.value.code == "EMS"
    ensures JdShape(t) ==> r.Some? && r.value.code == "JD"
  {
    KnownCompanies();
    ShapesDisjoint(t);
    if SfShape(t) then CompanyByCode("SF")
    else if EmsShape(t) then CompanyByCode("EMS")
    else if JdShape(t) then CompanyByCode("JD")
    else None
  }

  /** The three shapes exclude each other, so the order the patterns are tried in does not matter. */
  lemma ShapesDisjoint(t: string)
    ensures !(SfShape(t) && EmsShape(t)) && !(SfShape(t) && JdShape(t)) && !(EmsShape(t) && JdShape(t))
  {
    if SfShape(t) { assert t[..2][0] == 'S' == t[0]; }
    if JdShape(t) { assert t[..2][0] == 'J' == t[0]; }
  }
}

=== FILE: stock_ledger.dfy ===
/**
 * The stock ledger: `MaterialManager.updateStock`, the one operation that changes a material's
 * stock. It reads the material, computes the new stock for an `in`, `out` or `adjust`, refuses an
 * `out` that would go below zero, writes the new stock with a freshly derived status, and appends
 * one row to the ledger. The two writes are sequential state steps here; the system does not make
 * them atomic and the model claims no isolation.
 */
module StockLedger {
  import opened Wrappers
  import opened Schema

  /** The status written with a new stock: out of stock at or below zero, low below the minimum. */
  function StockStatus(stock: real, minStock: real): (st: MaterialStatus)
    ensures st == OutOfStock <==> stock <= 0.0
    ensures st == LowStock <==> 0.0 < stock < minStock
    ensures st == Normal <==> 0.0 < stock && minStock <= stock
    ensures st != Expired
  {
    if stock <= 0.0 then OutOfStock else if stock < minStock then LowStock else Normal
  }

  /** The stock an operation asks for, before the negative-stock check. */
  function AfterStock(op: StockOpType, before: real, quantity: real): real {
    match op
    case In => before + quantity
    case Out => before - quantity
    case Adjust => quantity
  }

  /** A material row whose status agrees with its stock. */
  predicate StatusConsistent(m: Material) {
    m.status == StockStatus(m.currentStock, m.minStock)
  }

  /** The ledger invariant: each row's after-snapshot follows from its type, before-snapshot and quantity. */
  predicate EntryConsistent(e: StockOperation) {
    match e.opType
    case In => e.afterStock == e.beforeStock + e.quantity
    case Out => e.afterStock == e.beforeStock - e.quantity && e.afterStock >= 0.0
    case Adjust => e.afterStock == e.quantity
  }

  predicate LedgerConsistent(ledger: seq<StockOperation>) {
    forall k | 0 <= k < |ledger| :: EntryConsistent(ledger[k])
  }

  /** What `updateStock` returns: the updated row, `null`, or the thrown insufficient-stock error. */
  datatype StockOutcome =
    | Updated(material: Material)
    | MaterialNotFound
    | InsufficientStock(beforeStock: real, quantity: real)

  /** `material.name || material.code`. */
  function DisplayName(m: Material): string {
    if Present(m.name) then m.name.value else m.code
  }

  /** The material row after a successful operation: stock, status and `updatedAt` change. */
  function Restocked(row: Material, after: real, status: MaterialStatus, now: Time): Material {
    row.(currentStock := after, status := status, updatedAt := Some(now))
  }

  function UpdateStock(s: Store, materialId: Id, quantity: real, op: StockOpType, reason: string,
                       referenceNo: Option<string>, approvedBy: string, createdBy: string,
                       now: Time): (r: (StockOutcome, Store))
    // Unknown material: null, nothing written.
    ensures FindMaterial(s, materialId).None? <==> r.0.MaterialNotFound?
    ensures r.0.MaterialNotFound? ==> r.1 == s
    // An `out` below zero throws before either write.
    ensures r.0.InsufficientStock? <==>
      FindMaterial(s, materialId).Some? && op == Out
      && s.materials[FindMaterial(s, materialId).value].currentStock - quantity < 0.0
    ensures r.0.InsufficientStock? ==>
      && r.1 == s
      && r.0.beforeStock == s.materials[FindMaterial(s, materialId).value].currentStock
    // Success.
    ensures r.0.Updated? ==> FindMaterial(s, materialId).Some?
    ensures r.0.Updated? ==>
      var i := FindMaterial(s, materialId).value;
      var m := s.materials[i];
      var after := r.0.material.currentStock;
      && (op == In ==> after == m.currentStock + quantity)
      && (op == Out ==> after == m.currentStock - quantity && after >= 0.0)
      && (op == Adjust ==> after == quantity)
      && r.0.material == m.(currentStock := after, status := StockStatus(after, m.minStock),
                            updatedAt := Some(now))
      && |r.1.materials| == |s.materials| && r.1.materials[i] == r.0.material
      && (forall j | 0 <= j < |s.materials| && s.materials[j].id != materialId
            :: r.1.materials[j] == s.materials[j])
      && r.1.ledger == s.ledger + [StockOperation(materialId, DisplayName(m), m.code, op, quantity,
                                                  m.currentStock, after, None, reason, referenceNo,
                                                  approvedBy, createdBy, now)]
      && EntryConsistent(r.1.ledger[|s.ledger|])
      && r.1 == s.(materials := r.1.materials, ledger := r.1.ledger)
  {
    match FindMaterial(s, materialId)
    case None => (MaterialNotFound, s)
    case Some(i) =>
      var m := s.materials[i];
      var before := m.currentStock;
      var after := AfterStock(op, before, quantity);
      if op == Out && after < 0.0 then
        (InsufficientStock(before, quantity), s)
      else
        var status := StockStatus(after, m.minStock);
        var rows := seq(|s.materials|, j requires 0 <= j < |s.materials| =>
          if s.materials[j].id == materialId then Restocked(s.materials[j], after, status, now)
          else s.materials[j]);
        var entry := StockOperation(materialId, DisplayName(m), m.code, op, quantity, before, after,
                                    None, reason, referenceNo, approvedBy, createdBy, now);
        (Updated(rows[i]), s.(materials := rows, ledger := s.ledger + [entry]))
  }

  // ---------------------------------------------------------------------------
  // Invariants the operation preserves.

  /** Ids and codes are not touched, so the schema's unique columns stay unique. */
  lemma UpdateStockPreservesWellFormed(s: Store, materialId: Id, quantity: real, op: StockOpType,
                                       reason: string, referenceNo: Option<string>,
                                       approvedBy: string, createdBy: string, now: Time)
    requires WellFormed(s)
    ensures WellFormed(UpdateStock(s, materialId, quantity, op, reason, referenceNo, approvedBy,
                                   createdBy, now).1)
  {
    var r := UpdateStock(s, materialId, quantity, op, reason, referenceNo, approvedBy, createdBy, now);
    if r.0.Updated? {
      var ms := r.1.materials;
      assert forall j | 0 <= j < |ms| :: ms[j].id == s.materials[j].id && ms[j].code == s.materials[j].code;
      assert UniqueKey(ms, MaterialId) by {
        forall i, j | 0 <= i < j < |ms| ensures MaterialId(ms[i]) != MaterialId(ms[j]) {
          assert MaterialId(s.materials[i]) != MaterialId(s.materials[j]);
        }
      }
      assert UniqueKey(ms, MaterialCode) by {
        forall i, j | 0 <= i < j < |ms| ensures MaterialCode(ms[i]) != MaterialCode(ms[j]) {
          assert MaterialCode(s.materials[i]) != MaterialCode(s.materials[j]);
        }
      }
    }
  }

  /** Every row the operation appends satisfies the ledger invariant. */
  lemma UpdateStockKeepsLedgerConsistent(s: Store, materialId: Id, quantity: real, op: StockOpType,
                                         reason: string, referenceNo: Option<string>,
                                         approvedBy: string, createdBy: string, now: Time)
    requires LedgerConsistent(s.ledger)
    ensures LedgerConsistent(UpdateStock(s, materialId, quantity, op, reason, referenceNo,
                                         approvedBy, createdBy, now).1.ledger)
  {
  }

  /** The written status always reflects the written stock. */
  lemma UpdateStockStatusConsistent(s: Store, materialId: Id, quantity: real, op: StockOpType,
                                    reason: string, referenceNo: Option<string>,
                                    approvedBy: string, createdBy: string, now: Time)
    ensures var r := UpdateStock(s, materialId, quantity, op, reason, referenceNo, approvedBy,
                                 createdBy, now);
            r.0.Updated? ==> StatusConsistent(r.0.material)
  {
  }

  /** With non-negative stocks and a non-negative quantity, no operation leaves a stock negative. */
  lemma UpdateStockNonNegative(s: Store, materialId: Id, quantity: real, op: StockOpType,
                               reason: string, referenceNo: Option<string>,
                               approvedBy: string, createdBy: string, now: Time)
    requires quantity >= 0.0
    requires forall j | 0 <= j < |s.materials| :: s.materials[j].currentStock >= 0.0
    ensures var r := UpdateStock(s, materialId, quantity, op, reason, referenceNo, approvedBy,
                                 createdBy, now).1;
            forall j | 0 <= j < |r.materials| :: r.materials[j].currentStock >= 0.0
  {
  }

  // ---------------------------------------------------------------------------
  // Stock totals: the ledger accounts for every change of stock.

  function TotalStock(ms: seq<Material>): real
    decreases |ms|
  {
    if |ms| == 0 then 0.0 else TotalStock(ms[..|ms| - 1]) + ms[|ms| - 1].currentStock
  }

  /** Changing one row's stock changes the total by the same amount. */
  lemma {:induction false} TotalStockPointUpdate(ms: seq<Material>, ms': seq<Material>, i: nat)
    requires |ms| == |ms'| && i < |ms|
    requires forall j | 0 <= j < |ms| && j != i :: ms'[j].currentStock == ms[j].currentStock
    ensures TotalStock(ms') == TotalStock(ms) - ms[i].currentStock + ms'[i].currentStock
    decreases |ms|
  {
    var n := |ms|;
    if i == n - 1 {
      TotalStockUnchanged(ms[..n - 1], ms'[..n - 1]);
    } else {
      TotalStockPointUpdate(ms[..n - 1], ms'[..n - 1], i);
    }
  }

  lemma {:induction false} TotalStockUnchanged(ms: seq<Material>, ms': seq<Material>)
    requires |ms| == |ms'|
    requires forall j | 0 <= j < |ms| :: ms'[j].currentStock == ms[j].currentStock
    ensures TotalStock(ms') == TotalStock(ms)
    decreases |ms|
  {
    if |ms| > 0 {
      TotalStockUnchanged(ms[..|ms| - 1], ms'[..|ms| - 1]);
    }
  }

  /**
   * With unique ids, the change in total stock equals the change recorded by the appended ledger
   * row (after minus before); a refused or unknown operation changes neither.
   */
  lemma UpdateStockTotal(s: Store, materialId: Id, quantity: real, op: StockOpType,
                         reason: string, referenceNo: Option<string>,
                         approvedBy: string, createdBy: string, now: Time)
    requires WellFormed(s)
    ensures var r := UpdateStock(s, materialId, quantity, op, reason, referenceNo, approvedBy,
                                 createdBy, now);
            if r.0.Updated? then
              |r.1.ledger| == |s.ledger| + 1
              && TotalStock(r.1.materials) == TotalStock(s.materials)
                   + r.1.ledger[|s.ledger|].afterStock - r.1.ledger[|s.ledger|].beforeStock
            else TotalStock(r.1.materials) == TotalStock(s.materials) && r.1.ledger == s.ledger
  {
    var r := UpdateStock(s, materialId, quantity, op, reason, referenceNo, approvedBy, createdBy, now);
    if r.0.Updated? {
      var i := FindMaterial(s, materialId).value;
      TotalStockPointUpdate(s.materials, r.1.materials, i);
    }
  }

  // ---------------------------------------------------------------------------
  // Worked example: P01 holds 1000 with minimum 200; an `out` of 850 leaves 150, low stock.

  function P01(): Material {
    Material("m-p01", "P01", Some("P01"), "base", None, "kg", 1000.0, 200.0, None, None, None,
             None, None, None, Normal, "admin", 0, None)
  }

  lemma OutOf850Example(s: Store, now: Time)
    requires s.materials == [P01()]
    ensures var r := UpdateStock(s, "m-p01", 850.0, Out, "order deduction", None, "admin",
                                 "admin", now);
            && r.0.Updated? && r.0.material.currentStock == 150.0
            && r.0.material.status == LowStock
            && |r.1.ledger| == |s.ledger| + 1
            && r.1.ledger[|s.ledger|].beforeStock == 1000.0
            && r.1.ledger[|s.ledger|].afterStock == 150.0
  {
    assert FindMaterial(s, "m-p01") == Some(0);
  }
}

=== FILE: test_service.dfy ===
/**
 * The test service: updating a test's status with its one coupling to orders (completing a test
 * completes the order it belongs to when that order is in production), and creating test records
 * for an order, singly or in a batch that skips failures.
 */
module TestService {
  import opened Wrappers
  import opened Text
  import opened Dates
  import opened Schema
  import opened Sequences

  // ---------------------------------------------------------------------------
  // Status update and the order cascade.

  datatype TestStatusResult = TestStatusResult(success: bool, orderUpdated: bool)

  /** The partial update the service writes: the status always, the conclusion only when supplied. */
  function StatusAndConclusion(newStatus: TestStatus, conclusion: Option<string>): TestPatch {
    NoTestChange.(status := Some(newStatus),
                  conclusion := if conclusion.Some? then Some(conclusion) else None)
  }

  /**
   * When the cascade fires: the test moves into `completed` from another status, it is linked to
   * an order, and that order is in production.
   */
  predicate Cascades(s: Store, t: TestRecord, newStatus: TestStatus) {
    && t.status != TestCompleted && newStatus == TestCompleted
    && Present(t.orderId)
    && FindOrder(s, t.orderId.value).Some?
    && s.orders[FindOrder(s, t.orderId.value).value].status == Processing
  }

  /**
   * The status update as intended: the partial update of `{status, conclusion}` through the update
   * schema (which throws for a status text longer than its column), then the order cascade.
   */
  function UpdateTestStatus(s: Store, testId: Id, newStatus: TestStatus, conclusion: Option<string>,
                            now: Time): (r: (Result<TestStatusResult, SchemaError>, Store))
    // Unknown test: failure, nothing written.
    ensures FindTest(s, testId).None? <==> r.0 == Success(TestStatusResult(false, false))
    ensures FindTest(s, testId).None? ==> r.1 == s
    // The thrown validation error: only for an existing test, and before anything is written.
    ensures r.0.Failure? <==> FindTest(s, testId).Some? && Utf16Length(TestStatusText(newStatus)) > 20
    ensures r.0.Failure? ==> r.1 == s
    // Only tests and orders can change, and no row is added or removed.
    ensures r.1 == s.(tests := r.1.tests, orders := r.1.orders)
    ensures |r.1.tests| == |s.tests| && |r.1.orders| == |s.orders|
    ensures r.0.Success? ==> forall j | 0 <= j < |s.tests| ::
      r.1.tests[j] == if s.tests[j].id != testId then s.tests[j]
                      else s.tests[j].(status := newStatus,
                                       conclusion := if conclusion.Some? then conclusion else s.tests[j].conclusion,
                                       updatedAt := Some(now))
    // The cascade.
    ensures r.0 == Success(TestStatusResult(true, true)) <==>
      && FindTest(s, testId).Some? && Utf16Length(TestStatusText(newStatus)) <= 20
      && Cascades(s, s.tests[FindTest(s, testId).value], newStatus)
    ensures r.0 != Success(TestStatusResult(true, true)) ==> r.1.orders == s.orders
    ensures r.0 == Success(TestStatusResult(true, true)) ==>
      var orderId := s.tests[FindTest(s, testId).value].orderId.value;
      forall j | 0 <= j < |s.orders| ::
        r.1.orders[j] == if s.orders[j].id != orderId then s.orders[j]
                         else s.orders[j].(status := Completed, updatedAt := Some(now))
  {
    match FindTest(s, testId)
    case None => (Success(TestStatusResult(false, false)), s)
    case Some(i) =>
      assert s.tests[i].id == testId;
      StatusAndConclusionValid(newStatus, conclusion);
      if !ValidTestPatch(StatusAndConclusion(newStatus, conclusion)) then (Failure(ValueOutOfRange), s)
      else WriteAndCascade(s, testId, i, newStatus, conclusion, now)
  }

  /** The write and the cascade, once the test is found at `i` and the patch passes the schema. */
  function WriteAndCascade(s: Store, testId: Id, i: nat, newStatus: TestStatus, conclusion: Option<string>, now: Time)
    : (r: (Result<TestStatusResult, SchemaError>, Store))
    requires i < |s.tests| && s.tests[i].id == testId
    ensures r.0.Success? && r.0.value.success
    ensures r.1 == s.(tests := r.1.tests, orders := r.1.orders)
    ensures |r.1.tests| == |s.tests| && |r.1.orders| == |s.orders|
    ensures forall j | 0 <= j < |s.tests| ::
      r.1.tests[j] == if s.tests[j].id != testId then s.tests[j]
                      else s.tests[j].(status := newStatus,
                                       conclusion := if conclusion.Some? then conclusion else s.tests[j].conclusion,
                                       updatedAt := Some(now))
    ensures r.0 == Success(TestStatusResult(true, true)) <==> Cascades(s, s.tests[i], newStatus)
    ensures r.0 != Success(TestStatusResult(true, true)) ==> r.1.orders == s.orders
    ensures r.0 == Success(TestStatusResult(true, true)) ==>
      var orderId := s.tests[i].orderId.value;
      forall j | 0 <= j < |s.orders| ::
        r.1.orders[j] == if s.orders[j].id != orderId then s.orders[j]
                         else s.orders[j].(status := Completed, updatedAt := Some(now))
  {
    var t := s.tests[i];
    var s1 := s.(tests := UpdateTestRows(s.tests, testId, StatusAndConclusion(newStatus, conclusion), now));
    if t.status != TestCompleted && newStatus == TestCompleted && Present(t.orderId) then
      match FindOrder(s1, t.orderId.value)
      case Some(k) =>
        if s1.orders[k].status == Processing then
          (Success(TestStatusResult(true, true)),
           s1.(orders := UpdateOrderRows(s1.orders, s1.orders[k].id, StatusPatch(Completed), now)))
        else (Success(TestStatusResult(true, false)), s1)
      case None => (Success(TestStatusResult(true, false)), s1)
    else (Success(TestStatusResult(true, false)), s1)
  }

  /** The status-and-conclusion patch passes the update schema exactly when the status text fits. */
  lemma StatusAndConclusionValid(newStatus: TestStatus, conclusion: Option<string>)
    ensures ValidTestPatch(StatusAndConclusion(newStatus, conclusion)) <==> Utf16Length(TestStatusText(newStatus)) <= 20
  {
    var p := StatusAndConclusion(newStatus, conclusion);
    assert p.status == Some(newStatus) && p.testStandard.None? && p.tester.None?;
  }

  /** Completing the same test again never cascades a second time. */
  lemma CompletionCascadesOnce(s: Store, testId: Id, c1: Option<string>, c2: Option<string>, t1: Time, t2: Time)
    ensures var s1 := UpdateTestStatus(s, testId, TestCompleted, c1, t1).1;
            UpdateTestStatus(s1, testId, TestCompleted, c2, t2).0 != Success(TestStatusResult(true, true))
  {
    var s1 := UpdateTestStatus(s, testId, TestCompleted, c1, t1).1;
    match FindTest(s, testId)
    case None =>
    case Some(i) =>
      FindTestSameIds(s, s1, testId);
      assert s1.tests[i].status == TestCompleted;
      assert !Cascades(s1, s1.tests[i], TestCompleted);
  }

  /** The test lookup reads only the id column. */
  lemma FindTestSameIds(s: Store, s1: Store, id: Id)
    requires |s1.tests| == |s.tests|
    requires forall j | 0 <= j < |s.tests| :: s1.tests[j].id == s.tests[j].id
    ensures FindTest(s1, id) == FindTest(s, id)
  {
    var r, r1 := FindTest(s, id), FindTest(s1, id);
    if r1.Some? {
      assert s.tests[r1.value].id == id;
    }
    if r.Some? {
      assert s1.tests[r.value].id == id;
    }
  }

  /** Any status other than `completed` (a failed test, say) leaves every order as it was. */
  lemma OnlyCompletionTouchesOrders(s: Store, testId: Id, newStatus: TestStatus, conclusion: Option<string>, now: Time)
    requires newStatus != TestCompleted
    ensures UpdateTestStatus(s, testId, newStatus, conclusion, now).1.orders == s.orders
  {
  }

  /**
   * The cascade sets the order's status to `completed` and stamps `updatedAt`; unlike completing
   * an order directly, it leaves the shipping date alone.
   */
  lemma CascadeKeepsShippingDate(s: Store, testId: Id, conclusion: Option<string>, now: Time)
    ensures var s' := UpdateTestStatus(s, testId, TestCompleted, conclusion, now).1;
      forall j | 0 <= j < |s.orders| :: s'.orders[j].shippingDate == s.orders[j].shippingDate
  {
  }

  /**
   * The status update as the service is written: the write goes through a test-manager method that
   * does not exist (the manager only offers `updateTestRecord`), so for an existing test the call
   * throws a `TypeError` before anything is written; only the unknown-test answer gets through.
   */
  datatype CallError = NotAFunction

  function UpdateTestStatusAsWritten(s: Store, testId: Id, newStatus: TestStatus, conclusion: Option<string>,
                                     now: Time): (r: (Result<TestStatusResult, CallError>, Store))
    ensures FindTest(s, testId).None? ==> r.0 == Success(TestStatusResult(false, false))
    ensures FindTest(s, testId).Some? ==> r.0 == Failure(NotAFunction)
    ensures r.1 == s
  {
    match FindTest(s, testId)
    case None => (Success(TestStatusResult(false, false)), s)
    case Some(_) => (Failure(NotAFunction), s)
  }

  /**
   * The discrepancy: completing a test linked to an order in production leaves both rows as they
   * were as written, while the intended update (`UpdateTestStatus`, the partial update through
   * `updateTestRecord`) writes the test and completes the order.
   */
  lemma AsWrittenNeverCascades(s: Store, testId: Id, conclusion: Option<string>, now: Time)
    requires FindTest(s, testId).Some? && Cascades(s, s.tests[FindTest(s, testId).value], TestCompleted)
    ensures UpdateTestStatusAsWritten(s, testId, TestCompleted, conclusion, now) == (Failure(NotAFunction), s)
    ensures var r := UpdateTestStatus(s, testId, TestCompleted, conclusion, now);
            r.0 == Success(TestStatusResult(true, true)) && r.1.tests[FindTest(s, testId).value].status == TestCompleted
  {
  }

  // ---------------------------------------------------------------------------
  // Creating tests for an order.

  /**
   * The thrown errors, in the order the checks are made: the three lookups, the insert schema's
   * column limits, and the insert's unique constraints.
   */
  datatype TestError = OrderNotFound | OrderHasNoFormula | FormulaNotFound | InvalidTestRecord | DuplicateTestKey

  /** `T-YYYYMMDD-XXX`: the date stamp and a random suffix (up to three upper-cased base-36 digits). */
  function TestNumber(stamp: string, suffix: string): (testNo: string)
    requires IsStamp(stamp)
    ensures |testNo| == 11 + |suffix|
    ensures testNo[..2] == "T-" && testNo[10] == '-'
    ensures testNo[2..10] == stamp && AllDigits(testNo[2..10])
    ensures testNo[11..] == suffix
  {
    "T-" + stamp + "-" + suffix
  }

  /** The test number determines its date stamp and suffix. */
  lemma TestNumberInjective(d1: string, x1: string, d2: string, x2: string)
    requires IsStamp(d1) && IsStamp(d2)
    requires TestNumber(d1, x1) == TestNumber(d2, x2)
    ensures d1 == d2 && x1 == x2
  {
  }

  /** The record `createTestForOrder` inserts for order `o` and formula `f`. */
  function TestDraftFor(o: Order, f: Formula, testType: string, tester: string, createdBy: string,
                        testNo: string): (d: TestDraft)
    ensures d.status == Some(TestPending) && d.testNo == testNo && d.testType == testType
    ensures d.orderId == Some(o.id) && d.orderNo == Some(o.orderNo)
    ensures d.formulaId == f.id && d.formulaName == f.name && d.formulaVersion == Some(f.version)
  {
    TestDraft(testNo, f.id, f.name, Some(f.version), Some(o.id), Some(o.orderNo), testType,
              Some(TestPending), None, tester, None, None, None, None, None, createdBy)
  }

  function CreateTestForOrder(s: Store, orderId: Id, testType: string, tester: string, createdBy: string,
                              stamp: string, suffix: string, id: Id, now: Time)
    : (r: Result<(TestRecord, Store), TestError>)
    requires IsStamp(stamp)
    ensures r == Failure(OrderNotFound) <==> FindOrder(s, orderId).None?
    ensures r == Failure(OrderHasNoFormula) <==>
      FindOrder(s, orderId).Some? && !Present(s.orders[FindOrder(s, orderId).value].formulaId)
    ensures r == Failure(FormulaNotFound) <==>
      && FindOrder(s, orderId).Some?
      && Present(s.orders[FindOrder(s, orderId).value].formulaId)
      && FindFormula(s, s.orders[FindOrder(s, orderId).value].formulaId.value).None?
    ensures r == Failure(InvalidTestRecord) <==>
      && FindOrder(s, orderId).Some?
      && Present(s.orders[FindOrder(s, orderId).value].formulaId)
      && FindFormula(s, s.orders[FindOrder(s, orderId).value].formulaId.value).Some?
      && var o := s.orders[FindOrder(s, orderId).value];
         var f := s.formulas[FindFormula(s, o.formulaId.value).value];
         !ValidTestDraft(TestDraftFor(o, f, testType, tester, createdBy, TestNumber(stamp, suffix)))
    ensures r == Failure(DuplicateTestKey) ==>
      exists j | 0 <= j < |s.tests| :: s.tests[j].id == id || s.tests[j].testNo == TestNumber(stamp, suffix)
    ensures r.Success? ==>
      var o := s.orders[FindOrder(s, orderId).value];
      var f := s.formulas[FindFormula(s, o.formulaId.value).value];
      var t := r.value.0;
      && r.value.1 == s.(tests := s.tests + [t])
      && t.id == id && t.status == TestPending && t.testType == testType
      && t.testNo == TestNumber(stamp, suffix)
      && t.orderId == Some(o.id) && t.orderNo == Some(o.orderNo)
      && t.formulaId == f.id && t.formulaName == f.name && t.formulaVersion == Some(f.version)
      && ValidTestDraft(TestDraftFor(o, f, testType, tester, createdBy, t.testNo))
      && (forall j | 0 <= j < |s.tests| :: s.tests[j].id != id && s.tests[j].testNo != t.testNo)
  {
    match FindOrder(s, orderId)
    case None => Failure(OrderNotFound)
    case Some(i) =>
      var o := s.orders[i];
      if !Present(o.formulaId) then Failure(OrderHasNoFormula)
      else match FindFormula(s, o.formulaId.value)
        case None => Failure(FormulaNotFound)
        case Some(k) =>
          var f := s.formulas[k];
          var testNo := TestNumber(stamp, suffix);
          var draft := TestDraftFor(o, f, testType, tester, createdBy, testNo);
          if !ValidTestDraft(draft) then Failure(InvalidTestRecord)
          else if exists j | 0 <= j < |s.tests| :: s.tests[j].id == id || s.tests[j].testNo == testNo then
            Failure(DuplicateTestKey)
          else
            var t := NewTestRecord(draft, id, now);
            Success((t, s.(tests := s.tests + [t])))
  }

  /** Creating a test keeps the test table's id and number unique. */
  lemma CreateTestPreservesWellFormed(s: Store, orderId: Id, testType: string, tester: string,
                                      createdBy: string, stamp: string, suffix: string, id: Id, now: Time)
    requires IsStamp(stamp) && WellFormed(s)
    ensures var r := CreateTestForOrder(s, orderId, testType, tester, createdBy, stamp, suffix, id, now);
            r.Success? ==> WellFormed(r.value.1)
  {
    var r := CreateTestForOrder(s, orderId, testType, tester, createdBy, stamp, suffix, id, now);
    if r.Success? {
      var ts := r.value.1.tests;
      assert UniqueKey(ts, TestId) by {
        forall i, j | 0 <= i < j < |ts| ensures TestId(ts[i]) != TestId(ts[j]) {
          if j < |s.tests| {
            assert TestId(s.tests[i]) != TestId(s.tests[j]);
          }
        }
      }
      assert UniqueKey(ts, TestNo) by {
        forall i, j | 0 <= i < j < |ts| ensures TestNo(ts[i]) != TestNo(ts[j]) {
          if j < |s.tests| {
            assert TestNo(s.tests[i]) != TestNo(s.tests[j]);
          }
        }
      }
    }
  }

  // ---------------------------------------------------------------------------
  // Batches.

  function TypesOf(ts: seq<TestRecord>): (types: seq<string>)
    ensures |types| == |ts| && forall k | 0 <= k < |ts| :: types[k] == ts[k].testType
  {
    seq(|ts|, k requires 0 <= k < |ts| => ts[k].testType)
  }

  /**
   * What one creation of a batch takes from the outside world: the generated id, the date stamp
   * rendered from its own read of the clock, and the random suffix. Each creation reads the clock
   * again, so a batch running across midnight UTC stamps its records with two dates.
   */
  datatype Draw = Draw(id: Id, stamp: string, suffix: string)

  /** Every draw carries an eight-digit date stamp. */
  predicate Stamped(draws: seq<Draw>) {
    forall k | 0 <= k < |draws| :: IsStamp(draws[k].stamp)
  }

  /** One iteration of the batch: the created record, or nothing when the creation throws. */
  function BatchStep(s: Store, orderId: Id, testType: string, tester: string, createdBy: string,
                     draw: Draw, now: Time): (r: (seq<TestRecord>, Store))
    requires IsStamp(draw.stamp)
    ensures |r.0| <= 1
    ensures r.1 == s.(tests := s.tests + r.0)
    ensures forall k | 0 <= k < |r.0| ::
      r.0[k].status == TestPending && r.0[k].orderId == Some(orderId) && r.0[k].testType == testType
  {
    match CreateTestForOrder(s, orderId, testType, tester, createdBy, draw.stamp, draw.suffix, draw.id, now)
    case Success((t, s1)) => ([t], s1)
    case Failure(_) => ([], s)
  }

  /**
   * `createBatchTestsForOrder`: one creation per test type, in order, each with its own draw;
   * failures are skipped.
   */
  function CreateBatchTests(s: Store, orderId: Id, testTypes: seq<string>, tester: string,
                            createdBy: string, draws: seq<Draw>, now: Time)
    : (r: (seq<TestRecord>, Store))
    requires Stamped(draws) && |draws| == |testTypes|
    ensures |r.0| <= |testTypes|
    ensures SubsequenceOf(TypesOf(r.0), testTypes)
    ensures r.1 == s.(tests := s.tests + r.0)
    ensures forall k | 0 <= k < |r.0| :: r.0[k].status == TestPending && r.0[k].orderId == Some(orderId)
    decreases |testTypes|
  {
    if |testTypes| == 0 then ([], s)
    else
      StampedTail(draws);
      var (made, s1) := BatchStep(s, orderId, testTypes[0], tester, createdBy, draws[0], now);
      var (rest, s') := CreateBatchTests(s1, orderId, testTypes[1..], tester, createdBy, draws[1..], now);
      BatchTypes(made, rest, testTypes);
      PendingLinkedAppend(made, rest, orderId);
      AppendTests(s, s1, s', made, rest);
      (made + rest, s')
  }

  lemma StampedTail(draws: seq<Draw>)
    requires Stamped(draws) && |draws| > 0
    ensures IsStamp(draws[0].stamp) && Stamped(draws[1..])
  {
    assert forall k | 0 <= k < |draws[1..]| :: draws[1..][k] == draws[k + 1];
  }

  /** Appending a step's records and then the rest's is appending both at once. */
  lemma AppendTests(s: Store, s1: Store, s': Store, made: seq<TestRecord>, rest: seq<TestRecord>)
    requires s1 == s.(tests := s.tests + made) && s' == s1.(tests := s1.tests + rest)
    ensures s' == s.(tests := s.tests + (made + rest))
  {
    assert s.tests + made + rest == s.tests + (made + rest);
  }

  /** Records that are all pending and linked to the order stay so when concatenated. */
  lemma PendingLinkedAppend(made: seq<TestRecord>, rest: seq<TestRecord>, orderId: Id)
    requires forall k | 0 <= k < |made| :: made[k].status == TestPending && made[k].orderId == Some(orderId)
    requires forall k | 0 <= k < |rest| :: rest[k].status == TestPending && rest[k].orderId == Some(orderId)
    ensures forall k | 0 <= k < |made + rest| ::
      (made + rest)[k].status == TestPending && (made + rest)[k].orderId == Some(orderId)
  {
    forall k | 0 <= k < |made + rest|
      ensures (made + rest)[k].status == TestPending && (made + rest)[k].orderId == Some(orderId)
    {
      if k < |made| {
        assert (made + rest)[k] == made[k];
      } else {
        assert (made + rest)[k] == rest[k - |made|];
      }
    }
  }

  lemma BatchTypes(made: seq<TestRecord>, rest: seq<TestRecord>, testTypes: seq<string>)
    requires |testTypes| > 0 && SubsequenceOf(TypesOf(rest), testTypes[1..])
    requires made == [] || (|made| == 1 && made[0].testType == testTypes[0])
    ensures SubsequenceOf(TypesOf(made + rest), testTypes)
  {
    assert TypesOf(made + rest) == TypesOf(made) + TypesOf(rest);
    SubsequenceCons(TypesOf(made), TypesOf(rest), testTypes);
  }

  /** A missing order, an order without a formula or a missing formula fail every creation: nothing is created. */
  lemma {:induction false} BatchForUnusableOrder(s: Store, orderId: Id, testTypes: seq<string>, tester: string,
                                                 createdBy: string, draws: seq<Draw>, now: Time)
    requires Stamped(draws) && |draws| == |testTypes|
    requires || FindOrder(s, orderId).None?
             || !Present(s.orders[FindOrder(s, orderId).value].formulaId)
             || FindFormula(s, s.orders[FindOrder(s, orderId).value].formulaId.value).None?
    ensures CreateBatchTests(s, orderId, testTypes, tester, createdBy, draws, now) == ([], s)
    decreases |testTypes|
  {
    if |testTypes| > 0 {
      StampedTail(draws);
      BatchForUnusableOrder(s, orderId, testTypes[1..], tester, createdBy, draws[1..], now);
    }
  }

  /** The test number a draw gives. */
  function DrawNumber(d: Draw): (testNo: string)
    requires IsStamp(d.stamp)
    ensures |testNo| == 11 + |d.suffix|
    ensures testNo[2..10] == d.stamp && testNo[11..] == d.suffix
  {
    TestNumber(d.stamp, d.suffix)
  }

  /**
   * The draws are fresh: no drawn id or test number is already in the table, and no two draws
   * share an id or a test number.
   */
  predicate FreshDraws(tests: seq<TestRecord>, draws: seq<Draw>)
    requires Stamped(draws)
  {
    && (forall k, j | 0 <= k < |draws| && 0 <= j < |tests| ::
          tests[j].id != draws[k].id && tests[j].testNo != DrawNumber(draws[k]))
    && (forall k, m | 0 <= k < m < |draws| ::
          draws[k].id != draws[m].id && DrawNumber(draws[k]) != DrawNumber(draws[m]))
  }

  /**
   * With a usable order, records that pass the insert schema, and fresh draws, every test type
   * gets its record, in order.
   */
  lemma BatchCreatesAll(s: Store, orderId: Id, testTypes: seq<string>, tester: string,
                         createdBy: string, draws: seq<Draw>, now: Time)
    requires Stamped(draws) && |draws| == |testTypes|
    requires FindOrder(s, orderId).Some?
    requires Present(s.orders[FindOrder(s, orderId).value].formulaId)
    requires FindFormula(s, s.orders[FindOrder(s, orderId).value].formulaId.value).Some?
    requires var o := s.orders[FindOrder(s, orderId).value];
      var f := s.formulas[FindFormula(s, o.formulaId.value).value];
      forall k | 0 <= k < |testTypes| ::
        ValidTestDraft(TestDraftFor(o, f, testTypes[k], tester, createdBy, DrawNumber(draws[k])))
    requires FreshDraws(s.tests, draws)
    ensures TypesOf(CreateBatchTests(s, orderId, testTypes, tester, createdBy, draws, now).0) == testTypes
  {
    var i := FindOrder(s, orderId).value;
    var fi := FindFormula(s, s.orders[i].formulaId.value).value;
    BatchCreatesAllFor(s, orderId, i, fi, testTypes, tester, createdBy, draws, now);
  }

  /** `BatchCreatesAll` with the order's and the formula's rows named, by induction on the types. */
  lemma {:induction false} BatchCreatesAllFor(s: Store, orderId: Id, i: nat, fi: nat, testTypes: seq<string>,
                                              tester: string, createdBy: string,
                                              draws: seq<Draw>, now: Time)
    requires Stamped(draws) && |draws| == |testTypes|
    requires FindOrder(s, orderId) == Some(i) && i < |s.orders|
    requires Present(s.orders[i].formulaId)
    requires FindFormula(s, s.orders[i].formulaId.value) == Some(fi) && fi < |s.formulas|
    requires forall k | 0 <= k < |testTypes| ::
      ValidTestDraft(TestDraftFor(s.orders[i], s.formulas[fi], testTypes[k], tester, createdBy,
                                  DrawNumber(draws[k])))
    requires FreshDraws(s.tests, draws)
    ensures TypesOf(CreateBatchTests(s, orderId, testTypes, tester, createdBy, draws, now).0) == testTypes
    decreases |testTypes|
  {
    if |testTypes| > 0 {
      var o := s.orders[i];
      var f := s.formulas[fi];
      StampedTail(draws);
      ValidDraftsTail(o, f, testTypes, tester, createdBy, draws);
      assert forall j | 0 <= j < |s.tests| ::
        s.tests[j].id != draws[0].id && s.tests[j].testNo != DrawNumber(draws[0]);
      var t, s1 := FirstTypeCreated(s, orderId, testTypes[0], tester, createdBy, draws[0], now);
      FreshDrawsStep(s.tests, t, draws);
      assert s1.orders == s.orders && s1.formulas == s.formulas;
      BatchCreatesAllFor(s1, orderId, i, fi, testTypes[1..], tester, createdBy, draws[1..], now);
      var rest := CreateBatchTests(s1, orderId, testTypes[1..], tester, createdBy, draws[1..], now).0;
      BatchUnfold(s, orderId, testTypes, tester, createdBy, draws, now, t, s1);
      TypesCons(t, rest, testTypes);
    }
  }

  /** A record of the first type ahead of records of the remaining types covers all types. */
  lemma TypesCons(t: TestRecord, rest: seq<TestRecord>, testTypes: seq<string>)
    requires |testTypes| > 0 && t.testType == testTypes[0] && TypesOf(rest) == testTypes[1..]
    ensures TypesOf([t] + rest) == testTypes
  {
    assert TypesOf([t] + rest) == [testTypes[0]] + TypesOf(rest);
  }

  /** The first type's draft passes the schema, and so do the remaining types' drafts. */
  lemma ValidDraftsTail(o: Order, f: Formula, testTypes: seq<string>, tester: string, createdBy: string,
                        draws: seq<Draw>)
    requires Stamped(draws) && |draws| == |testTypes| > 0
    requires forall k | 0 <= k < |testTypes| ::
      ValidTestDraft(TestDraftFor(o, f, testTypes[k], tester, createdBy, DrawNumber(draws[k])))
    ensures Stamped(draws[1..])
    ensures ValidTestDraft(TestDraftFor(o, f, testTypes[0], tester, createdBy, DrawNumber(draws[0])))
    ensures forall k | 0 <= k < |testTypes[1..]| ::
      ValidTestDraft(TestDraftFor(o, f, testTypes[1..][k], tester, createdBy, DrawNumber(draws[1..][k])))
  {
    StampedTail(draws);
    forall k | 0 <= k < |testTypes[1..]|
      ensures ValidTestDraft(TestDraftFor(o, f, testTypes[1..][k], tester, createdBy,
                                          DrawNumber(draws[1..][k])))
    {
      assert testTypes[1..][k] == testTypes[k + 1] && draws[1..][k] == draws[k + 1];
    }
  }

  /** A usable order, a draft that passes the schema and a fresh draw: the creation goes through. */
  lemma FirstTypeCreated(s: Store, orderId: Id, testType: string, tester: string, createdBy: string,
                         draw: Draw, now: Time) returns (t: TestRecord, s1: Store)
    requires IsStamp(draw.stamp)
    requires FindOrder(s, orderId).Some?
    requires Present(s.orders[FindOrder(s, orderId).value].formulaId)
    requires FindFormula(s, s.orders[FindOrder(s, orderId).value].formulaId.value).Some?
    requires var o := s.orders[FindOrder(s, orderId).value];
      var f := s.formulas[FindFormula(s, o.formulaId.value).value];
      ValidTestDraft(TestDraftFor(o, f, testType, tester, createdBy, DrawNumber(draw)))
    requires forall j | 0 <= j < |s.tests| ::
      s.tests[j].id != draw.id && s.tests[j].testNo != DrawNumber(draw)
    ensures t.id == draw.id && t.testNo == DrawNumber(draw) && t.testType == testType
    ensures s1 == s.(tests := s.tests + [t])
    ensures BatchStep(s, orderId, testType, tester, createdBy, draw, now) == ([t], s1)
  {
    var r := CreateTestForOrder(s, orderId, testType, tester, createdBy, draw.stamp, draw.suffix, draw.id, now);
    t, s1 := r.value.0, r.value.1;
  }

  /** One unfolding of the batch whose first step created `t`. */
  lemma BatchUnfold(s: Store, orderId: Id, testTypes: seq<string>, tester: string, createdBy: string,
                    draws: seq<Draw>, now: Time, t: TestRecord, s1: Store)
    requires Stamped(draws) && |draws| == |testTypes| > 0
    requires BatchStep(s, orderId, testTypes[0], tester, createdBy, draws[0], now) == ([t], s1)
    ensures Stamped(draws[1..])
    ensures CreateBatchTests(s, orderId, testTypes, tester, createdBy, draws, now).0
         == [t] + CreateBatchTests(s1, orderId, testTypes[1..], tester, createdBy, draws[1..], now).0
  {
    StampedTail(draws);
  }

  /** After the first draw's record is added, the remaining draws are still fresh. */
  lemma FreshDrawsStep(tests: seq<TestRecord>, t: TestRecord, draws: seq<Draw>)
    requires Stamped(draws) && |draws| > 0
    requires t.id == draws[0].id && t.testNo == DrawNumber(draws[0])
    requires FreshDraws(tests, draws)
    ensures Stamped(draws[1..])
    ensures FreshDraws(tests + [t], draws[1..])
  {
    StampedTail(draws);
    forall k, j | 0 <= k < |draws[1..]| && 0 <= j < |tests + [t]|
      ensures (tests + [t])[j].id != draws[1..][k].id && (tests + [t])[j].testNo != DrawNumber(draws[1..][k])
    {
      assert draws[1..][k] == draws[k + 1];
      if j == |tests| {
        assert draws[0].id != draws[k + 1].id && DrawNumber(draws[0]) != DrawNumber(draws[k + 1]);
      } else {
        assert (tests + [t])[j] == tests[j];
      }
    }
    forall k, m | 0 <= k < m < |draws[1..]|
      ensures draws[1..][k].id != draws[1..][m].id && DrawNumber(draws[1..][k]) != DrawNumber(draws[1..][m])
    {
      assert draws[1..][k] == draws[k + 1] && draws[1..][m] == draws[m + 1];
    }
  }
}

=== FILE: text.dfy ===
/**
 * Character classes, upper-casing into ASCII capitals and decimal rendering of integers, as used by
 * the identifier formats (material codes, order numbers, test numbers, tracking numbers).
 */
module Text {

  predicate IsDigit(c: char) { '0' <= c <= '9' }
  predicate IsUpper(c: char) { 'A' <= c <= 'Z' }
  predicate IsLower(c: char) { 'a' <= c <= 'z' }
  predicate IsAsciiLetter(c: char) { IsUpper(c) || IsLower(c) }
  predicate IsAsciiAlnum(c: char) { IsAsciiLetter(c) || IsDigit(c) }

  predicate AllDigits(s: string) {
    forall i | 0 <= i < |s| :: IsDigit(s[i])
  }

  /**
   * The characters whose upper case is an ASCII capital without being one: the ASCII lower-case
   * letters, the dotless i (U+0131, upper case `I`) and the long s (U+017F, upper case `S`).
   */
  predicate UpcasesToAscii(c: char) {
    IsLower(c) || c == '\U{131}' || c == '\U{17F}'
  }

  /** Nothing in `s` that upper-casing would turn into an ASCII capital. */
  predicate NoLower(s: string) {
    forall i | 0 <= i < |s| :: !UpcasesToAscii(s[i])
  }

  /** `String.prototype.startsWith`. */
  predicate StartsWith(s: string, prefix: string) {
    |prefix| <= |s| && s[..|prefix|] == prefix
  }

  // ---------------------------------------------------------------------------
  // Length in UTF-16 code units (JavaScript's `length`).

  /** A character outside the Basic Multilingual Plane, stored as a surrogate pair. */
  predicate IsAstral(c: char) { c as int >= 0x1_0000 }

  /** `s.length`: every character counts one code unit, an astral one two. */
  function Utf16Length(s: string): (n: nat)
    ensures |s| <= n <= 2 * |s|
    decreases |s|
  {
    if |s| == 0 then 0 else (if IsAstral(s[0]) then 2 else 1) + Utf16Length(s[1..])
  }

  /** Without astral characters the code units are the characters. */
  lemma {:induction false} Utf16LengthBmp(s: string)
    requires forall i | 0 <= i < |s| :: !IsAstral(s[i])
    ensures Utf16Length(s) == |s|
    decreases |s|
  {
    if |s| > 0 {
      assert forall i | 0 <= i < |s[1..]| :: s[1..][i] == s[i + 1];
      Utf16LengthBmp(s[1..]);
    }
  }

  /** With only astral characters every character takes two code units. */
  lemma {:induction false} Utf16LengthAstral(s: string)
    requires forall i | 0 <= i < |s| :: IsAstral(s[i])
    ensures Utf16Length(s) == 2 * |s|
    decreases |s|
  {
    if |s| > 0 {
      assert forall i | 0 <= i < |s[1..]| :: s[1..][i] == s[i + 1];
      Utf16LengthAstral(s[1..]);
    }
  }

  /** U+FFFD, which a lone surrogate becomes when the text is encoded as UTF-8 to be stored. */
  const ReplacementChar: char := '\U{FFFD}'

  /**
   * `s.substring(0, 1)` as it is stored: the first UTF-16 code unit. For an astral first
   * character that unit is a lone high surrogate, which is not a Dafny `char`; writing it stores
   * U+FFFD, so that is what the model yields.
   */
  function FirstCodeUnit(s: string): (r: string)
    ensures Utf16Length(r) == if s == "" then 0 else 1
    ensures r <= s <==> s == "" || !IsAstral(s[0])
    ensures s != "" && IsAstral(s[0]) ==> r == [ReplacementChar]
  {
    if s == "" then "" else if IsAstral(s[0]) then [ReplacementChar] else [s[0]]
  }

  // ---------------------------------------------------------------------------
  // Upper-casing (`toUpperCase`), restricted to the characters whose upper case is an ASCII letter.

  function UpperChar(c: char): (u: char)
    ensures !UpcasesToAscii(u)
    ensures IsUpper(u) <==> IsUpper(c) || UpcasesToAscii(c)
    ensures !UpcasesToAscii(c) ==> u == c
  {
    if IsLower(c) then (c as int - 32) as char
    else if c == '\U{131}' then 'I'
    else if c == '\U{17F}' then 'S'
    else c
  }

  function ToUpper(s: string): (r: string)
    ensures |r| == |s|
    ensures NoLower(r)
  {
    seq(|s|, i requires 0 <= i < |s| => UpperChar(s[i]))
  }

  /** A string without lower-case letters is left alone by upper-casing. */
  lemma ToUpperFixesNoLower(s: string)
    requires NoLower(s)
    ensures ToUpper(s) == s
  {
  }

  lemma ToUpperIdempotent(s: string)
    ensures ToUpper(ToUpper(s)) == ToUpper(s)
  {
    ToUpperFixesNoLower(ToUpper(s));
  }

  // ---------------------------------------------------------------------------
  // Decimal digits.

  function DigitChar(d: nat): (c: char)
    requires d < 10
    ensures IsDigit(c)
  {
    ('0' as int + d) as char
  }

  function DigitValue(c: char): (d: nat)
    requires IsDigit(c)
    ensures d < 10 && DigitChar(d) == c
  {
    c as int - '0' as int
  }

  function Pow10(k: nat): (p: nat)
    ensures p >= 1
  {
    if k == 0 then 1 else 10 * Pow10(k - 1)
  }

  /** `n.toString()` for a non-negative integer: decimal, no leading zeros. */
  function NatToString(n: nat): (s: string)
    ensures |s| >= 1 && AllDigits(s)
    decreases n
  {
    if n < 10 then [DigitChar(n)] else NatToString(n / 10) + [DigitChar(n % 10)]
  }

  /** `i.toString()` for any integer. */
  function IntToString(i: int): (s: string)
    ensures i >= 0 ==> AllDigits(s)
    ensures i < 0 ==> |s| >= 2 && s[0] == '-'
  {
    if i < 0 then "-" + NatToString(-i) else NatToString(i)
  }

  /** `s.padStart(width, fill)` for a one-character fill. */
  function PadStart(s: string, width: nat, fill: char): (r: string)
    ensures |r| == if |s| >= width then |s| else width
    ensures r[|r| - |s|..] == s
    ensures forall k | 0 <= k < |r| - |s| :: r[k] == fill
  {
    if |s| >= width then s else seq(width - |s|, _ => fill) + s
  }

  /** `parseInt(s, 10)` of a string of decimal digits. */
  function DigitsValue(s: string): nat
    requires AllDigits(s)
    decreases |s|
  {
    if |s| == 0 then 0 else DigitsValue(s[..|s| - 1]) * 10 + DigitValue(s[|s| - 1])
  }

  /** The decimal rendering has at most k digits exactly when the number is below 10^k. */
  lemma {:induction false} NatToStringLength(n: nat, k: nat)
    requires k >= 1
    ensures |NatToString(n)| <= k <==> n < Pow10(k)
    decreases n
  {
    if n >= 10 {
      if k == 1 {
        assert |NatToString(n)| >= 2 by {
          assert |NatToString(n / 10)| >= 1;
        }
      } else {
        NatToStringLength(n / 10, k - 1);
      }
    }
  }

  /** Parsing the decimal rendering gives the number back. */
  lemma {:induction false} NatToStringRoundTrip(n: nat)
    ensures DigitsValue(NatToString(n)) == n
    decreases n
  {
    var s := NatToString(n);
    if n >= 10 {
      NatToStringRoundTrip(n / 10);
      assert s[..|s| - 1] == NatToString(n / 10);
    }
  }

  lemma {:induction false} ZerosValue(k: nat)
    ensures DigitsValue(seq(k, _ => '0')) == 0
  {
    if k > 0 {
      assert seq(k, _ => '0')[..k - 1] == seq(k - 1, _ => '0');
      ZerosValue(k - 1);
    }
  }

  /** Leading zeros do not change the value of a digit string. */
  lemma {:induction false} LeadingZerosValue(k: nat, s: string)
    requires AllDigits(s)
    ensures AllDigits(seq(k, _ => '0') + s)
    ensures DigitsValue(seq(k, _ => '0') + s) == DigitsValue(s)
    decreases |s|
  {
    var z := seq(k, _ => '0');
    var t := z + s;
    if |s| == 0 {
      assert t == z;
      ZerosValue(k);
    } else {
      assert t[..|t| - 1] == z + s[..|s| - 1];
      LeadingZerosValue(k, s[..|s| - 1]);
    }
  }

  /** Zero padding to a width keeps the parsed value. */
  lemma PadStartValue(s: string, width: nat)
    requires AllDigits(s)
    ensures AllDigits(PadStart(s, width, '0'))
    ensures DigitsValue(PadStart(s, width, '0')) == DigitsValue(s)
  {
    if |s| < width {
      LeadingZerosValue(width - |s|, s);
    }
  }

  /** A number below 10^w, zero padded to w digits, is exactly w digits and parses back. */
  lemma PaddedNat(n: nat, w: nat)
    requires w >= 1 && n < Pow10(w)
    ensures |PadStart(NatToString(n), w, '0')| == w
    ensures AllDigits(PadStart(NatToString(n), w, '0'))
    ensures DigitsValue(PadStart(NatToString(n), w, '0')) == n
  {
    NatToStringLength(n, w);
    PadStartValue(NatToString(n), w);
    NatToStringRoundTrip(n);
  }

  lemma AllDigitsAppend(a: string, b: string)
    requires AllDigits(a) && AllDigits(b)
    ensures AllDigits(a + b)
  {
  }
}

=== FILE: users.dfy ===
/**
 * The in-memory credential store: a list of users and a table from user name to password digest.
 * The module-level arrays become an explicit `UserStore` value threaded through the operations.
 * The digest function is abstracted as an injective one; the only property of the real encoding
 * (base64) the store depends on is that the empty password has the empty, falsy digest.
 */
module Users {
  import opened Wrappers
  import opened Text
  import opened Schema

  datatype Role = Admin | Member

  datatype User = User(id: Id, username: string, role: Role, createdAt: Time)

  /** `hashPassword(p)`: injective by construction; a digest is falsy exactly for the empty password. */
  datatype Digest = Digest(password: string)

  function HashPassword(password: string): Digest {
    Digest(password)
  }

  /** `!!hashedPassword`. */
  predicate Truthy(d: Digest) {
    d.password != ""
  }

  /**
   * The digests live in a plain object literal. Writing a string under `__proto__` goes to the
   * prototype setter, which ignores it, and reading `__proto__` yields the prototype object, which
   * is truthy and never equal to a digest. Every other inherited name (`constructor`, `toString`, ...)
   * reads as a truthy non-digest until written, which verifies nothing, as an absent entry does.
   */
  const ProtoKey: string := "__proto__"

  datatype UserStore = UserStore(users: seq<User>, passwords: map<string, Digest>)

  /** `passwords[name] = d`. */
  function StoreDigest(passwords: map<string, Digest>, name: string, d: Digest): (r: map<string, Digest>)
    ensures name == ProtoKey ==> r == passwords
    ensures name != ProtoKey ==> name in r && r[name] == d
    ensures forall other | other != name :: (other in r <==> other in passwords)
    ensures forall other | other != name && other in passwords :: r[other] == passwords[other]
  {
    if name == ProtoKey then passwords else passwords[name := d]
  }

  /** 2024-01-01T00:00:00Z in milliseconds. */
  const AdminCreatedAt: Time := 1704067200000

  function AdminUser(): User {
    User("admin-001", "admin", Admin, AdminCreatedAt)
  }

  const DefaultAdminPassword: string := "admin123"

  /** `initializeUsers()`: restore the admin user into an empty list and the admin digest if missing. */
  function InitializeUsers(st: UserStore): (r: UserStore)
    ensures |r.users| > 0
    ensures "admin" in r.passwords && Truthy(r.passwords["admin"])
    ensures |st.users| > 0 ==> r.users == st.users
    ensures |st.users| == 0 ==> r.users == [AdminUser()]
    ensures "admin" in st.passwords && Truthy(st.passwords["admin"]) ==> r.passwords == st.passwords
    ensures forall name | name in st.passwords && name != "admin" :: name in r.passwords && r.passwords[name] == st.passwords[name]
    ensures r.passwords.Keys == st.passwords.Keys + {"admin"}
  {
    var users := if |st.users| == 0 then [AdminUser()] else st.users;
    var passwords :=
      if "admin" !in st.passwords || !Truthy(st.passwords["admin"])
      then st.passwords["admin" := HashPassword(DefaultAdminPassword)]
      else st.passwords;
    UserStore(users, passwords)
  }

  /** Calling `initializeUsers` twice is the same as calling it once. */
  lemma InitializeIdempotent(st: UserStore)
    ensures InitializeUsers(InitializeUsers(st)) == InitializeUsers(st)
  {
  }

  /** The store as the module loads it: the literal admin entries, then `initializeUsers()`. */
  function InitialStore(): (r: UserStore)
    ensures r.users == [AdminUser()]
    ensures r.passwords == map["admin" := HashPassword(DefaultAdminPassword)]
  {
    InitializeUsers(UserStore([AdminUser()], map["admin" := HashPassword(DefaultAdminPassword)]))
  }

  /** `users.find(u => u.username === username)`, as a position. */
  function FindUser(users: seq<User>, username: string): (r: Option<nat>)
    ensures r.Some? ==> r.value < |users| && users[r.value].username == username
    ensures r.Some? ==> forall k | 0 <= k < r.value :: users[k].username != username
    ensures r.None? ==> forall k | 0 <= k < |users| :: users[k].username != username
  {
    FirstIndex(users, (u: User) => u.username == username)
  }

  /** `getUserByUsername`: the first user with that name. */
  function GetUserByUsername(st: UserStore, username: string): (r: Option<User>)
    ensures r.None? <==> forall k | 0 <= k < |st.users| :: st.users[k].username != username
    ensures r.Some? ==> r.value in st.users && r.value.username == username
    ensures r.Some? ==> exists k | 0 <= k < |st.users| :: st.users[k] == r.value
                          && forall j | 0 <= j < k :: st.users[j].username != username
  {
    match FindUser(st.users, username)
    case None => None
    case Some(k) => Some(st.users[k])
  }

  /** `verifyPassword`: a listed user with a truthy stored digest that the password's digest matches. */
  function VerifyPassword(st: UserStore, username: string, password: string): (r: bool)
    ensures GetUserByUsername(st, username).None? ==> !r
    ensures username !in st.passwords || !Truthy(st.passwords[username]) ==> !r
    ensures username == ProtoKey ==> !r
    ensures r ==> password != ""
  {
    if GetUserByUsername(st, username).None? then false
    else if username == ProtoKey then false
    else if username !in st.passwords || !Truthy(st.passwords[username]) then false
    else HashPassword(password) == st.passwords[username]
  }

  /** With a listed user whose stored password is `p`, exactly `p` verifies, unless `p` is empty. */
  lemma VerifyStored(st: UserStore, username: string, p: string, q: string)
    requires GetUserByUsername(st, username).Some? && username != ProtoKey
    requires username in st.passwords && st.passwords[username] == HashPassword(p)
    ensures VerifyPassword(st, username, q) <==> q == p && p != ""
  {
  }

  /**
   * `updateUserPassword`: `false` and no change for an unknown user, otherwise store the new digest
   * (a write the object ignores for `__proto__`, though the answer is still `true`).
   */
  function UpdateUserPassword(st: UserStore, username: string, newPassword: string): (r: (bool, UserStore))
    ensures r.0 <==> GetUserByUsername(st, username).Some?
    ensures !r.0 || username == ProtoKey ==> r.1 == st
    ensures r.1.users == st.users
    ensures r.0 && username != ProtoKey ==>
      username in r.1.passwords && r.1.passwords[username] == HashPassword(newPassword)
    ensures forall name | name != username :: (name in r.1.passwords <==> name in st.passwords)
    ensures forall name | name != username && name in st.passwords :: r.1.passwords[name] == st.passwords[name]
  {
    if GetUserByUsername(st, username).None? then (false, st)
    else (true, st.(passwords := StoreDigest(st.passwords, username, HashPassword(newPassword))))
  }

  /**
   * After a successful update the new password, and only it, verifies for that user (an empty
   * new password stores a falsy digest, so then nothing verifies, and nothing ever verifies for
   * `__proto__`); every other user verifies as before.
   */
  lemma UpdateThenVerify(st: UserStore, username: string, newPassword: string, other: string, q: string)
    requires UpdateUserPassword(st, username, newPassword).0
    ensures var st' := UpdateUserPassword(st, username, newPassword).1;
            && (VerifyPassword(st', username, q) <==> q == newPassword && newPassword != "" && username != ProtoKey)
            && (other != username ==> VerifyPassword(st', other, q) == VerifyPassword(st, other, q))
  {
    var st' := UpdateUserPassword(st, username, newPassword).1;
    if username != ProtoKey {
      VerifyStored(st', username, newPassword, q);
    }
  }

  /** `addUser`: append the user (no duplicate check) and store the digest under the name. */
  function AddUser(st: UserStore, username: string, role: Role, password: string, now: Time): (r: (User, UserStore))
    ensures r.0 == User("user-" + IntToString(now), username, role, now)
    ensures r.1.users == st.users + [r.0]
    ensures username != ProtoKey ==> r.1.passwords == st.passwords[username := HashPassword(password)]
    ensures username == ProtoKey ==> r.1.passwords == st.passwords
  {
    var u := User("user-" + IntToString(now), username, role, now);
    (u, UserStore(st.users + [u], StoreDigest(st.passwords, username, HashPassword(password))))
  }

  /**
   * Adding a name that is already listed keeps the original record in front of lookups, while the
   * password stored for the name is overwritten by the new one.
   */
  lemma AddExistingUser(st: UserStore, username: string, role: Role, password: string, now: Time, q: string)
    requires GetUserByUsername(st, username).Some?
    ensures var st' := AddUser(st, username, role, password, now).1;
            && GetUserByUsername(st', username) == GetUserByUsername(st, username)
            && (VerifyPassword(st', username, q) <==> q == password && password != "" && username != ProtoKey)
  {
    var st' := AddUser(st, username, role, password, now).1;
    var k := FindUser(st.users, username).value;
    assert forall j | 0 <= j < |st.users| :: st'.users[j] == st.users[j];
    assert FindUser(st'.users, username) == Some(k);
    if username != ProtoKey {
      VerifyStored(st', username, password, q);
    }
  }

  /** A new name becomes a listed user whose password verifies (except `__proto__`, which never does). */
  lemma AddNewUser(st: UserStore, username: string, role: Role, password: string, now: Time, q: string)
    requires GetUserByUsername(st, username).None?
    ensures var r := AddUser(st, username, role, password, now);
            && GetUserByUsername(r.1, username) == Some(r.0)
            && (VerifyPassword(r.1, username, q) <==> q == password && password != "" && username != ProtoKey)
  {
    var r := AddUser(st, username, role, password, now);
    assert forall j | 0 <= j < |st.users| :: r.1.users[j] == st.users[j];
    assert r.1.users[|st.users|] == r.0;
    assert FindUser(r.1.users, username) == Some(|st.users|);
    if username != ProtoKey {
      VerifyStored(r.1, username, password, q);
    }
  }

  /** The initial store admits `admin` with `admin123` and nothing else. */
  lemma InitialAdminLogin(q: string)
    ensures VerifyPassword(InitialStore(), "admin", q) <==> q == DefaultAdminPassword
  {
    assert FindUser(InitialStore().users, "admin") == Some(0);
    VerifyStored(InitialStore(), "admin", DefaultAdminPassword, q);
  }
}

=== FILE: wrappers.dfy ===
/**
 * Optional values and results, standing in for the `null` returns and thrown errors of the system,
 * and the first-match lookup built on them.
 */
module Wrappers {

  /** A value that may be absent: a nullable column, an optional argument, a lookup that found nothing. */
  datatype Option<+T> = None | Some(value: T) {

    /** The value if present, otherwise `default` (the `x ?? default` of the system). */
    function GetOr(default: T): T {
      match this
      case Some(v) => v
      case None => default
    }
  }

  /** Either a successful value or the error the system throws. */
  datatype Result<+R, +E> = Success(value: R) | Failure(error: E)

  /** JavaScript truthiness of an optional string: absent and empty are both falsy. */
  predicate Present(o: Option<string>) {
    o.Some? && o.value != ""
  }

  /** A column after a partial update: the supplied value when there is one, otherwise the value it had. */
  predicate Patched<T(==)>(supplied: Option<T>, before: T, after: T) {
    && (supplied.None? ==> after == before)
    && (supplied.Some? ==> after == supplied.value)
  }

  /** Column update of a partial patch: a supplied value replaces the current one, an omitted one keeps it. */
  function Patch<T>(supplied: Option<T>, current: T): (r: T)
    ensures supplied.None? ==> r == current
    ensures supplied.Some? ==> r == supplied.value
  {
    supplied.GetOr(current)
  }

  /** `findIndex`: the position of the first element satisfying `p`, `None` when there is none. */
  function FirstIndex<T>(rows: seq<T>, p: T -> bool): (r: Option<nat>)
    ensures r.Some? ==> r.value < |rows| && p(rows[r.value])
    ensures r.Some? ==> forall j | 0 <= j < r.value :: !p(rows[j])
    ensures r.None? ==> forall j | 0 <= j < |rows| :: !p(rows[j])
    decreases |rows|
  {
    if |rows| == 0 then None
    else if p(rows[0]) then Some(0)
    else match FirstIndex(rows[1..], p)
      case None => None
      case Some(k) => Some(k + 1)
  }
}
